=== FILE: README.md ===
# Low-level design cores, modelled and proved in Dafny

This project models four small low-level-design programs as pure Dafny
functions over immutable datatypes, and proves what they promise.

- **LRU caches.** These are the two hand-written least-recently-used caches,
  one with `int` values and one generic. Each keeps a hash map and a
  doubly linked recency list. The model (`LruCache`) keeps the recency list
  as a sequence of keys, most recent first, next to a key-to-value map.
  `LruBasic` and `LruGeneric` add each variant's way of reporting a miss
  (`-1` or `null`) and its demo. Every sequence of reads and writes from a
  new cache of capacity at least 1 is proved equal to a reference: "the `capacity` most recently
  touched keys, with the last value written to each".
- **Consistent-hash rings.** `addServer`, `removeServer` and `getServer`
  work over a sorted map from 32-bit positions to servers. Each server has
  `numberOfReplicas` virtual replicas (3 in the demos), and each position is the first four bytes of an MD5
  digest read big-endian. The model (`HashRing`) uses a `map<int, S>` over
  `[0, 2^32)` and takes the digest as a parameter. Lookup is proved to
  return the owner of the ceiling position, or of the first position when
  the hash is past the last one. Removing a server that still owns all its
  replica positions is proved to move only that server's keys. `HashRingBasic` (string servers) and
  `HashRingGeneric` (servers named by `toString()`) add the demos.
- **ATM.** This group covers:
  - the greedy "least number of notes" strategy (`LeastNotes`);
  - the cash dispenser with its inventory of denominations (`CashDispenser`);
  - the card validator, with its Luhn check and expiry check (`CardValidator`);
  - the withdrawal transaction, which validates, debits and then dispenses
    (`WithdrawTransaction`).

  The bank is an oracle of three answers.
- **Parking lot.** This group covers:
  - spot allocation: the fitting-size search with its fallback, and the
    nearest-spot strategy, which picks the least spot id in
    `String.compareTo` order;
  - exit processing;
  - spots, tickets and per-hour pricing.

  Modules: `ParkingSpot`, `ParkingTicket`, `NearestSpot`, `PerHourPricing`
  and `ParkingLot`. `ParkingSample` models the builder's ten-spot lot and
  the demo driver's two entries and two exits. Entry and exit are proved to
  keep the lot consistent: every active ticket holds its own occupied spot.

`JavaText` holds the bits of Java's string behaviour the models need:
`Integer.toString`, `String.compareTo`, `indexOf`, and `long` division,
which truncates toward zero.

Behaviours of the programs as written that the proofs pin down:
- A generic or basic LRU of capacity 0 dereferences a null tail on the first
  insertion of a new key (`LruCache.Put` returns `Err(NullDereference)`).
- A stored `-1` or `null` is indistinguishable from a miss.
- Replica names are built by plain concatenation, so `"server1"` replica 10
  and `"server11"` replica 0 hash the same string.
- The greedy note strategy is incomplete: with one 50 and three 20s it
  cannot pay 60.
- `canDispenseAmount`'s comparison with the total is implied by the plan
  existing.
- The stub bank reports every withdrawal as over the limit, so every
  withdrawal against it fails before any money moves.
- A card number with no digits at all passes the Luhn check.
- Spot ids compare as strings: "F1-R1-S10" is nearer than "F1-R1-S3".
- The allocation fallback to larger sizes never finds anything the first
  query missed, because that query already accepts every larger size.
- The already-closed branch of `processExit` cannot be reached from a
  consistent lot.
- A vehicle that enters again under the same plate overwrites its ticket,
  and the first spot stays OCCUPIED with no ticket pointing to it.
- The plug charge depends on the spot having a plug, not on whether the
  driver asked for one.

## Model

| member | source | states |
|---|---|---|
| `LruCache.New` | distributed-cache/docs/02_LRU/_01_LRU_Scratch_Basic.java:24-35 | a new cache is empty, and it is well formed when the capacity is at least 1 |
| `LruCache.WithoutIsSplice` | distributed-cache/docs/02_LRU/_01_LRU_Scratch_Basic.java:76-79 | unlinking a key from a duplicate-free recency list removes exactly its one position and keeps the order of the rest |
| `LruCache.Get` | distributed-cache/docs/02_LRU/_01_LRU_Scratch_Basic.java:37-49 | a miss leaves the cache unchanged; a hit returns the stored value, moves the key to the front, keeps the other keys in their relative order and changes no value |
| `LruCache.Put` | distributed-cache/docs/02_LRU/_01_LRU_Scratch_Basic.java:51-71 | fails exactly when a new key meets a full cache whose list is empty (capacity 0); an existing key gets the new value and moves to the front; a new key in a full cache evicts the last key; otherwise the new key is prepended |
| `LruCache.ValidSize` | distributed-cache/docs/02_LRU/_01_LRU_Scratch_Basic.java:60-64 | in a well-formed cache the map and the list hold the same number of keys, never more than the capacity |
| `LruCache.GetPreservesValid` | distributed-cache/docs/02_LRU/_01_LRU_Scratch_Basic.java:42-48 | a read keeps the cache well formed: the list is duplicate-free, holds exactly the map's keys and is within capacity |
| `LruCache.PutPreservesValid` | distributed-cache/docs/02_LRU/_01_LRU_Scratch_Basic.java:51-71 | a write to a well-formed cache succeeds and keeps it well formed |
| `LruCache.PutEvictsLeastRecent` | distributed-cache/docs/02_LRU/_01_LRU_Scratch_Basic.java:59-69 | writing a new key into a full cache removes exactly the least recently used key and keeps all others with their values |
| `LruCache.PutThenGet` | distributed-cache/docs/02_LRU/_01_LRU_Scratch_Basic.java:51-71 | reading a key right after writing it returns the written value |
| `LruCache.RunAbstracts` | distributed-cache/docs/02_LRU/_01_LRU_Scratch_Basic.java:37-71 | any sequence of reads and writes keeps the cache equal to the first `capacity` keys of the unbounded recency reference, with the last written values |
| `LruCache.LruFromNew` | distributed-cache/docs/02_LRU/_01_LRU_Scratch_Basic.java:24-71 | from a new cache of capacity at least 1, after any operations the cache holds the `capacity` most recently touched keys, most recent first, each with its last written value |
| `LruBasic.Get` | distributed-cache/docs/02_LRU/_01_LRU_Scratch_Basic.java:37-49 | returns -1 on a miss, leaving the cache unchanged; on a hit returns the stored value, keeps the entries and capacity, and moves the key from its place in the recency order to the front |
| `LruBasic.StoredMinusOneLooksLikeMiss` | distributed-cache/docs/02_LRU/_01_LRU_Scratch_Basic.java:38-48 | a hit on a stored -1 returns the same answer as a miss |
| `LruBasic.DemoFill` | distributed-cache/docs/02_LRU/_01_LRU_Scratch_Basic.java:105-110 | three writes into a capacity-3 cache give the order 3, 2, 1 |
| `LruBasic.DemoTouch` | distributed-cache/docs/02_LRU/_01_LRU_Scratch_Basic.java:112-113 | reading key 2 gives the order 2, 3, 1 |
| `LruBasic.DemoEvict` | distributed-cache/docs/02_LRU/_01_LRU_Scratch_Basic.java:115-116 | writing key 4 evicts key 1 and gives the order 4, 2, 3 |
| `LruBasic.DemoMissThenHit` | distributed-cache/docs/02_LRU/_01_LRU_Scratch_Basic.java:118-120 | key 1 then misses with -1, key 3 hits with 30, and the order becomes 3, 4, 2 |
| `LruGeneric.Get` | distributed-cache/docs/02_LRU/_02_LRU_Scratch_Generic.java:34-44 | returns null (None) on a miss, leaving the cache unchanged; on a hit returns the stored value, keeps the entries and capacity, and moves the key from its place in the recency order to the front |
| `LruGeneric.StoredNullLooksLikeMiss` | distributed-cache/docs/02_LRU/_02_LRU_Scratch_Generic.java:35-43 | a hit on a stored null returns the same answer as a miss |
| `LruGeneric.DemoFill` | distributed-cache/docs/02_LRU/_02_LRU_Scratch_Generic.java:100-103 | three writes give the order 3, 2, 1 |
| `LruGeneric.DemoTouch` | distributed-cache/docs/02_LRU/_02_LRU_Scratch_Generic.java:105-106 | reading key 2 gives the order 2, 3, 1 |
| `LruGeneric.DemoEvict` | distributed-cache/docs/02_LRU/_02_LRU_Scratch_Generic.java:108-109 | writing key 4 evicts key 1 |
| `LruGeneric.DemoMissThenHit` | distributed-cache/docs/02_LRU/_02_LRU_Scratch_Generic.java:111-113 | key 1 then misses with null, key 3 hits with "Three", and the order becomes 3, 4, 2 |
| `HashRing.Unsigned` | distributed-cache/docs/03_Consistent_Hashing/Consistent_Hashing_Basic.java:55-58 | masking a signed Java byte with 0xFF gives a value in [0, 256) congruent to the byte modulo 256 |
| `HashRing.BigEndianBytes` | distributed-cache/docs/03_Consistent_Hashing/Consistent_Hashing_Basic.java:55-58 | the four masked bytes shifted and or-ed together give a value in [0, 2^32) from which each byte can be read back |
| `HashRing.GenerateHash` | distributed-cache/docs/03_Consistent_Hashing/Consistent_Hashing_Basic.java:46-60 | the ring position is in [0, 2^32) and is the big-endian value of the digest's first four bytes |
| `HashRing.AddReplicas` | distributed-cache/docs/03_Consistent_Hashing/Consistent_Hashing_Basic.java:18-21 | after adding replicas, the ring's positions are the old ones plus the replica positions, each replica position maps to the server, and every other position keeps its owner |
| `HashRing.AddServer` | distributed-cache/docs/03_Consistent_Hashing/Consistent_Hashing_Basic.java:17-22 | the ring gains the server's replica positions, each now owned by the server whoever held it before, and every other entry is unchanged |
| `HashRing.RemoveReplicas` | distributed-cache/docs/03_Consistent_Hashing/Consistent_Hashing_Basic.java:25-28 | the ring loses exactly the given positions, whoever owns them |
| `HashRing.RemoveServer` | distributed-cache/docs/03_Consistent_Hashing/Consistent_Hashing_Basic.java:24-29 | the ring loses the server's replica positions, even those now owned by another server, and every remaining entry keeps its owner |
| `HashRing.MinExists` | distributed-cache/docs/03_Consistent_Hashing/Consistent_Hashing_Basic.java:36-40 | every non-empty set of positions has a least element |
| `HashRing.Target` | distributed-cache/docs/03_Consistent_Hashing/Consistent_Hashing_Basic.java:34-41 | the chosen position is on the ring; it is the least position at or above the hash, or the least position overall when none is above |
| `HashRing.Lookup` | distributed-cache/docs/03_Consistent_Hashing/Consistent_Hashing_Basic.java:31-43 | no server exactly when the ring is empty; otherwise the owner of `Target(ring, h)`, the smallest position at or after `h`, or the smallest position of all when none is |
| `HashRing.GetServer` | distributed-cache/docs/03_Consistent_Hashing/Consistent_Hashing_Basic.java:31-44 | null exactly when the ring is empty; otherwise the owner of the target position of the key's hash (the ceiling position, wrapping to the first) |
| `HashRing.TargetIsCeiling` | distributed-cache/docs/03_Consistent_Hashing/Consistent_Hashing_Basic.java:36-37 | a ring position at or above the hash with no ring position in between is the one chosen |
| `HashRing.TargetIsFirst` | distributed-cache/docs/03_Consistent_Hashing/Consistent_Hashing_Basic.java:38-41 | when no position is at or above the hash, the least position is chosen |
| `HashRing.TargetAtMost` | distributed-cache/docs/03_Consistent_Hashing/Consistent_Hashing_Basic.java:36-37 | any ring position at or above the hash is at or above the chosen position |
| `HashRing.AddThenRemove` | distributed-cache/docs/03_Consistent_Hashing/Consistent_Hashing_Basic.java:17-29 | adding then removing a server restores the ring exactly when none of its replica positions was already on the ring |
| `HashRing.AddOrder` | distributed-cache/docs/03_Consistent_Hashing/Consistent_Hashing_Basic.java:17-22 | adding two different servers in either order gives the same ring exactly when their replica position sets are disjoint |
| `HashRing.LookupUnaffected` | distributed-cache/docs/03_Consistent_Hashing/Consistent_Hashing_Basic.java:31-43 | removing positions that only server `s` owned leaves every lookup that did not answer `s` unchanged |
| `HashRing.AddThree` | distributed-cache/docs/03_Consistent_Hashing/Consistent_Hashing_Basic.java:71-73 | adding three servers in turn to an empty ring gives the layout where each position belongs to the last server added that has it |
| `HashRing.AddServerWellFormed` | distributed-cache/docs/03_Consistent_Hashing/Consistent_Hashing_Basic.java:17-22 | adding a server keeps every ring position one of its owner's replica positions |
| `HashRing.RemoveServerWellFormed` | distributed-cache/docs/03_Consistent_Hashing/Consistent_Hashing_Basic.java:24-29 | removing a server keeps every ring position one of its owner's replica positions |
| `HashRing.RemovedServerOwnsNothing` | distributed-cache/docs/03_Consistent_Hashing/Consistent_Hashing_Basic.java:24-29 | in such a ring, after removal no remaining position belongs to a server with the removed server's name |
| `HashRing.RemoveServerRemaps` | distributed-cache/docs/03_Consistent_Hashing/Consistent_Hashing_Basic.java:24-43 | when the removed server still owns all its replica positions, removal changes no lookup that did not answer it; on a well-formed ring, every lookup that did answer it no longer does (it answers another server, or null when the ring is left empty) |
| `HashRingBasic.InitialLayout` | distributed-cache/docs/03_Consistent_Hashing/Consistent_Hashing_Basic.java:101-103 | the layout of the three demo servers' replica positions is the printed initial ring |
| `HashRingBasic.DemoAddServers` | distributed-cache/docs/03_Consistent_Hashing/Consistent_Hashing_Basic.java:71-76 | with digests that give the printed positions, adding server1, server2 and server3 (3 replicas each) gives the printed ring |
| `HashRingBasic.InitialWithoutServer1` | distributed-cache/docs/03_Consistent_Hashing/Consistent_Hashing_Basic.java:113-114 | the printed ring minus server1's positions is the printed ring after removal |
| `HashRingBasic.DemoRemoveServer` | distributed-cache/docs/03_Consistent_Hashing/Consistent_Hashing_Basic.java:87-89 | removing server1 from the demo ring gives the printed ring after removal |
| `HashRingBasic.DemoRemap` | distributed-cache/docs/03_Consistent_Hashing/Consistent_Hashing_Basic.java:105-122 | after the removal, every key server1 owned goes to server2 and every other key keeps its server, as in the printed mappings |
| `HashRingBasic.ReplicaNamesCollide` | distributed-cache/docs/03_Consistent_Hashing/Consistent_Hashing_Basic.java:19 | with more than 10 replicas, replica 10 of "server1" and replica 0 of "server11" hash the same string, so adding server11 takes that position from server1 |
| `HashRingGeneric.ServerName` | distributed-cache/docs/03_Consistent_Hashing/Consistent_Hashing_Generic.java:111-114 | `toString()` starts with the address followed by a colon |
| `HashRingGeneric.ServerNameInjective` | distributed-cache/docs/03_Consistent_Hashing/Consistent_Hashing_Generic.java:111-114 | servers with a different address or port have different `toString()` values, because the port part never holds a colon |
| `HashRingGeneric.InitialLayout` | distributed-cache/docs/03_Consistent_Hashing/Consistent_Hashing_Generic.java:120-121 | the layout of the three demo servers' replica positions is the printed initial ring |
| `HashRingGeneric.DemoAddServers` | distributed-cache/docs/03_Consistent_Hashing/Consistent_Hashing_Generic.java:76-78 | with digests that give the printed positions, adding S1, S2 and S3 gives the printed ring |
| `HashRingGeneric.InitialWithoutS1` | distributed-cache/docs/03_Consistent_Hashing/Consistent_Hashing_Generic.java:131-132 | the printed ring minus S1's positions is the printed ring after removal |
| `HashRingGeneric.DemoRemoveServer` | distributed-cache/docs/03_Consistent_Hashing/Consistent_Hashing_Generic.java:88-91 | removing S1 from the demo ring gives the printed ring after removal |
| `HashRingGeneric.RemapAroundZero` | distributed-cache/docs/03_Consistent_Hashing/Consistent_Hashing_Generic.java:123-140 | a key hashing at or below S1's first position, or past the last position, was S1's and goes to S3 |
| `HashRingGeneric.RemapMiddle` | distributed-cache/docs/03_Consistent_Hashing/Consistent_Hashing_Generic.java:123-140 | a key hashing into S1's middle arc was S1's and goes to S3 |
| `HashRingGeneric.DemoRemap` | distributed-cache/docs/03_Consistent_Hashing/Consistent_Hashing_Generic.java:123-140 | after the removal, every key S1 owned goes to S3 and every other key keeps its server |
| `LeastNotes.Take` | atm/src/strategy/LeastNumberOfNotesStrategy.java:27-33 | the notes taken of one face never pay more than the remaining amount, and never exceed the stock of that face |
| `LeastNotes.Greedy` | atm/src/strategy/LeastNumberOfNotesStrategy.java:24-34 | the plan has one count per slot, and what is left lies between zero and the starting amount |
| `LeastNotes.GreedyValue` | atm/src/strategy/LeastNumberOfNotesStrategy.java:26-34 | what the pass plans plus what it leaves over equals the starting amount |
| `LeastNotes.GreedyWithin` | atm/src/strategy/LeastNumberOfNotesStrategy.java:29-33 | the greedy plan never uses more notes of a face than are in stock |
| `LeastNotes.Compute` | atm/src/strategy/LeastNumberOfNotesStrategy.java:17-37 | over the inventory in descending face order: a non-positive amount gives the empty plan; otherwise null exactly when the greedy pass leaves a remainder, and a returned plan is in stock and pays the amount exactly |
| `LeastNotes.ComputeDispense` | atm/src/strategy/LeastNumberOfNotesStrategy.java:17-37 | over the inventory in descending face order, the loop returns the same plan as `Compute` |
| `LeastNotes.GreedyIsLexGreatest` | atm/src/strategy/LeastNumberOfNotesStrategy.java:24-34 | among all in-stock plans of value at most the amount, the greedy pass is the lexicographically greatest in the order it visits the slots |
| `LeastNotes.ComputeTakesLargestFirst` | atm/src/strategy/LeastNumberOfNotesStrategy.java:20-34 | on the descending inventory, no in-stock plan of value at most the amount takes more notes of a larger denomination than the returned plan before the two first differ |
| `LeastNotes.TakeIsMaximal` | atm/src/strategy/LeastNumberOfNotesStrategy.java:29 | any count of one face that is in stock and within the remaining amount is at most what the strategy takes |
| `LeastNotes.ValueNonNegative` | atm/src/strategy/LeastNumberOfNotesStrategy.java:30-33 | a plan is worth a non-negative amount |
| `LeastNotes.GreedyMissesSixty` | atm/src/strategy/LeastNumberOfNotesStrategy.java:26-36 | with one 50 and three 20s the strategy returns null for 60, although three 20s would pay it |
| `CashDispenser.New` | atm/src/core/CashDispenser.java:27-29 | a new dispenser holds ten notes of each denomination, given largest face first |
| `CashDispenser.TotalAmount` | atm/src/core/CashDispenser.java:48-54 | the loop sums face times count over the inventory |
| `CashDispenser.TotalNonNegative` | atm/src/core/CashDispenser.java:48-54 | the total is never negative |
| `CashDispenser.ComputeDispense` | atm/src/core/CashDispenser.java:64-67 | a returned plan is in stock and pays the amount exactly (nothing for a non-positive amount) |
| `CashDispenser.CanDispenseAmount` | atm/src/core/CashDispenser.java:56-62 | a true answer means the amount is positive, at most the total, and payable from stock by some plan |
| `CashDispenser.Subtract` | atm/src/core/CashDispenser.java:75-82 | succeeds exactly when the plan is in stock, and then lowers each denomination's count by the plan's count |
| `CashDispenser.SubtractTotal` | atm/src/core/CashDispenser.java:75-82 | subtracting a plan lowers the total by the plan's value |
| `CashDispenser.Dispense` | atm/src/core/CashDispenser.java:69-86 | never throws; returns false and leaves the inventory unchanged exactly when there is no plan; otherwise lowers each count by the plan's count, so the total drops by the amount |
| `CashDispenser.DispenseKeepsStock` | atm/src/core/CashDispenser.java:75-82 | dispensing never drives a count negative |
| `CashDispenser.CanDispenseIffPlan` | atm/src/core/CashDispenser.java:56-62 | for a stocked dispenser, the check is true exactly when the amount is positive and the strategy finds a plan: the comparison with the total adds nothing |
| `CashDispenser.CheckedDispenseSucceeds` | atm/src/core/CashDispenser.java:56-86 | after a passed check, dispensing the same amount succeeds and lowers the total by the amount |
| `CashDispenser.DispenseNothing` | atm/src/core/CashDispenser.java:69-86 | dispensing a non-positive amount succeeds and removes nothing |
| `CardValidator.IsBeforeByIndex` | atm/src/card/CardValidator.java:34-39 | comparing year-months is comparing their month counts since year 0 |
| `CardValidator.ExpiryValid` | atm/src/card/CardValidator.java:34-39 | false for a missing date; otherwise true exactly when the expiry month is the current month or later |
| `CardValidator.DigitsOnly` | atm/src/card/CardValidator.java:13 | stripping non-digits leaves only digits and never lengthens the string |
| `CardValidator.DigitsOnlyMembers` | atm/src/card/CardValidator.java:13 | a character survives stripping exactly when it is a digit of the input |
| `CardValidator.DigitsOnlyOfDigits` | atm/src/card/CardValidator.java:13 | stripping an all-digit string leaves it unchanged |
| `CardValidator.Weight` | atm/src/card/CardValidator.java:19-24 | a digit's contribution, doubled or not, is a single digit |
| `CardValidator.WeightIsDigitSum` | atm/src/card/CardValidator.java:21-23 | a doubled digit contributes the sum of the decimal digits of its double, that is its double minus 9 when the double exceeds 9 |
| `CardValidator.WeightInjective` | atm/src/card/CardValidator.java:19-24 | two different digits, doubled the same way, contribute different amounts |
| `CardValidator.DigitOf` | atm/src/card/CardValidator.java:18 | a character's digit is below 10 and is its decimal value when it is a digit |
| `CardValidator.IsValidCardNumber` | atm/src/card/CardValidator.java:10-29 | the loop from the rightmost digit returns true exactly when a number is given and its digits, non-digits stripped, have a Luhn sum divisible by 10 |
| `CardValidator.NonDigitsIgnored` | atm/src/card/CardValidator.java:13 | inserting non-digit characters never changes the verdict |
| `CardValidator.NoDigitsAccepted` | atm/src/card/CardValidator.java:13-28 | a number with no digits is accepted |
| `CardValidator.CheckDigitUnique` | atm/src/card/CardValidator.java:17-28 | exactly one final digit makes a given digit prefix valid |
| `CardValidator.SingleDigitErrorDetected` | atm/src/card/CardValidator.java:17-28 | changing any single digit of a valid number makes it invalid |
| `CardValidator.Validate` | atm/src/card/CardValidator.java:44-47 | true exactly when a card is present, its number passes Luhn and it has not expired (the current month still counts) |
| `CardValidator.SampleNumberValid` | atm/src/hardware/cardreader/SimpleCardReader.java:13-14 | the reader's sample card number passes Luhn |
| `CardValidator.SampleCardValidUntil` | atm/src/hardware/cardreader/SimpleCardReader.java:13-16 | the sample card validates exactly in the months up to December 2025 |
| `WithdrawTransaction.NewTxn` | atm/src/transaction/Transaction.java:17-23 | a new transaction is PENDING and keeps its amount |
| `WithdrawTransaction.Validate` | atm/src/transaction/WithdrawTransaction.java:17-40 | checks cash first, then balance, then the daily limit; each failure reason is given exactly when its check fails and the earlier ones pass; a failure sets FAILED and a pass changes nothing |
| `WithdrawTransaction.Execute` | atm/src/transaction/WithdrawTransaction.java:43-65 | succeeds exactly when validation passes and the debit succeeds; the debit is asked for exactly when validation passes; a failure leaves the cash untouched; a success lowers the total by the amount |
| `WithdrawTransaction.ValidatedStaysPending` | atm/src/transaction/WithdrawTransaction.java:39 | a passing validation leaves a new transaction PENDING |
| `WithdrawTransaction.StubBankRefusesAll` | atm/src/bank/BankServiceImpl.java:18-30 | against the stub bank every withdrawal fails, leaves the dispenser unchanged and never debits; it fails on the limit whenever the dispenser can pay the amount |
| `WithdrawTransaction.DebitImpliesPayout` | atm/src/transaction/WithdrawTransaction.java:48-64 | when the debit is requested and succeeds, the transaction succeeds, and the amount was positive and at most the cash in the machine |
| `JavaText.NatToString` | parking-lot/src/model/Spot.java:13 | a natural number prints as digits with no leading zero |
| `JavaText.IntToString` | parking-lot/src/model/Spot.java:13 | an integer prints as an optional minus sign followed by digits |
| `JavaText.ParseIntToString` | parking-lot/src/model/Spot.java:13 | parsing the printed form of an integer gives the integer back |
| `JavaText.IntToStringInjective` | parking-lot/src/model/Spot.java:13 | distinct integers print differently |
| `JavaText.CompareToFlip` | parking-lot/src/strategy/NearestSpotAllocationStrategy.java:18 | `b.compareTo(a)` is the negation of `a.compareTo(b)` |
| `JavaText.CompareToTransitive` | parking-lot/src/strategy/NearestSpotAllocationStrategy.java:18 | `compareTo` order is transitive |
| `JavaText.CompareToZero` | parking-lot/src/strategy/NearestSpotAllocationStrategy.java:18 | `compareTo` is zero exactly on equal strings |
| `JavaText.JavaDiv` | parking-lot/src/strategy/PerHourPricingStrategy.java:45 | long division truncates toward zero |
| `ParkingSpot.GenerateId` | parking-lot/src/model/Spot.java:12-14 | the id starts with "F" and has at least eight characters; that it determines the location is `GenerateIdInjective` |
| `ParkingSpot.GenerateIdInjective` | parking-lot/src/model/Spot.java:12-14 | distinct locations get distinct ids |
| `ParkingSpot.NewSpot` | parking-lot/src/model/Spot.java:16-24 | a new spot is AVAILABLE and keeps its location, size and plug |
| `ParkingSpot.Occupy` | parking-lot/src/model/Spot.java:35-40 | fails exactly when the spot is not AVAILABLE; otherwise only the status changes, to OCCUPIED |
| `ParkingSpot.Free` | parking-lot/src/model/Spot.java:42-51 | fails exactly when the spot is AVAILABLE; an OUT_OF_SERVICE spot is returned unchanged; an OCCUPIED spot becomes AVAILABLE with nothing else changed |
| `ParkingSpot.OccupyThenFree` | parking-lot/src/model/Spot.java:35-51 | freeing a just-occupied spot restores it |
| `ParkingSpot.FreeThenOccupy` | parking-lot/src/model/Spot.java:35-51 | occupying a just-freed spot restores it |
| `ParkingSpot.OutOfServiceStaysOut` | parking-lot/src/model/Spot.java:43-46 | an out-of-service spot cannot be occupied, and freeing it leaves it out of service |
| `ParkingTicket.NewTicket` | parking-lot/src/model/Ticket.java:22-31 | a new ticket is open, has no exit gate, and records the given id, vehicle, plate, entry time, spot, gate and plug wish |
| `ParkingTicket.MarkExited` | parking-lot/src/model/Ticket.java:43-49 | succeeds exactly on an open ticket, records the exit time and gate and changes nothing else; a closed ticket fails |
| `ParkingTicket.MarkExitedOnce` | parking-lot/src/model/Ticket.java:43-49 | a ticket closes once; a second close fails whatever its arguments |
| `ParkingTicket.NewTicketCloses` | parking-lot/src/model/Ticket.java:22-49 | a fresh ticket closes into the ticket with the given exit time and gate |
| `NearestSpot.MinIndex` | parking-lot/src/strategy/NearestSpotAllocationStrategy.java:17-19 | the chosen candidate's id is at most every id and strictly below every earlier candidate's id |
| `NearestSpot.SelectSpot` | parking-lot/src/strategy/NearestSpotAllocationStrategy.java:14-20 | no spot exactly for an empty list; otherwise the first candidate with the least id |
| `NearestSpot.SelectIgnoresGate` | parking-lot/src/strategy/NearestSpotAllocationStrategy.java:14-20 | the choice does not depend on the entry gate |
| `NearestSpot.SelectSpotUnique` | parking-lot/src/strategy/NearestSpotAllocationStrategy.java:17-19 | the first least-id candidate is the only possible choice |
| `NearestSpot.TenBeforeThree` | parking-lot/src/strategy/NearestSpotAllocationStrategy.java:18 | "F1-R1-S10" compares below "F1-R1-S3" |
| `PerHourPricing.BillableHours` | parking-lot/src/strategy/PerHourPricingStrategy.java:43-46 | at least one hour, and for a positive duration the number of started hours |
| `PerHourPricing.BillableHoursIsCeiling` | parking-lot/src/strategy/PerHourPricingStrategy.java:45 | for a positive duration, the billed hours are its ceiling in hours |
| `PerHourPricing.BillableHoursMonotone` | parking-lot/src/strategy/PerHourPricingStrategy.java:43-46 | a longer stay is never billed fewer hours |
| `PerHourPricing.PlugCharge` | parking-lot/src/strategy/PerHourPricingStrategy.java:26-38 | zero without a plug; with a plug, 5 per started hour up to the exit time, or up to now for an open ticket |
| `PerHourPricing.CalculatePrice` | parking-lot/src/strategy/PerHourPricingStrategy.java:41-54 | the price is at least the base price plus one hour |
| `PerHourPricing.PriceOfClosedTicket` | parking-lot/src/strategy/PerHourPricingStrategy.java:41-54 | for a ticket closed at the billed time, the price is the base price plus the combined hourly rate times the started hours |
| `PerHourPricing.PriceIgnoresClockWhenClosed` | parking-lot/src/strategy/PerHourPricingStrategy.java:31 | a closed ticket's price does not depend on the clock |
| `PerHourPricing.PlugChargeIgnoresRequest` | parking-lot/src/strategy/PerHourPricingStrategy.java:29 | the price does not depend on whether a plug was asked for |
| `PerHourPricing.PriceMonotone` | parking-lot/src/strategy/PerHourPricingStrategy.java:41-54 | leaving later never costs less |
| `PerHourPricing.FirstHourPrice` | parking-lot/src/strategy/PerHourPricingStrategy.java:43-51 | a stay of at most an hour costs the base price plus one combined hourly rate |
| `ParkingLot.MinimumSize` | parking-lot/src/core/ParkingLot.java:115-123 | motorcycles need SMALL, cars MEDIUM, buses and trucks LARGE |
| `ParkingLot.SizeFits` | parking-lot/src/core/ParkingLot.java:101-107 | a spot size fits a required size exactly when it is at least as large |
| `ParkingLot.NextLargerSize` | parking-lot/src/core/ParkingLot.java:109-113 | SMALL steps up to MEDIUM, MEDIUM to LARGE, and LARGE stays LARGE |
| `ParkingLot.AvailableFrom` | parking-lot/src/core/ParkingLot.java:86-99 | the positions from a given one on whose spots are AVAILABLE and big enough, exactly and in ascending order |
| `ParkingLot.FindAvailableSpots` | parking-lot/src/core/ParkingLot.java:86-99 | a position is listed exactly when its spot is AVAILABLE and big enough, in ascending order |
| `ParkingLot.FindIgnoresPlug` | parking-lot/src/core/ParkingLot.java:90-97 | the plug wish does not change the candidates |
| `ParkingLot.FallbackNeverHelps` | parking-lot/src/core/ParkingLot.java:61-64 | any spot the larger-size fallback would find is already among the first query's candidates |
| `ParkingLot.Candidates` | parking-lot/src/core/ParkingLot.java:56-64 | the candidate list equals the first query's, so the fallback never changes it |
| `ParkingLot.AllocateSpot` | parking-lot/src/core/ParkingLot.java:54-80 | no ticket exactly when no spot fits; otherwise a fitting spot becomes OCCUPIED and a new open ticket for it, stamped `now`, is filed under the plate (replacing any ticket there), with nothing else changed |
| `ParkingLot.AllocateNearest` | parking-lot/src/core/ParkingLot.java:71-72 | the allocated spot's id is at most the id of every AVAILABLE spot big enough |
| `ParkingLot.ProcessExit` | parking-lot/src/core/ParkingLot.java:129-149 | an unknown plate or a closed ticket gives an error and no change; otherwise the closed ticket moves to the history, an OCCUPIED spot is freed, and the bill is the base price plus the combined hourly rate per started hour, failing only when the spot was already AVAILABLE |
| `ParkingLot.AllocatePreservesConsistent` | parking-lot/src/core/ParkingLot.java:54-80 | every entry keeps the lot consistent |
| `ParkingLot.FilingKeepsConsistent` | parking-lot/src/core/ParkingLot.java:75-78 | occupying a free spot and filing an open ticket for it under a plate, whether or not the plate already held a ticket, keeps the lot consistent |
| `ParkingLot.ExitPreservesConsistent` | parking-lot/src/core/ParkingLot.java:129-149 | an exit keeps the lot consistent |
| `ParkingLot.ExitSucceeds` | parking-lot/src/core/ParkingLot.java:134-136 | in a consistent lot, the exit of a plate with an active ticket always bills, so the already-closed branch is dead |
| `ParkingLot.EnterThenExit` | parking-lot/src/core/ParkingLot.java:54-149 | in a consistent lot, a new plate that gets a ticket and then leaves restores the spots and the tickets, and the history gains the closed ticket |
| `ParkingLot.ExitAfterEntry` | parking-lot/src/core/ParkingLot.java:137-146 | leaving right after filing a ticket bills, frees the spot again, removes the ticket and records the closed ticket |
| `ParkingLot.ReentryStrandsSpot` | parking-lot/src/core/ParkingLot.java:77-78 | a second entry under an active plate leaves the first spot OCCUPIED with no ticket referring to it |
| `ParkingSample.SingleDigitIdOrder` | parking-lot/src/model/Spot.java:12-14 | on one floor, ids of single-digit rows and numbers order by row, then by number |
| `ParkingSample.SampleIdsDistinct` | parking-lot/src/builder/ParkingLotBuilder.java:29-37 | the ten sample spots have distinct ids |
| `ParkingSample.NearestInSample` | parking-lot/src/strategy/NearestSpotAllocationStrategy.java:17-19 | in the sample lot, a row-1 spot with the lowest number among the fitting ones is the least id |
| `ParkingSample.AllocateInSample` | parking-lot/src/core/ParkingLot.java:54-80 | in a lot with the sample's ids, allocation takes the lowest-numbered fitting row-1 spot |
| `ParkingSample.EnterSample` | parking-lot/src/core/ParkingLot.java:54-80 | an entry into the sample lot with given positions taken occupies the expected position and files an open ticket for it |
| `ParkingSample.CarEnters` | parking-lot/src/Main.java:19 | the car entering the empty sample lot gets F1-R1-S3 |
| `ParkingSample.MotorcycleEnters` | parking-lot/src/Main.java:22 | the motorcycle entering next gets F1-R1-S1 |
| `ParkingSample.LeaveSample` | parking-lot/src/core/ParkingLot.java:129-149 | leaving from an occupied sample position frees it and bills the base price plus the hourly rate per started hour |
| `ParkingSample.RunMain` | parking-lot/src/Main.java:17-35 | the driver's two entries and two exits keep every ticket's spot in the lot |
| `ParkingSample.DemoEntries` | parking-lot/src/Main.java:19-22 | both vehicles get tickets, the car at position 2 and the motorcycle at position 0 |
| `ParkingSample.DemoExits` | parking-lot/src/Main.java:28-35 | the car pays 40 + 25 per started hour, the motorcycle 20 + 15 per started hour, and the lot ends with every spot free, no ticket and two history entries |
| `ParkingSample.DemoRun` | parking-lot/src/Main.java:17-35 | from the freshly built lot, the driver's run gives those tickets and bills and ends with the lot as built |
| `ParkingSample.DemoSpotPrices` | parking-lot/src/strategy/PerHourPricingStrategy.java:14-23 | the car's spot is priced 40 plus 25 an hour, the motorcycle's 20 plus 15 an hour |
| `ParkingSample.DemoSpotIds` | parking-lot/src/builder/ParkingLotBuilder.java:34 | the demo's two spots are F1-R1-S3 and F1-R1-S1 |

## Left out

- The request-collapsing and prefetching caches, and the `LinkedHashMap`-based LRU variants, are not part of this model.
- MD5 itself and `String.getBytes()` are not modelled. The digest is a function parameter (`HashRing.GenerateHash` takes the digest bytes), and the demos take digests chosen to reproduce the documented expected output.
- The current month (`YearMonth.now()`) and the clock (`LocalDateTime.now()`) are parameters. Times are whole seconds, so `Duration`'s sub-second truncation does not arise.
- Ticket ids are parameters: each is the whole id, the `TICKET-` prefix followed by the id generator's value (a UUID); the generator is not modelled.
- HashRingGeneric.Server: Java compares `Server` objects by identity (the class defines no `equals`), so two objects with the same ip and port are different servers that share every replica position. The model identifies servers with equal ip and port, so it cannot state that case.
- Singletons, `synchronized` blocks and concurrency are not modelled: every operation is one atomic state transition.
- The ATM state machine, the hardware shells (keypad, screen, printer) and the printed messages are not part of this model. Neither are the parking gates, `GateKeeper` and console output.
- The bank is an oracle of three booleans. `BankServiceImpl` is modelled only as the stub's fixed answers.
- `setStrategy` and the "Strategy not set" exception are left out: the dispenser always uses the least-notes strategy.
- The `Denomination` enum is not part of this model. The denominations are the dispenser's inventory parameter. The inventory map is listed by strictly descending face value, the order in which the strategy's sort visits it; `Compute` requires that order and the dispenser's `Inventory` type keeps it. Distinct face values are assumed of the enum.
- `VehicleType.java` is not part of this model. The four vehicle types are those `mapVehicleToSpotSize` switches over.
- Java `int` and `long` overflow is not modelled. Amounts, positions and times are unbounded integers, with the 32-bit hash range and byte masking written out.
- `double` money is modelled as integers. Every price constant is a whole number, so the arithmetic is exact.
- Java strings are UTF-16. Dafny `char` is a Unicode scalar, which agrees for the characters these programs use.
- `toString` output of the caches, rings and tickets is not modelled, except `Server.toString`, which names ring replicas.
- Tickets name their spot by its position in the lot's spot list rather than by object reference. `ParkingLot.SpotRefsValid` states that the positions are in range.
- The partial inventory update when `dispense` throws partway through its loop is not modelled. `CashDispenser.Dispense` proves the throwing branch unreachable, because the strategy never plans more notes than are in stock.
- Observer and gumball-machine examples elsewhere in the repository are not part of this model.
- ParkingLot.ProcessExit: requires `SpotRefsValid` (every active ticket's position is in range). In the program a ticket holds the spot object itself, so the precondition only restates that a reference cannot dangle; `AllocateSpot` and `ProcessExit` both keep it.

=== FILE: CardValidator.dfy ===
/** Card checks of the ATM: the Luhn mod-10 check on the card number
    (ISO/IEC 7812-1, Annex B), the expiry month against the current month,
    and the two together. */
module CardValidator {
  import opened Wrappers
  import opened JavaText

  type Month = m: int | 1 <= m <= 12 witness 1

  /** `java.time.YearMonth`. */
  datatype YearMonth = YearMonth(year: int, month: Month)

  /** `YearMonth.isBefore`: earlier year, or same year and earlier month. */
  predicate IsBefore(a: YearMonth, b: YearMonth) {
    a.year < b.year || (a.year == b.year && a.month < b.month)
  }

  /** Months counted from month 1 of year 0. */
  function MonthIndex(m: YearMonth): int {
    m.year * 12 + m.month - 1
  }

  lemma IsBeforeByIndex(a: YearMonth, b: YearMonth)
    ensures IsBefore(a, b) <==> MonthIndex(a) < MonthIndex(b)
  {
    if a.year < b.year {
      assert a.year * 12 + 12 <= b.year * 12;
    } else if a.year > b.year {
      assert b.year * 12 + 12 <= a.year * 12;
    }
  }

  /** A card as read; either field may be `null`. */
  datatype Card = Card(number: Option<string>, expiry: Option<YearMonth>)

  /** `replaceAll("\\D", "")`: the ASCII digits of `s`, in order. */
  function DigitsOnly(s: string): (r: string)
    ensures AllDigits(r) && |r| <= |s|
  {
    if |s| == 0 then ""
    else if IsDigit(s[0]) then [s[0]] + DigitsOnly(s[1..])
    else DigitsOnly(s[1..])
  }

  /** The kept characters are exactly the digits of `s`. */
  lemma {:induction false} DigitsOnlyMembers(s: string)
    ensures forall c :: c in DigitsOnly(s) <==> c in s && IsDigit(c)
  {
    if |s| > 0 {
      DigitsOnlyMembers(s[1..]);
      assert s == [s[0]] + s[1..];
    }
  }

  lemma {:induction false} DigitsOnlyOfDigits(s: string)
    requires AllDigits(s)
    ensures DigitsOnly(s) == s
  {
    if |s| > 0 {
      DigitsOnlyOfDigits(s[1..]);
      assert s == [s[0]] + s[1..];
    }
  }

  /** What a digit contributes: itself, or when doubled, the digit sum of
      its double, which the source writes `(n % 10) + 1` for `n > 9`. */
  function Weight(d: nat, doubled: bool): (w: nat)
    requires d < 10
    ensures w < 10
  {
    if !doubled then d
    else if 2 * d > 9 then (2 * d) % 10 + 1
    else 2 * d
  }

  lemma WeightIsDigitSum(d: nat)
    requires d < 10
    ensures Weight(d, true) == (2 * d) / 10 + (2 * d) % 10
    ensures 2 * d > 9 ==> Weight(d, true) == 2 * d - 9
  {
  }

  /** Distinct digits contribute distinct amounts in the same position. */
  lemma WeightInjective(a: nat, b: nat, doubled: bool)
    requires a < 10 && b < 10 && a != b
    ensures Weight(a, doubled) != Weight(b, doubled)
  {
  }

  /** The value of a digit character; the sums below only ever see digits. */
  function DigitOf(c: char): (d: nat)
    ensures d < 10
    ensures IsDigit(c) ==> d == DigitValue(c)
  {
    if IsDigit(c) then DigitValue(c) else 0
  }

  /** The weighted digit sum read left to right, the first digit doubled
      exactly when `doubleFirst`, then alternating. */
  function WeightedSum(ds: string, doubleFirst: bool): nat {
    if |ds| == 0 then 0
    else Weight(DigitOf(ds[0]), doubleFirst) + WeightedSum(ds[1..], !doubleFirst)
  }

  /** The Luhn sum: every second digit counted from the rightmost one is
      doubled, so the first digit is doubled exactly when the length is even. */
  function LuhnSum(ds: string): nat {
    WeightedSum(ds, |ds| % 2 == 0)
  }

  predicate LuhnValid(ds: string) {
    LuhnSum(ds) % 10 == 0
  }

  /** `isValidCardNumber` as a predicate: a number is given and its digits
      pass the Luhn check. */
  predicate NumberValid(number: Option<string>) {
    number.Some? && LuhnValid(DigitsOnly(number.value))
  }

  lemma SuffixSum(ds: string, i: int)
    requires 0 <= i < |ds|
    ensures LuhnSum(ds[i..]) == Weight(DigitOf(ds[i]), (|ds| - 1 - i) % 2 == 1) + LuhnSum(ds[i + 1..])
  {
    assert ds[i..][0] == ds[i];
    assert ds[i..][1..] == ds[i + 1..];
  }

  /** `isValidCardNumber`: the loop from the rightmost digit leftwards,
      doubling every second digit. */
  method IsValidCardNumber(number: Option<string>) returns (valid: bool)
    ensures valid <==> NumberValid(number)
  {
    if number.None? {
      return false;
    }
    var ds := DigitsOnly(number.value);
    var sum := 0;
    var alternate := false;
    var i := |ds| - 1;
    while i >= 0
      invariant -1 <= i < |ds|
      invariant sum == LuhnSum(ds[i + 1..])
      invariant alternate <==> (|ds| - 1 - i) % 2 == 1
    {
      var n := DigitValue(ds[i]);
      if alternate {
        n := n * 2;
        if n > 9 {
          n := (n % 10) + 1;
        }
      }
      SuffixSum(ds, i);
      sum := sum + n;
      alternate := !alternate;
      i := i - 1;
    }
    assert ds[0..] == ds;
    return sum % 10 == 0;
  }

  /** Characters other than ASCII digits play no part. */
  lemma NonDigitsIgnored(s: string)
    ensures NumberValid(Some(s)) <==> NumberValid(Some(DigitsOnly(s)))
  {
    DigitsOnlyOfDigits(DigitsOnly(s));
  }

  /** A number without a single digit sums to 0 and is accepted. */
  lemma NoDigitsAccepted(s: string)
    requires forall i :: 0 <= i < |s| ==> !IsDigit(s[i])
    ensures NumberValid(Some(s))
  {
    DigitsOnlyOfNone(s);
  }

  lemma {:induction false} DigitsOnlyOfNone(s: string)
    requires forall i :: 0 <= i < |s| ==> !IsDigit(s[i])
    ensures DigitsOnly(s) == ""
  {
    if |s| > 0 {
      assert !IsDigit(s[0]);
      DigitsOnlyOfNone(s[1..]);
    }
  }

  lemma {:induction false} WeightedSumSnoc(ds: string, c: char, doubleFirst: bool)
    ensures WeightedSum(ds + [c], doubleFirst) ==
      WeightedSum(ds, doubleFirst) + Weight(DigitOf(c), doubleFirst == (|ds| % 2 == 0))
  {
    if |ds| > 0 {
      assert (ds + [c])[1..] == ds[1..] + [c];
      WeightedSumSnoc(ds[1..], c, !doubleFirst);
    }
  }

  /** The digit that completes `ds` to a valid number. */
  function CheckDigit(ds: string): (d: nat)
    ensures d < 10
  {
    (10 - WeightedSum(ds, |ds| % 2 == 1) % 10) % 10
  }

  /** Exactly one check digit makes a digit string valid. */
  lemma CheckDigitUnique(ds: string, d: nat)
    requires d < 10
    ensures LuhnValid(ds + [DigitChar(d)]) <==> d == CheckDigit(ds)
  {
    var first := (|ds| + 1) % 2 == 0;
    WeightedSumSnoc(ds, DigitChar(d), first);
    assert first == (|ds| % 2 == 1);
    assert LuhnSum(ds + [DigitChar(d)]) == WeightedSum(ds, first) + d;
    ModComplement(WeightedSum(ds, first), d);
  }

  /** The one digit that brings `s` up to a multiple of ten. */
  lemma ModComplement(s: nat, d: nat)
    requires d < 10
    ensures (s + d) % 10 == 0 <==> d == (10 - s % 10) % 10
  {
    var k := s / 10;
    assert s == 10 * k + s % 10;
    assert s + d == 10 * k + (s % 10 + d);
  }

  lemma {:induction false} WeightedSumUpdate(ds: string, i: int, c: char, doubleFirst: bool)
    requires 0 <= i < |ds|
    ensures var here := doubleFirst == (i % 2 == 0);
      WeightedSum(ds[i := c], doubleFirst) + Weight(DigitOf(ds[i]), here) ==
      WeightedSum(ds, doubleFirst) + Weight(DigitOf(c), here)
  {
    if i > 0 {
      assert ds[i := c][1..] == ds[1..][i - 1 := c];
      assert ds[i := c][0] == ds[0];
      WeightedSumUpdate(ds[1..], i - 1, c, !doubleFirst);
    } else {
      assert ds[i := c][1..] == ds[1..];
    }
  }

  /** The check catches every single mistyped digit. */
  lemma SingleDigitErrorDetected(ds: string, i: int, c: char)
    requires AllDigits(ds) && 0 <= i < |ds| && IsDigit(c) && c != ds[i]
    requires LuhnValid(ds)
    ensures !LuhnValid(ds[i := c])
  {
    var here := (|ds| % 2 == 0) == (i % 2 == 0);
    WeightedSumUpdate(ds, i, c, |ds| % 2 == 0);
    WeightInjective(DigitOf(ds[i]), DigitOf(c), here);
    ShiftBreaksMultiple(LuhnSum(ds), LuhnSum(ds[i := c]), Weight(DigitOf(ds[i]), here), Weight(DigitOf(c), here));
  }

  /** Adding a nonzero change of less than ten to a multiple of ten leaves
      a non-multiple. */
  lemma ShiftBreaksMultiple(before: int, after: int, was: nat, now: nat)
    requires before % 10 == 0 && was < 10 && now < 10 && was != now
    requires after + was == before + now
    ensures after % 10 != 0
  {
    var k := before / 10;
    assert before == 10 * k;
    if now > was {
      assert after == 10 * k + (now - was);
    } else {
      assert after == 10 * (k - 1) + (10 + now - was);
    }
  }

  /** `isValidExpiryDate`, the current month given: present and not before
      now, that is, the expiry month is the current month or a later one. */
  function ExpiryValid(expiry: Option<YearMonth>, now: YearMonth): (ok: bool)
    ensures ok <==> expiry.Some? && MonthIndex(now) <= MonthIndex(expiry.value)
  {
    if expiry.None? then false
    else
      IsBeforeByIndex(expiry.value, now);
      !IsBefore(expiry.value, now)
  }

  /** `validate`: a card is given, its number passes and it has not expired. */
  method Validate(card: Option<Card>, now: YearMonth) returns (valid: bool)
    ensures valid <==> card.Some? && NumberValid(card.value.number) && ExpiryValid(card.value.expiry, now)
  {
    if card.None? {
      return false;
    }
    var numberOk := IsValidCardNumber(card.value.number);
    valid := numberOk && ExpiryValid(card.value.expiry, now);
  }

  /** The card the simulated card reader produces. */
  const SampleCard: Card := Card(Some("4539-1488-0343-6467"), Some(YearMonth(2025, 12)))

  lemma {:induction false} DigitsOnlyAppend(a: string, b: string)
    ensures DigitsOnly(a + b) == DigitsOnly(a) + DigitsOnly(b)
  {
    if |a| > 0 {
      assert (a + b)[1..] == a[1..] + b;
      DigitsOnlyAppend(a[1..], b);
    } else {
      assert a + b == b;
    }
  }

  /** The weighted sum of two pieces: the second piece starts doubled or
      not according to the length of the first. */
  lemma {:induction false} WeightedSumAppend(a: string, b: string, doubleFirst: bool)
    ensures WeightedSum(a + b, doubleFirst) ==
      WeightedSum(a, doubleFirst) + WeightedSum(b, doubleFirst == (|a| % 2 == 0))
  {
    if |a| > 0 {
      assert (a + b)[1..] == a[1..] + b;
      assert (a + b)[0] == a[0];
      WeightedSumAppend(a[1..], b, !doubleFirst);
    } else {
      assert a + b == b;
    }
  }

  /** A group of four digits and its dash separator. */
  lemma GroupDigits(g: string)
    requires |g| == 4 && AllDigits(g)
    ensures DigitsOnly(g + "-") == g
  {
    DigitsOnlyAppend(g, "-");
    DigitsOnlyOfDigits(g);
    assert DigitsOnly("-") == "";
  }

  /** The weighted sum of four digits, the first one doubled. */
  lemma GroupSum(g: string)
    requires |g| == 4
    ensures WeightedSum(g, true) ==
      Weight(DigitOf(g[0]), true) + DigitOf(g[1]) + Weight(DigitOf(g[2]), true) + DigitOf(g[3])
  {
    var t1 := g[1..];
    var t2 := t1[1..];
    var t3 := t2[1..];
    assert t1[0] == g[1] && t2[0] == g[2] && t3[0] == g[3];
    assert WeightedSum(t3[1..], true) == 0;
    assert WeightedSum(t3, false) == DigitOf(g[3]);
    assert WeightedSum(t2, true) == Weight(DigitOf(g[2]), true) + DigitOf(g[3]);
    assert WeightedSum(t1, false) == DigitOf(g[1]) + Weight(DigitOf(g[2]), true) + DigitOf(g[3]);
  }

  /** A number written as four dash-separated groups of four digits. */
  lemma FourGroups(g1: string, g2: string, g3: string, g4: string)
    requires |g1| == |g2| == |g3| == |g4| == 4
    requires AllDigits(g1) && AllDigits(g2) && AllDigits(g3) && AllDigits(g4)
    ensures DigitsOnly(g1 + "-" + g2 + "-" + g3 + "-" + g4) == g1 + g2 + g3 + g4
  {
    assert g1 + "-" + g2 + "-" + g3 + "-" + g4 == (g1 + "-") + (g2 + "-") + (g3 + "-") + g4;
    DigitsOnlyAppend((g1 + "-") + (g2 + "-") + (g3 + "-"), g4);
    DigitsOnlyAppend((g1 + "-") + (g2 + "-"), g3 + "-");
    DigitsOnlyAppend(g1 + "-", g2 + "-");
    GroupDigits(g1);
    GroupDigits(g2);
    GroupDigits(g3);
    DigitsOnlyOfDigits(g4);
  }

  /** Each group of four starts at an even position, so each starts doubled. */
  lemma FourGroupsSum(g1: string, g2: string, g3: string, g4: string)
    requires |g1| == |g2| == |g3| == |g4| == 4
    ensures LuhnSum(g1 + g2 + g3 + g4) ==
      WeightedSum(g1, true) + WeightedSum(g2, true) + WeightedSum(g3, true) + WeightedSum(g4, true)
  {
    var a := g1 + g2;
    var b := a + g3;
    var c := b + g4;
    assert |a| == 8 && |b| == 12 && |c| == 16;
    var s1, s2, s3, s4 := WeightedSum(g1, true), WeightedSum(g2, true), WeightedSum(g3, true), WeightedSum(g4, true);
    WeightedSumAppend(g1, g2, true);
    assert WeightedSum(a, true) == s1 + s2;
    WeightedSumAppend(a, g3, true);
    assert WeightedSum(b, true) == s1 + s2 + s3;
    WeightedSumAppend(b, g4, true);
    assert WeightedSum(c, true) == s1 + s2 + s3 + s4;
  }

  lemma SampleGroupsSum()
    ensures LuhnSum("4539" + "1488" + "0343" + "6467") == 80
  {
    FourGroupsSum("4539", "1488", "0343", "6467");
    GroupSum("4539");
    GroupSum("1488");
    GroupSum("0343");
    GroupSum("6467");
  }

  lemma SumEightyValid(ds: string)
    requires LuhnSum(ds) == 80
    ensures LuhnValid(ds)
  {
  }

  /** The number on the simulated reader's card passes the check. */
  lemma SampleNumberValid()
    ensures NumberValid(SampleCard.number)
  {
    var g1, g2, g3, g4 := "4539", "1488", "0343", "6467";
    var x := SampleCard.number.value;
    assert x == g1 + "-" + g2 + "-" + g3 + "-" + g4;
    FourGroups(g1, g2, g3, g4);
    var ds := DigitsOnly(x);
    assert ds == g1 + g2 + g3 + g4;
    SampleGroupsSum();
    SumEightyValid(ds);
  }

  /** The sample card validates through December 2025 and not after. */
  lemma SampleCardValidUntil(now: YearMonth)
    ensures NumberValid(SampleCard.number) && (ExpiryValid(SampleCard.expiry, now) <==> MonthIndex(now) <= 2025 * 12 + 11)
  {
    SampleNumberValid();
    IsBeforeByIndex(YearMonth(2025, 12), now);
  }
}

=== FILE: CashDispenser.dfy ===
/** The ATM's cash dispenser: an inventory of notes per denomination,
    its total, and the check-then-dispense protocol on top of the greedy
    strategy. */
module CashDispenser {
  import opened Wrappers
  import opened LeastNotes

  /** The only failure `dispense` can raise: a plan asks for more notes of
      a denomination than the inventory holds. */
  datatype DispenseError = InsufficientNotes

  /** The inventory map, listed in descending face value: the order in
      which the strategy's sort visits the denominations. */
  type Inventory = s: seq<Slot> | Descending(s) witness []

  datatype Dispenser = Dispenser(slots: Inventory)

  /** Every count is a real number of notes. */
  predicate InStock(d: Dispenser) {
    forall i :: 0 <= i < |d.slots| ==> d.slots[i].count >= 0
  }

  const InitialCount: int := 10

  /** The dispenser as constructed: ten notes of every denomination, the
      distinct face values given largest first. */
  function New(faces: seq<Face>): (d: Dispenser)
    requires forall i, j :: 0 <= i < j < |faces| ==> faces[i] > faces[j]
    ensures |d.slots| == |faces| && InStock(d)
    ensures forall i :: 0 <= i < |faces| ==> d.slots[i].face == faces[i] && d.slots[i].count == InitialCount
  {
    Dispenser(seq(|faces|, i requires 0 <= i < |faces| => Slot(faces[i], InitialCount)))
  }

  /** The cash in the dispenser: the sum of face value times count. */
  function Total(slots: seq<Slot>): int {
    if |slots| == 0 then 0 else slots[0].count * slots[0].face + Total(slots[1..])
  }

  lemma {:induction false} TotalAppend(slots: seq<Slot>, s: Slot)
    ensures Total(slots + [s]) == Total(slots) + s.count * s.face
  {
    if |slots| > 0 {
      assert (slots + [s])[1..] == slots[1..] + [s];
      TotalAppend(slots[1..], s);
    }
  }

  /** `totalAmount`: the loop over the inventory. */
  method TotalAmount(d: Dispenser) returns (total: int)
    ensures total == Total(d.slots)
    ensures InStock(d) ==> total >= 0
  {
    total := 0;
    var i := 0;
    while i < |d.slots|
      invariant 0 <= i <= |d.slots|
      invariant total == Total(d.slots[..i])
    {
      assert d.slots[..i + 1] == d.slots[..i] + [d.slots[i]];
      TotalAppend(d.slots[..i], d.slots[i]);
      total := total + d.slots[i].count * d.slots[i].face;
      i := i + 1;
    }
    assert d.slots[..i] == d.slots;
    if InStock(d) {
      TotalNonNegative(d.slots);
    }
  }

  lemma {:induction false} TotalNonNegative(slots: seq<Slot>)
    requires forall i :: 0 <= i < |slots| ==> slots[i].count >= 0
    ensures Total(slots) >= 0
  {
    if |slots| > 0 {
      assert forall i :: 0 <= i < |slots[1..]| ==> slots[1..][i].count >= 0 by {
        forall i | 0 <= i < |slots[1..]|
          ensures slots[1..][i].count >= 0
        {
          assert slots[1..][i] == slots[i + 1];
        }
      }
      TotalNonNegative(slots[1..]);
    }
  }

  /** `computeDispense`: the default greedy strategy over the inventory. */
  function ComputeDispense(d: Dispenser, amount: int): (r: Option<Plan>)
    ensures r.Some? ==> Within(d.slots, r.value) && Value(d.slots, r.value) == if amount <= 0 then 0 else amount
  {
    Compute(d.slots, amount)
  }

  /** `canDispenseAmount`: a positive amount no larger than the total, and
      the strategy finds an exact plan. */
  function CanDispenseAmount(d: Dispenser, amount: int): (ok: bool)
    ensures ok ==> 0 < amount <= Total(d.slots)
    ensures ok ==> exists p :: Within(d.slots, p) && Value(d.slots, p) == amount
  {
    if amount <= 0 || amount > Total(d.slots) then false
    else
      var plan := ComputeDispense(d, amount);
      plan.Some?
  }

  /** The inventory after handing out `plan`, slot by slot; the error is
      the `IllegalStateException` of a planned count above the stock. */
  function Subtract(slots: seq<Slot>, plan: Plan): (r: Result<seq<Slot>, DispenseError>)
    requires |plan| == |slots|
    ensures r.Ok? <==> Within(slots, plan)
    ensures r.Ok? ==> |r.value| == |slots|
    ensures r.Ok? ==> forall i :: 0 <= i < |slots| ==> r.value[i] == Slot(slots[i].face, slots[i].count - plan[i])
  {
    if |slots| == 0 then Ok([])
    else if plan[0] > 0 && plan[0] > slots[0].count then
      Err(InsufficientNotes)
    else
      match Subtract(slots[1..], plan[1..])
      case Err(e) =>
        assert !Within(slots[1..], plan[1..]);
        var i :| 0 <= i < |plan[1..]| && plan[1..][i] > 0 && plan[1..][i] > slots[1..][i].count;
        assert plan[i + 1] == plan[1..][i] && slots[i + 1] == slots[1..][i];
        Err(e)
      case Ok(rest) =>
        assert Within(slots[1..], plan[1..]);
        assert forall i :: 1 <= i < |plan| ==> plan[i] == plan[1..][i - 1] && slots[i] == slots[1..][i - 1];
        Ok([Slot(slots[0].face, slots[0].count - plan[0])] + rest)
  }

  lemma {:induction false} SubtractTotal(slots: seq<Slot>, plan: Plan)
    requires Within(slots, plan)
    ensures Subtract(slots, plan).Ok? && Total(Subtract(slots, plan).value) == Total(slots) - Value(slots, plan)
  {
    if |slots| > 0 {
      var r := Subtract(slots, plan).value;
      assert Within(slots[1..], plan[1..]) by {
        forall i | 0 <= i < |plan[1..]| && plan[1..][i] > 0
          ensures plan[1..][i] <= slots[1..][i].count
        {
          assert plan[1..][i] == plan[i + 1] && slots[1..][i] == slots[i + 1];
        }
      }
      SubtractTotal(slots[1..], plan[1..]);
      var rest := Subtract(slots[1..], plan[1..]).value;
      assert r[1..] == rest by {
        forall i | 0 <= i < |rest|
          ensures r[1..][i] == rest[i]
        {
          assert r[i + 1] == Slot(slots[i + 1].face, slots[i + 1].count - plan[i + 1]);
          assert rest[i] == Slot(slots[1..][i].face, slots[1..][i].count - plan[1..][i]);
        }
      }
      assert r[0].count * r[0].face == slots[0].count * slots[0].face - plan[0] * slots[0].face;
    }
  }

  /** `dispense(amount)`: `false` with the inventory untouched when there is
      no plan, otherwise the inventory less the plan and `true`. */
  function Dispense(d: Dispenser, amount: int): (r: Result<(bool, Dispenser), DispenseError>)
    ensures r.Ok?
    ensures !r.value.0 <==> ComputeDispense(d, amount).None?
    ensures !r.value.0 ==> r.value.1 == d
    ensures r.value.0 ==> |r.value.1.slots| == |d.slots|
    ensures r.value.0 ==> forall i :: 0 <= i < |d.slots| ==>
      r.value.1.slots[i] == Slot(d.slots[i].face, d.slots[i].count - ComputeDispense(d, amount).value[i])
    ensures r.value.0 ==> Total(r.value.1.slots) == Total(d.slots) - (if amount <= 0 then 0 else amount)
  {
    match ComputeDispense(d, amount)
    case None => Ok((false, d))
    case Some(plan) =>
      SubtractTotal(d.slots, plan);
      match Subtract(d.slots, plan)
      case Ok(slots) =>
        assert Descending(slots) by {
          forall i, j | 0 <= i < j < |slots|
            ensures FaceAt(slots, i) > FaceAt(slots, j)
          {
            assert FaceAt(d.slots, i) > FaceAt(d.slots, j);
          }
        }
        Ok((true, Dispenser(slots)))
      case Err(e) => Err(e)
  }

  /** A dispense never drives a count below zero. */
  lemma DispenseKeepsStock(d: Dispenser, amount: int)
    requires InStock(d)
    ensures InStock(Dispense(d, amount).value.1)
  {
    var r := Dispense(d, amount).value;
    if r.0 {
      var plan := ComputeDispense(d, amount).value;
      assert Subtract(d.slots, plan).value == r.1.slots;
      forall i | 0 <= i < |r.1.slots|
        ensures r.1.slots[i].count >= 0
      {
        assert r.1.slots[i].count == d.slots[i].count - plan[i];
      }
    }
  }

  /** The total check in `canDispenseAmount` never decides anything once
      the counts are real: a positive amount is dispensable exactly when the
      strategy finds a plan. */
  lemma CanDispenseIffPlan(d: Dispenser, amount: int)
    requires InStock(d)
    ensures CanDispenseAmount(d, amount) <==> amount > 0 && ComputeDispense(d, amount).Some?
  {
    if amount > 0 && ComputeDispense(d, amount).Some? {
      var plan := ComputeDispense(d, amount).value;
      SubtractTotal(d.slots, plan);
      TotalNonNegative(Subtract(d.slots, plan).value);
    }
  }

  /** Whatever `canDispenseAmount` approves, `dispense` then pays out. */
  lemma CheckedDispenseSucceeds(d: Dispenser, amount: int)
    requires CanDispenseAmount(d, amount)
    ensures Dispense(d, amount).value.0
    ensures Total(Dispense(d, amount).value.1.slots) == Total(d.slots) - amount
  {
  }

  /** A non-positive amount "dispenses" nothing and reports success. */
  lemma DispenseNothing(d: Dispenser, amount: int)
    requires amount <= 0
    ensures Dispense(d, amount).value == (true, d)
  {
    var plan := Zeros(|d.slots|);
    var after := Subtract(d.slots, plan).value;
    assert after == d.slots;
  }
}

=== FILE: HashRing.dfy ===
/** The consistent-hash ring shared by the basic (`String` servers) and the
    generic (`T` servers keyed on `toString()`) versions: a sorted map from
    32-bit ring positions to servers, with `R` virtual replicas per server.

    MD5 is not modelled: `digest` stands for "MD5 of `key.getBytes()`", an
    arbitrary function from strings to sixteen Java bytes. The ring's sorted
    order is the order of the integer positions. */
module HashRing {
  import opened Wrappers
  import JavaText

  /** A Java `byte`: a signed eight-bit value. */
  type JByte = b: int | -128 <= b < 128

  /** A sixteen-byte message digest. */
  type Digest = d: seq<JByte> | |d| == 16 witness [0, 0, 0, 0, 0, 0, 0, 0, 0, 0, 0, 0, 0, 0, 0, 0]

  const RingSize: int := 0x1_0000_0000

  /** `b & 0xFF`: the same eight bits read as an unsigned value. */
  function Unsigned(b: JByte): (u: int)
    ensures 0 <= u < 256 && (u - b) % 256 == 0
  {
    if b < 0 then b + 256 else b
  }

  /** `generateHash`: the first four digest bytes as a big-endian unsigned
      32-bit number, so every hash lies in [0, 2^32) and the four bytes can
      be read back from it. */
  function GenerateHash(digest: string -> Digest, key: string): (h: int)
    ensures 0 <= h < RingSize
    ensures var d := digest(key);
      h / 0x100_0000 == Unsigned(d[0]) && h / 0x1_0000 % 0x100 == Unsigned(d[1]) &&
      h / 0x100 % 0x100 == Unsigned(d[2]) && h % 0x100 == Unsigned(d[3])
  {
    var d := digest(key);
    var h := Unsigned(d[0]) * 0x100_0000 + Unsigned(d[1]) * 0x1_0000 + Unsigned(d[2]) * 0x100 + Unsigned(d[3]);
    BigEndianBytes(Unsigned(d[0]), Unsigned(d[1]), Unsigned(d[2]), Unsigned(d[3]));
    h
  }

  /** Four bytes packed big-endian can be read back one by one. */
  lemma BigEndianBytes(a: int, b: int, c: int, d: int)
    requires 0 <= a < 256 && 0 <= b < 256 && 0 <= c < 256 && 0 <= d < 256
    ensures var h := a * 0x100_0000 + b * 0x1_0000 + c * 0x100 + d;
      0 <= h < 0x1_0000_0000 &&
      h / 0x100_0000 == a && h / 0x1_0000 % 0x100 == b && h / 0x100 % 0x100 == c && h % 0x100 == d
  {
    var h := a * 0x100_0000 + b * 0x1_0000 + c * 0x100 + d;
    assert h / 0x100_0000 == a;
    assert h / 0x1_0000 == a * 0x100 + b;
    assert h / 0x100 == a * 0x1_0000 + b * 0x100 + c;
  }

  /** The position of replica `i` of a server named `name`: the hash of the
      name with the decimal replica index appended. */
  function ReplicaHash(digest: string -> Digest, name: string, i: int): int {
    GenerateHash(digest, name + JavaText.IntToString(i))
  }

  /** The positions of replicas `from` .. `replicas - 1`. */
  function PositionsFrom(digest: string -> Digest, name: string, from: int, replicas: int): set<int> {
    set i | from <= i < replicas :: ReplicaHash(digest, name, i)
  }

  /** Every position a server with this name takes on the ring. */
  function Positions(digest: string -> Digest, name: string, replicas: int): set<int> {
    PositionsFrom(digest, name, 0, replicas)
  }

  /** The `addServer` loop from replica `i` on: `ring.put(hash, server)` for
      each replica, overwriting whatever owned a colliding position. */
  function AddReplicas<S>(ring: map<int, S>, digest: string -> Digest, name: string, server: S, i: int, replicas: int): (r: map<int, S>)
    ensures r.Keys == ring.Keys + PositionsFrom(digest, name, i, replicas)
    ensures forall p :: p in r ==> r[p] == if p in PositionsFrom(digest, name, i, replicas) then server else ring[p]
    decreases replicas - i
  {
    if i >= replicas then ring
    else
      var r := AddReplicas(ring[ReplicaHash(digest, name, i) := server], digest, name, server, i + 1, replicas);
      assert PositionsFrom(digest, name, i, replicas) ==
        {ReplicaHash(digest, name, i)} + PositionsFrom(digest, name, i + 1, replicas);
      r
  }

  /** The `removeServer` loop from replica `i` on: `ring.remove(hash)` for
      each replica, whoever owns the position. */
  function RemoveReplicas<S>(ring: map<int, S>, digest: string -> Digest, name: string, i: int, replicas: int): (r: map<int, S>)
    ensures r.Keys == ring.Keys - PositionsFrom(digest, name, i, replicas)
    ensures forall p :: p in r ==> r[p] == ring[p]
    decreases replicas - i
  {
    if i >= replicas then ring
    else
      var r := RemoveReplicas(ring - {ReplicaHash(digest, name, i)}, digest, name, i + 1, replicas);
      assert PositionsFrom(digest, name, i, replicas) ==
        {ReplicaHash(digest, name, i)} + PositionsFrom(digest, name, i + 1, replicas);
      r
  }

  /** `addServer`: the server's replica positions now all belong to it (last
      write wins over another server's colliding position); every other
      entry is untouched. */
  function AddServer<S>(ring: map<int, S>, digest: string -> Digest, show: S -> string, server: S, replicas: int): (r: map<int, S>)
    ensures r.Keys == ring.Keys + Positions(digest, show(server), replicas)
    ensures forall p :: p in Positions(digest, show(server), replicas) ==> r[p] == server
    ensures forall p :: p in ring && p !in Positions(digest, show(server), replicas) ==> r[p] == ring[p]
  {
    AddReplicas(ring, digest, show(server), server, 0, replicas)
  }

  /** `removeServer`: exactly the positions computed from the server's name
      are gone, even those another server had taken over; every other entry
      is untouched. */
  function RemoveServer<S>(ring: map<int, S>, digest: string -> Digest, show: S -> string, server: S, replicas: int): (r: map<int, S>)
    ensures r.Keys == ring.Keys - Positions(digest, show(server), replicas)
    ensures forall p :: p in r ==> r[p] == ring[p]
  {
    RemoveReplicas(ring, digest, show(server), 0, replicas)
  }

  /** A least element, picked by removing an arbitrary one and recursing. */
  ghost function LeastOf(s: set<int>): (m: int)
    requires s != {}
    ensures m in s && forall x :: x in s ==> m <= x
    decreases |s|
  {
    if forall y :: y !in s then assert false; 0
    else
      var x :| x in s;
      var rest := s - {x};
      if rest == {} then
        assert s == {x};
        x
      else
        var m := LeastOf(rest);
        assert forall y :: y in s ==> y == x || y in rest;
        if x < m then x else m
  }

  lemma MinExists(s: set<int>)
    requires s != {}
    ensures exists m :: m in s && forall x :: x in s ==> m <= x
  {
    var m := LeastOf(s);
  }

  /** The least element of a non-empty set of positions. */
  function MinOf(s: set<int>): (m: int)
    requires s != {}
    ensures m in s && forall x :: x in s ==> m <= x
  {
    MinExists(s);
    var m :| m in s && forall x :: x in s ==> m <= x;
    m
  }

  /** The ring position a lookup of hash `h` lands on: `ceilingKey(h)`, or
      `firstKey()` when no position is at or after `h`. */
  function Target<S>(ring: map<int, S>, h: int): (p: int)
    requires ring != map[]
    ensures p in ring
    ensures (exists q :: q in ring && q >= h) ==> p >= h && forall q :: q in ring && q >= h ==> p <= q
    ensures (forall q :: q in ring ==> q < h) ==> forall q :: q in ring ==> p <= q
  {
    var above := set q | q in ring && q >= h;
    assert forall q :: q in ring && q >= h ==> q in above;
    if above != {} then MinOf(above)
    else
      assert exists q :: q in ring by {
        if forall q :: q !in ring { assert false; }
      }
      MinOf(ring.Keys)
  }

  /** The owner of the ring position for hash `h`, or `None` on an empty ring. */
  function Lookup<S>(ring: map<int, S>, h: int): (r: Option<S>)
    ensures r.None? <==> ring == map[]
    ensures r.Some? ==> exists p :: p in ring && ring[p] == r.value
    ensures ring != map[] ==> r == Some(ring[Target(ring, h)])
  {
    if ring == map[] then None else Some(ring[Target(ring, h)])
  }

  /** `getServer`: null on an empty ring, otherwise the owner of the first
      position at or after the key's hash, wrapping to the first position. */
  function GetServer<S>(ring: map<int, S>, digest: string -> Digest, key: string): (r: Option<S>)
    ensures r.None? <==> ring == map[]
    ensures r.Some? ==> exists p :: p in ring && ring[p] == r.value
    ensures ring != map[] ==> r == Some(ring[Target(ring, GenerateHash(digest, key))])
  {
    Lookup(ring, GenerateHash(digest, key))
  }

  // ---------------------------------------------------------------------
  // Properties of the ring operations.

  /** Removing a server right after adding it gives back the original ring
      exactly when none of its positions was already taken; otherwise the
      removal also deletes the other server's colliding entry. */
  lemma AddThenRemove<S>(ring: map<int, S>, digest: string -> Digest, show: S -> string, server: S, replicas: int)
    ensures RemoveServer(AddServer(ring, digest, show, server, replicas), digest, show, server, replicas) == ring
        <==> ring.Keys !! Positions(digest, show(server), replicas)
  {
    var P := Positions(digest, show(server), replicas);
    var r := RemoveServer(AddServer(ring, digest, show, server, replicas), digest, show, server, replicas);
    if ring.Keys !! P {
      assert r.Keys == ring.Keys;
      assert forall p :: p in r ==> r[p] == ring[p];
    } else {
      var p :| p in ring.Keys && p in P;
      assert p !in r;
    }
  }

  /** Adding two different servers in either order gives the same ring
      exactly when their positions are disjoint: on a shared position the
      later write wins. */
  lemma AddOrder<S>(ring: map<int, S>, digest: string -> Digest, show: S -> string, a: S, b: S, replicas: int)
    requires a != b
    ensures AddServer(AddServer(ring, digest, show, a, replicas), digest, show, b, replicas) ==
            AddServer(AddServer(ring, digest, show, b, replicas), digest, show, a, replicas)
        <==> Positions(digest, show(a), replicas) !! Positions(digest, show(b), replicas)
  {
    var Pa := Positions(digest, show(a), replicas);
    var Pb := Positions(digest, show(b), replicas);
    var ab := AddServer(AddServer(ring, digest, show, a, replicas), digest, show, b, replicas);
    var ba := AddServer(AddServer(ring, digest, show, b, replicas), digest, show, a, replicas);
    if Pa !! Pb {
      assert ab.Keys == ba.Keys;
      forall p | p in ab
        ensures ab[p] == ba[p]
      {
        if p in Pa {
          assert p !in Pb;
        } else if p in Pb {
          assert p !in Pa;
        }
      }
    } else {
      var p :| p in Pa && p in Pb;
      assert ab[p] == b && ba[p] == a;
    }
  }

  /** The lookup does not change for a hash whose owner is not `s` when
      positions that, if present, all belong to `s` are deleted. */
  lemma LookupUnaffected<S>(ring: map<int, S>, gone: set<int>, s: S, h: int)
    requires forall p :: p in gone && p in ring ==> ring[p] == s
    requires Lookup(ring, h) != Some(s)
    ensures Lookup(ring - gone, h) == Lookup(ring, h)
  {
    var rest := ring - gone;
    if ring != map[] {
      var t := Target(ring, h);
      assert t in rest;
      assert rest != map[];
      var t' := Target(rest, h);
      assert t' in ring;
      if exists q :: q in ring && q >= h {
        assert exists q :: q in rest && q >= h;
      } else {
        assert forall q :: q in rest ==> q < h;
      }
      assert t == t';
    } else {
      assert rest == map[];
    }
  }

  /** The ceiling rule, read backwards: a present position at or above the
      hash with no present position between them is the target. */
  lemma TargetIsCeiling<S>(ring: map<int, S>, h: int, p: int)
    requires p in ring && p >= h
    requires forall q :: q in ring && q >= h ==> p <= q
    ensures Target(ring, h) == p
  {
  }

  /** The wrap-around rule, read backwards: with every position below the
      hash, the lowest position is the target. */
  lemma TargetIsFirst<S>(ring: map<int, S>, h: int, p: int)
    requires p in ring
    requires forall q :: q in ring ==> q < h && p <= q
    ensures Target(ring, h) == p
  {
  }

  /** A present position at or above the hash bounds the target. */
  lemma TargetAtMost<S>(ring: map<int, S>, h: int, q: int)
    requires q in ring && q >= h
    ensures h <= Target(ring, h) <= q
  {
  }

  /** The ring that three servers with the given position sets build. */
  function Layout<S>(a: S, pa: set<int>, b: S, pb: set<int>, c: S, pc: set<int>): map<int, S> {
    map p | p in pa + pb + pc :: if p in pc then c else if p in pb then b else a
  }

  /** Adding three servers in turn to an empty ring lays them out by their
      positions, the later server winning a shared position. */
  lemma AddThree<S>(digest: string -> Digest, show: S -> string, a: S, b: S, c: S, replicas: int)
    ensures var r1 := AddServer(map[], digest, show, a, replicas);
      var r2 := AddServer(r1, digest, show, b, replicas);
      AddServer(r2, digest, show, c, replicas) ==
        Layout(a, Positions(digest, show(a), replicas), b, Positions(digest, show(b), replicas),
               c, Positions(digest, show(c), replicas))
  {
    var pa, pb, pc := Positions(digest, show(a), replicas), Positions(digest, show(b), replicas), Positions(digest, show(c), replicas);
    var r1 := AddServer(map[], digest, show, a, replicas);
    var r2 := AddServer(r1, digest, show, b, replicas);
    var r3 := AddServer(r2, digest, show, c, replicas);
    var layout := Layout(a, pa, b, pb, c, pc);
    assert r3.Keys == layout.Keys;
    forall p | p in r3
      ensures r3[p] == layout[p]
    {
      if p !in pc && p !in pb {
        assert r3[p] == r2[p] == r1[p];
      } else if p !in pc {
        assert r3[p] == r2[p];
      }
    }
  }

  /** Every entry sits at one of its owner's replica positions: true of any
      ring built by `addServer` and `removeServer` from an empty one. */
  ghost predicate WellFormed<S>(ring: map<int, S>, digest: string -> Digest, show: S -> string, replicas: int) {
    forall p :: p in ring ==> p in Positions(digest, show(ring[p]), replicas)
  }

  lemma AddServerWellFormed<S>(ring: map<int, S>, digest: string -> Digest, show: S -> string, server: S, replicas: int)
    requires WellFormed(ring, digest, show, replicas)
    ensures WellFormed(AddServer(ring, digest, show, server, replicas), digest, show, replicas)
  {
  }

  lemma RemoveServerWellFormed<S>(ring: map<int, S>, digest: string -> Digest, show: S -> string, server: S, replicas: int)
    requires WellFormed(ring, digest, show, replicas)
    ensures WellFormed(RemoveServer(ring, digest, show, server, replicas), digest, show, replicas)
  {
  }

  /** After `removeServer(s)` on a well-formed ring, neither `s` nor any
      server with the same name owns a position any more. */
  lemma RemovedServerOwnsNothing<S>(ring: map<int, S>, digest: string -> Digest, show: S -> string, s: S, replicas: int)
    requires WellFormed(ring, digest, show, replicas)
    ensures var r := RemoveServer(ring, digest, show, s, replicas);
      forall p :: p in r ==> show(r[p]) != show(s)
  {
    var r := RemoveServer(ring, digest, show, s, replicas);
    forall p | p in r
      ensures show(r[p]) != show(s)
    {
      assert p in ring && r[p] == ring[p];
      assert p in Positions(digest, show(ring[p]), replicas);
    }
  }

  /** Minimal disruption: when no other server has taken over one of the
      positions of `s`, removing `s` changes the owner only of the keys that
      `s` owned; on a well-formed ring, every key `s` owned moves elsewhere. */
  lemma RemoveServerRemaps<S>(ring: map<int, S>, digest: string -> Digest, show: S -> string, s: S, replicas: int, key: string)
    requires forall p :: p in Positions(digest, show(s), replicas) && p in ring ==> ring[p] == s
    ensures var r := RemoveServer(ring, digest, show, s, replicas);
      GetServer(ring, digest, key) != Some(s) ==> GetServer(r, digest, key) == GetServer(ring, digest, key)
    ensures var r := RemoveServer(ring, digest, show, s, replicas);
      WellFormed(ring, digest, show, replicas) && GetServer(ring, digest, key) == Some(s) ==>
        GetServer(r, digest, key) != Some(s)
  {
    var P := Positions(digest, show(s), replicas);
    var r := RemoveServer(ring, digest, show, s, replicas);
    assert r == ring - P;
    var h := GenerateHash(digest, key);
    if Lookup(ring, h) != Some(s) {
      LookupUnaffected(ring, P, s, h);
    }
    if WellFormed(ring, digest, show, replicas) && Lookup(r, h).Some? {
      RemovedServerOwnsNothing(ring, digest, show, s, replicas);
      var p :| p in r && r[p] == Lookup(r, h).value;
    }
  }
}

=== FILE: HashRingBasic.dfy ===
/** The ring specialised to servers named by plain strings, and the
    scenario of its demonstration: three servers with three replicas each,
    then the removal of `server1`. */
module HashRingBasic {
  import opened Wrappers
  import JavaText
  import opened HashRing

  /** A string server is its own name. */
  function Name(s: string): string {
    s
  }

  const Replicas: int := 3

  const Initial: map<int, string> := map[
    853932351 := "server2", 1229543767 := "server2", 2431002893 := "server3",
    3333114503 := "server3", 3395364710 := "server2", 3398945014 := "server3",
    3580395949 := "server1", 3726572320 := "server1", 4030069192 := "server1"]

  const AfterRemoval: map<int, string> := map[
    853932351 := "server2", 1229543767 := "server2", 2431002893 := "server3",
    3333114503 := "server3", 3395364710 := "server2", 3398945014 := "server3"]

  const Server1Positions: set<int> := {3580395949, 3726572320, 4030069192}

  const Server2Positions: set<int> := {853932351, 1229543767, 3395364710}
  const Server3Positions: set<int> := {2431002893, 3333114503, 3398945014}

  /** The replica positions that the printed ring shows for each server. */
  ghost predicate DemoDigest(digest: string -> Digest) {
    && Positions(digest, "server1", Replicas) == Server1Positions
    && Positions(digest, "server2", Replicas) == Server2Positions
    && Positions(digest, "server3", Replicas) == Server3Positions
  }

  lemma InitialLayout()
    ensures Layout("server1", Server1Positions, "server2", Server2Positions, "server3", Server3Positions) == Initial
  {
  }

  lemma DemoAddServers(digest: string -> Digest)
    requires DemoDigest(digest)
    ensures var r1 := AddServer(map[], digest, Name, "server1", Replicas);
      var r2 := AddServer(r1, digest, Name, "server2", Replicas);
      AddServer(r2, digest, Name, "server3", Replicas) == Initial
  {
    AddThree(digest, Name, "server1", "server2", "server3", Replicas);
    InitialLayout();
  }

  lemma InitialWithoutServer1()
    ensures Initial - Server1Positions == AfterRemoval
  {
  }

  lemma DemoRemoveServer(digest: string -> Digest)
    requires DemoDigest(digest)
    ensures RemoveServer(Initial, digest, Name, "server1", Replicas) == AfterRemoval
  {
    var r := RemoveServer(Initial, digest, Name, "server1", Replicas);
    assert r.Keys == (Initial - Server1Positions).Keys;
    assert r == Initial - Server1Positions;
    InitialWithoutServer1();
  }

  /** In the demonstration every key that `server1` owned moves to
      `server2`, the owner of the lowest position, and no other key moves. */
  lemma DemoRemap(h: int)
    ensures Lookup(AfterRemoval, h) ==
      if Lookup(Initial, h) == Some("server1") then Some("server2") else Lookup(Initial, h)
  {
    var gone := {3580395949, 3726572320, 4030069192};
    assert AfterRemoval == Initial - gone;
    if h > 3398945014 {
      assert forall q :: q in AfterRemoval ==> q < h;
      assert 853932351 in AfterRemoval;
      var t' := Target(AfterRemoval, h);
      assert 853932351 in AfterRemoval;
      assert t' == 853932351;
      assert Lookup(AfterRemoval, h) == Some("server2");
      if Lookup(Initial, h) != Some("server1") {
        var t := Target(Initial, h);
        if exists q :: q in Initial && q >= h {
          assert false;
        } else {
          assert t == 853932351;
        }
      }
    } else {
      assert 3398945014 in Initial && 3398945014 >= h;
      var t := Target(Initial, h);
      assert t <= 3398945014;
      assert Initial[t] != "server1";
      LookupUnaffected(Initial, gone, "server1", h);
    }
  }

  /** Replica names are the server name followed by the decimal replica
      index, so `server1` with index 10 and `server11` with index 0 hash the
      same string: with more than ten replicas the two servers collide. */
  lemma ReplicaNamesCollide(digest: string -> Digest, replicas: int)
    requires replicas > 10
    ensures var p := ReplicaHash(digest, "server1", 10);
      && p in Positions(digest, "server1", replicas)
      && p in Positions(digest, "server11", replicas)
      && AddServer(AddServer(map[], digest, Name, "server1", replicas), digest, Name, "server11", replicas)[p] == "server11"
  {
    assert JavaText.IntToString(10) == "10";
    assert JavaText.IntToString(0) == "0";
    assert "server1" + "10" == "server11" + "0";
    assert ReplicaHash(digest, "server1", 10) == ReplicaHash(digest, "server11", 0);
  }
}

=== FILE: HashRingGeneric.dfy ===
/** The ring over an arbitrary server type, shown with the demonstration's
    `Server` class, whose `toString` is `ip + ":" + port`. A server is
    modelled by its address and port; Java compares `Server` objects by
    identity, which the model does not distinguish. */
module HashRingGeneric {
  import opened Wrappers
  import JavaText
  import opened HashRing

  datatype Server = Server(ip: string, port: int)

  /** `Server.toString`: the address, a colon, then the port in decimal. */
  function ServerName(s: Server): (name: string)
    ensures |name| > |s.ip| && name[..|s.ip|] == s.ip && name[|s.ip|] == ':'
  {
    s.ip + ":" + JavaText.IntToString(s.port)
  }

  predicate ColonFree(s: string) {
    forall i :: 0 <= i < |s| ==> s[i] != ':'
  }

  /** When the tails differ in length, the longer one holds the colon
      that ends the shorter name's prefix. */
  lemma ColonInLongerTail(x: string, p: string, y: string, q: string)
    requires x + ":" + p == y + ":" + q && |p| < |q|
    ensures q[|x| - |y| - 1] == ':'
  {
    assert (x + ":" + p)[|x|] == ':';
    assert (y + ":" + q)[|x|] == q[|x| - |y| - 1];
  }

  /** The last colon splits `x + ":" + p` back into `x` and `p`. */
  lemma SplitAtLastColon(x: string, p: string, y: string, q: string)
    requires x + ":" + p == y + ":" + q
    requires ColonFree(p) && ColonFree(q)
    ensures x == y && p == q
  {
    var n := x + ":" + p;
    if |p| < |q| {
      ColonInLongerTail(x, p, y, q);
    } else if |q| < |p| {
      ColonInLongerTail(y, q, x, p);
    } else {
      assert x == n[..|x|] == y;
      assert p == n[|x| + 1..] == q;
    }
  }

  /** The port text never holds a colon, so servers with a different
      address or port get different names. */
  lemma ServerNameInjective(a: Server, b: Server)
    requires ServerName(a) == ServerName(b)
    ensures a == b
  {
    SplitAtLastColon(a.ip, JavaText.IntToString(a.port), b.ip, JavaText.IntToString(b.port));
    JavaText.IntToStringInjective(a.port, b.port);
  }

  const Replicas: int := 3
  const S1: Server := Server("192.168.0.1", 8080)
  const S2: Server := Server("192.168.0.2", 8080)
  const S3: Server := Server("192.168.0.3", 8080)

  const S1Positions: set<int> := {54536046, 1020991488, 1709067614}
  const S2Positions: set<int> := {240405924, 718869031, 4066675151}
  const S3Positions: set<int> := {203659980, 960535761, 3605626313}

  const Initial: map<int, Server> := map[
    54536046 := S1, 203659980 := S3, 240405924 := S2, 718869031 := S2, 960535761 := S3,
    1020991488 := S1, 1709067614 := S1, 3605626313 := S3, 4066675151 := S2]

  const AfterRemoval: map<int, Server> := map[
    203659980 := S3, 240405924 := S2, 718869031 := S2, 960535761 := S3,
    3605626313 := S3, 4066675151 := S2]

  /** The replica positions that the printed ring shows for each server. */
  ghost predicate DemoDigest(digest: string -> Digest) {
    && Positions(digest, ServerName(S1), Replicas) == S1Positions
    && Positions(digest, ServerName(S2), Replicas) == S2Positions
    && Positions(digest, ServerName(S3), Replicas) == S3Positions
  }

  lemma InitialLayout()
    ensures Layout(S1, S1Positions, S2, S2Positions, S3, S3Positions) == Initial
  {
  }

  lemma DemoAddServers(digest: string -> Digest)
    requires DemoDigest(digest)
    ensures var r1 := AddServer(map[], digest, ServerName, S1, Replicas);
      var r2 := AddServer(r1, digest, ServerName, S2, Replicas);
      AddServer(r2, digest, ServerName, S3, Replicas) == Initial
  {
    AddThree(digest, ServerName, S1, S2, S3, Replicas);
    InitialLayout();
  }

  lemma InitialWithoutS1()
    ensures Initial - S1Positions == AfterRemoval
  {
  }

  lemma DemoRemoveServer(digest: string -> Digest)
    requires DemoDigest(digest)
    ensures RemoveServer(Initial, digest, ServerName, S1, Replicas) == AfterRemoval
  {
    var r := RemoveServer(Initial, digest, ServerName, S1, Replicas);
    assert r.Keys == (Initial - S1Positions).Keys;
    assert r == Initial - S1Positions;
    InitialWithoutS1();
  }

  /** Keys at or below the lowest position, and keys past the highest
      one, which wrap around to it, move from `S1` to `S3`. */
  lemma RemapAroundZero(h: int)
    requires h <= 54536046 || h > 4066675151
    ensures Lookup(Initial, h) == Some(S1) && Lookup(AfterRemoval, h) == Some(S3)
  {
    if h <= 54536046 {
      TargetIsCeiling(Initial, h, 54536046);
      TargetIsCeiling(AfterRemoval, h, 203659980);
    } else {
      TargetIsFirst(Initial, h, 54536046);
      TargetIsFirst(AfterRemoval, h, 203659980);
    }
  }

  /** Keys between `S3`'s position 960535761 and `S1`'s 1709067614 move
      from `S1` to `S3`'s position 3605626313. */
  lemma RemapMiddle(h: int)
    requires 960535761 < h <= 1709067614
    ensures Lookup(Initial, h) == Some(S1) && Lookup(AfterRemoval, h) == Some(S3)
  {
    if h <= 1020991488 {
      TargetIsCeiling(Initial, h, 1020991488);
    } else {
      TargetIsCeiling(Initial, h, 1709067614);
    }
    TargetIsCeiling(AfterRemoval, h, 3605626313);
  }

  /** In the demonstration every key that `S1` owned moves to `S3`, whose
      positions follow each of `S1`'s around the ring, and no other key
      moves. */
  lemma DemoRemap(h: int)
    ensures Lookup(AfterRemoval, h) == if Lookup(Initial, h) == Some(S1) then Some(S3) else Lookup(Initial, h)
  {
    if Lookup(Initial, h) == Some(S1) {
      var t := Target(Initial, h);
      assert Initial[t] == S1;
      assert t in S1Positions;
      if t == 54536046 {
        assert h <= 54536046 || h > 4066675151 by {
          if h <= 4066675151 {
            TargetAtMost(Initial, h, 4066675151);
          }
        }
        RemapAroundZero(h);
      } else {
        assert h <= t by {
          assert 54536046 in Initial;
        }
        assert 960535761 < h by {
          if h <= 960535761 {
            TargetAtMost(Initial, h, 960535761);
          }
        }
        RemapMiddle(h);
      }
    } else {
      InitialWithoutS1();
      LookupUnaffected(Initial, S1Positions, S1, h);
    }
  }
}

=== FILE: JavaText.dfy ===
/** The pieces of Java's `String` and integer semantics that the model relies
    on: decimal rendering of an `int` (string concatenation `s + i`),
    `String.compareTo`, and division that truncates toward zero. */
module JavaText {

  predicate IsDigit(c: char) {
    '0' <= c <= '9'
  }

  predicate AllDigits(s: string) {
    forall i :: 0 <= i < |s| ==> IsDigit(s[i])
  }

  function DigitChar(d: nat): (c: char)
    requires d < 10
    ensures IsDigit(c) && c as int - '0' as int == d
  {
    ('0' as int + d) as char
  }

  function DigitValue(c: char): (d: nat)
    requires IsDigit(c)
    ensures d < 10 && DigitChar(d) == c
  {
    c as int - '0' as int
  }

  /** Decimal digits of `n`, most significant first, without leading zeros. */
  function NatToString(n: nat): (s: string)
    ensures |s| >= 1 && AllDigits(s)
    ensures |s| > 1 ==> s[0] != '0'
  {
    if n < 10 then [DigitChar(n)] else NatToString(n / 10) + [DigitChar(n % 10)]
  }

  /** How Java renders an `int` when it is concatenated to a string. */
  function IntToString(i: int): (s: string)
    ensures |s| >= 1
    ensures i < 0 <==> s[0] == '-'
    ensures forall k :: 1 <= k < |s| ==> IsDigit(s[k])
  {
    if i < 0 then "-" + NatToString(-i) else NatToString(i)
  }

  /** Reads back a non-empty run of decimal digits. */
  function ParseDigits(s: string): nat
    requires |s| >= 1 && AllDigits(s)
  {
    if |s| == 1 then DigitValue(s[0])
    else ParseDigits(s[..|s| - 1]) * 10 + DigitValue(s[|s| - 1])
  }

  /** Reads back what `IntToString` writes: an optional minus sign, then digits. */
  function ParseInt(s: string): int
    requires |s| >= 1
    requires s[0] == '-' ==> |s| >= 2 && AllDigits(s[1..])
    requires s[0] != '-' ==> AllDigits(s)
  {
    if s[0] == '-' then -(ParseDigits(s[1..]) as int) else ParseDigits(s)
  }

  lemma {:induction false} ParseNatToString(n: nat)
    ensures ParseDigits(NatToString(n)) == n
  {
    if n >= 10 {
      var s := NatToString(n);
      assert s[..|s| - 1] == NatToString(n / 10);
      ParseNatToString(n / 10);
    }
  }

  /** Rendering an `int` loses nothing: parsing it back gives the same `int`. */
  lemma ParseIntToString(i: int)
    ensures IntToString(i)[0] == '-' ==> |IntToString(i)| >= 2 && AllDigits(IntToString(i)[1..])
    ensures IntToString(i)[0] != '-' ==> AllDigits(IntToString(i))
    ensures ParseInt(IntToString(i)) == i
  {
    var s := IntToString(i);
    if i < 0 {
      var t := NatToString(-i);
      assert s == "-" + t;
      assert s[1..] == t;
      assert s[0] == '-';
      ParseNatToString(-i);
    } else {
      assert s == NatToString(i);
      assert s[0] != '-';
      ParseNatToString(i);
    }
  }

  lemma IntToStringInjective(a: int, b: int)
    requires IntToString(a) == IntToString(b)
    ensures a == b
  {
    ParseIntToString(a);
    ParseIntToString(b);
  }

  /** Java's `a.compareTo(b)`: the difference of the first differing
      characters, or else the difference of the lengths. */
  function CompareTo(a: string, b: string): int
  {
    if |a| == 0 || |b| == 0 then |a| - |b|
    else if a[0] != b[0] then a[0] as int - b[0] as int
    else CompareTo(a[1..], b[1..])
  }

  lemma {:induction false} CompareToFlip(a: string, b: string)
    ensures CompareTo(b, a) == -CompareTo(a, b)
  {
    if |a| != 0 && |b| != 0 && a[0] == b[0] {
      CompareToFlip(a[1..], b[1..]);
    }
  }

  lemma {:induction false} CompareToZero(a: string, b: string)
    ensures CompareTo(a, b) == 0 <==> a == b
  {
    if |a| != 0 && |b| != 0 && a[0] == b[0] {
      CompareToZero(a[1..], b[1..]);
      if a[1..] == b[1..] {
        assert a == [a[0]] + a[1..] && b == [b[0]] + b[1..];
      }
    }
  }

  lemma {:induction false} CompareToTransitive(a: string, b: string, c: string)
    requires CompareTo(a, b) <= 0 && CompareTo(b, c) <= 0
    ensures CompareTo(a, c) <= 0
  {
    if |a| != 0 && |b| != 0 && |c| != 0 && a[0] == b[0] && b[0] == c[0] {
      CompareToTransitive(a[1..], b[1..], c[1..]);
    }
  }

  /** A common prefix does not change the order. */
  lemma {:induction false} CompareToCommonPrefix(p: string, a: string, b: string)
    ensures CompareTo(p + a, p + b) == CompareTo(a, b)
  {
    if |p| > 0 {
      assert (p + a)[0] == p[0] == (p + b)[0];
      assert (p + a)[1..] == p[1..] + a && (p + b)[1..] == p[1..] + b;
      CompareToCommonPrefix(p[1..], a, b);
    } else {
      assert p + a == a && p + b == b;
    }
  }

  /** `s.indexOf(c)`, except that a missing `c` gives `|s|` rather than -1. */
  function IndexOf(c: char, s: string): (k: nat)
    ensures k <= |s|
    ensures forall j :: 0 <= j < k ==> s[j] != c
    ensures k < |s| ==> s[k] == c
  {
    if |s| == 0 then 0 else if s[0] == c then 0 else 1 + IndexOf(c, s[1..])
  }

  /** The first `c` of `x + [c] + rest` is the one right after `x` when `x` holds no `c`. */
  lemma IndexOfAfter(c: char, x: string, rest: string)
    requires c !in x
    ensures IndexOf(c, x + [c] + rest) == |x|
  {
    var s := x + [c] + rest;
    var k := IndexOf(c, s);
    assert s[|x|] == c;
    assert forall j :: 0 <= j < |x| ==> s[j] == x[j];
  }

  /** A character that is neither a digit nor a minus sign never occurs in a rendered `int`. */
  lemma IntToStringAvoids(c: char, i: int)
    requires c != '-' && !IsDigit(c)
    ensures c !in IntToString(i)
  {
    var s := IntToString(i);
    if i < 0 {
      assert s == "-" + NatToString(-i);
    } else {
      assert s == NatToString(i);
    }
  }

  /** Java's `/` on a non-negative divisor: the quotient is truncated toward zero. */
  function JavaDiv(a: int, b: int): (q: int)
    requires b > 0
    ensures a >= 0 ==> 0 <= q && q * b <= a < q * b + b
    ensures a < 0 ==> q <= 0 && q * b - b < a <= q * b
  {
    if a >= 0 then a / b else -((-a) / b)
  }
}

=== FILE: LeastNotes.dfy ===
/** The greedy note-splitting strategy (`LeastNumberOfNotesStrategy`):
    walk the denominations from the largest face value down, taking of each
    as many notes as fit in what remains and as the inventory holds. */
module LeastNotes {
  import opened Wrappers
  import JavaText

  /** A denomination's face value; every `Denomination` is worth a positive amount. */
  type Face = v: int | v > 0 witness 1

  /** One denomination and the number of its notes in the inventory. */
  datatype Slot = Slot(face: Face, count: int)

  /** How many notes of each inventory slot to hand out, slot by slot; a 0
      stands for a denomination that the returned map leaves out. */
  type Plan = seq<nat>

  /** The inventory lists the denominations in the order the strategy visits
      them: strictly descending face value. */
  predicate Descending(slots: seq<Slot>) {
    forall i, j :: 0 <= i < j < |slots| ==> FaceAt(slots, i) > FaceAt(slots, j)
  }

  /** The face value of slot `i`; it names the terms `Descending` is about. */
  function FaceAt(slots: seq<Slot>, i: int): Face
    requires 0 <= i < |slots|
  {
    slots[i].face
  }

  /** What a plan pays out. */
  function Value(slots: seq<Slot>, plan: Plan): int
    requires |plan| == |slots|
  {
    if |slots| == 0 then 0 else plan[0] * slots[0].face + Value(slots[1..], plan[1..])
  }

  /** Every denomination the plan uses is in stock in that number. */
  predicate Within(slots: seq<Slot>, plan: Plan) {
    |plan| == |slots| && forall i :: 0 <= i < |plan| && plan[i] > 0 ==> plan[i] <= slots[i].count
  }

  function Zeros(n: nat): (z: Plan)
    ensures |z| == n && forall i :: 0 <= i < n ==> z[i] == 0
  {
    if n == 0 then [] else Zeros(n - 1) + [0]
  }

  lemma {:induction false} ValueZeros(slots: seq<Slot>)
    ensures Value(slots, Zeros(|slots|)) == 0
  {
    if |slots| > 0 {
      assert Zeros(|slots|)[1..] == Zeros(|slots| - 1);
      ValueZeros(slots[1..]);
    }
  }

  /** The notes of one denomination that the greedy pass takes:
      `min(remaining / denom, available)`, or none when that is not positive. */
  function Take(slot: Slot, remaining: int): (use: nat)
    requires remaining >= 0
    ensures use * slot.face <= remaining
    ensures use > 0 ==> use <= slot.count
  {
    var q := JavaText.JavaDiv(remaining, slot.face);
    var m := if q < slot.count then q else slot.count;
    assert m <= q;
    if m > 0 then (MulMono(m, q, slot.face); m) else 0
  }

  lemma MulMono(a: int, b: int, f: int)
    requires 0 <= a <= b && f > 0
    ensures a * f <= b * f
  {
  }

  /** The greedy pass over `slots` from `remaining`: the plan and what is
      left over. */
  function Greedy(slots: seq<Slot>, remaining: int): (r: (Plan, int))
    requires remaining >= 0
    ensures |r.0| == |slots| && 0 <= r.1 <= remaining
    decreases |slots|
  {
    if |slots| == 0 then ([], remaining)
    else
      var use := Take(slots[0], remaining);
      var rest := Greedy(slots[1..], remaining - use * slots[0].face);
      var plan := [use] + rest.0;
      assert plan[0] == use && plan[1..] == rest.0;
      (plan, rest.1)
  }

  /** What the pass plans and what it leaves over make up the amount. */
  lemma {:induction false} GreedyValue(slots: seq<Slot>, remaining: int)
    requires remaining >= 0
    ensures Value(slots, Greedy(slots, remaining).0) + Greedy(slots, remaining).1 == remaining
  {
    if |slots| > 0 {
      var use := Take(slots[0], remaining);
      var rest := Greedy(slots[1..], remaining - use * slots[0].face);
      GreedyValue(slots[1..], remaining - use * slots[0].face);
      var plan := Greedy(slots, remaining).0;
      assert plan[0] == use && plan[1..] == rest.0;
    }
  }

  /** The pass never plans more notes of a denomination than are in stock. */
  lemma {:induction false} GreedyWithin(slots: seq<Slot>, remaining: int)
    requires remaining >= 0
    ensures Within(slots, Greedy(slots, remaining).0)
  {
    if |slots| > 0 {
      var use := Take(slots[0], remaining);
      var rest := Greedy(slots[1..], remaining - use * slots[0].face);
      GreedyWithin(slots[1..], remaining - use * slots[0].face);
      var plan := Greedy(slots, remaining).0;
      assert plan == [use] + rest.0;
      forall i | 0 <= i < |plan| && plan[i] > 0
        ensures plan[i] <= slots[i].count
      {
        if i > 0 {
          assert plan[i] == rest.0[i - 1] && slots[1..][i - 1] == slots[i];
        }
      }
    }
  }

  /** One step of the pass: the first slot's share, then the pass over the rest. */
  lemma GreedyStep(slots: seq<Slot>, remaining: int)
    requires remaining >= 0 && |slots| > 0
    ensures var use := Take(slots[0], remaining);
      var rest := Greedy(slots[1..], remaining - use * slots[0].face);
      Greedy(slots, remaining) == ([use] + rest.0, rest.1)
  {
  }

  /** `compute(amount, inventory)`: `None` is the `null` of an amount the
      pass cannot make up exactly. The inventory is given in the order the
      strategy's sort produces, largest face value first. */
  function Compute(slots: seq<Slot>, amount: int): (r: Option<Plan>)
    requires Descending(slots)
    ensures amount <= 0 ==> r == Some(Zeros(|slots|))
    ensures r.Some? ==> Within(slots, r.value) && Value(slots, r.value) == if amount <= 0 then 0 else amount
    ensures amount > 0 ==> (r.None? <==> Greedy(slots, amount).1 != 0)
  {
    if amount <= 0 then (ValueZeros(slots); Some(Zeros(|slots|)))
    else
      var g := Greedy(slots, amount);
      GreedyWithin(slots, amount);
      GreedyValue(slots, amount);
      if g.1 != 0 then None else Some(g.0)
  }

  /** The loop of `compute`, visiting the slots in order and appending
      each denomination's share. */
  method ComputeDispense(slots: seq<Slot>, amount: int) returns (r: Option<Plan>)
    requires Descending(slots)
    ensures r == Compute(slots, amount)
    ensures r.Some? ==> Within(slots, r.value) && (amount > 0 ==> Value(slots, r.value) == amount)
  {
    if amount <= 0 {
      return Some(Zeros(|slots|));
    }
    ghost var whole := Greedy(slots, amount);
    var result: Plan := [];
    var remaining := amount;
    var i := 0;
    while i < |slots|
      invariant 0 <= i <= |slots| && remaining >= 0
      invariant result + Greedy(slots[i..], remaining).0 == whole.0
      invariant Greedy(slots[i..], remaining).1 == whole.1
    {
      var use := Take(slots[i], remaining);
      LoopStep(slots, i, remaining, result, whole);
      result := result + [use];
      remaining := remaining - use * slots[i].face;
      i := i + 1;
    }
    assert slots[i..] == [];
    assert Greedy(slots[i..], remaining) == ([], remaining);
    assert result == whole.0 && remaining == whole.1;
    GreedyWithin(slots, amount);
    if remaining != 0 {
      return None;
    }
    return Some(result);
  }

  /** One turn of the loop in `ComputeDispense` keeps its invariant. */
  lemma LoopStep(slots: seq<Slot>, i: int, remaining: int, result: Plan, whole: (Plan, int))
    requires 0 <= i < |slots| && remaining >= 0
    requires result + Greedy(slots[i..], remaining).0 == whole.0
    requires Greedy(slots[i..], remaining).1 == whole.1
    ensures var use := Take(slots[i], remaining);
      var left := remaining - use * slots[i].face;
      left >= 0 && (result + [use]) + Greedy(slots[i + 1..], left).0 == whole.0 &&
      Greedy(slots[i + 1..], left).1 == whole.1
  {
    var use := Take(slots[i], remaining);
    var rest := Greedy(slots[i + 1..], remaining - use * slots[i].face);
    StepAt(slots, i, remaining);
    assert result + ([use] + rest.0) == (result + [use]) + rest.0;
  }

  lemma StepAt(slots: seq<Slot>, i: int, remaining: int)
    requires 0 <= i < |slots| && remaining >= 0
    ensures var use := Take(slots[i], remaining);
      Greedy(slots[i..], remaining) ==
        ([use] + Greedy(slots[i + 1..], remaining - use * slots[i].face).0,
         Greedy(slots[i + 1..], remaining - use * slots[i].face).1)
  {
    assert slots[i..][0] == slots[i];
    assert slots[i..][1..] == slots[i + 1..];
    GreedyStep(slots[i..], remaining);
  }

  /** Lexicographic order on plans of equal length. */
  predicate LexAtMost(p: Plan, q: Plan)
    requires |p| == |q|
  {
    |p| == 0 || p[0] < q[0] || (p[0] == q[0] && LexAtMost(p[1..], q[1..]))
  }

  /** The pass is lexicographically greatest in the order it visits the
      slots: no plan the inventory allows and that does not overshoot takes
      more notes of an earlier slot than the greedy plan, before the two
      plans first differ. It holds for any slot order. */
  lemma {:induction false} GreedyIsLexGreatest(slots: seq<Slot>, remaining: int, q: Plan)
    requires remaining >= 0
    requires Within(slots, q) && Value(slots, q) <= remaining
    ensures LexAtMost(q, Greedy(slots, remaining).0)
  {
    if |slots| > 0 {
      var g := Greedy(slots, remaining);
      var use := Take(slots[0], remaining);
      assert g.0[0] == use;
      ValueNonNegative(slots[1..], q[1..]);
      assert q[0] * slots[0].face <= remaining;
      TakeIsMaximal(slots[0], remaining, q[0]);
      if q[0] == use {
        assert Within(slots[1..], q[1..]) by {
          forall i | 0 <= i < |q[1..]| && q[1..][i] > 0
            ensures q[1..][i] <= slots[1..][i].count
          {
            assert q[1..][i] == q[i + 1] && slots[1..][i] == slots[i + 1];
          }
        }
        GreedyIsLexGreatest(slots[1..], remaining - use * slots[0].face, q[1..]);
        assert g.0[1..] == Greedy(slots[1..], remaining - use * slots[0].face).0;
      }
    }
  }

  /** What "largest denomination first" means for `compute`: on the
      descending inventory, no in-stock plan that does not overshoot the
      amount takes more notes of a larger denomination than the returned
      plan, before the two plans first differ. */
  lemma ComputeTakesLargestFirst(slots: seq<Slot>, amount: int, q: Plan)
    requires Descending(slots) && amount > 0
    requires Within(slots, q) && Value(slots, q) <= amount
    ensures Compute(slots, amount).Some? ==> LexAtMost(q, Compute(slots, amount).value)
  {
    GreedyIsLexGreatest(slots, amount, q);
  }

  lemma {:induction false} ValueNonNegative(slots: seq<Slot>, plan: Plan)
    requires |plan| == |slots|
    ensures Value(slots, plan) >= 0
  {
    if |slots| > 0 {
      ValueNonNegative(slots[1..], plan[1..]);
    }
  }

  /** No admissible count of a denomination exceeds what `Take` takes. */
  lemma TakeIsMaximal(slot: Slot, remaining: int, n: nat)
    requires remaining >= 0 && n * slot.face <= remaining
    requires n > 0 ==> n <= slot.count
    ensures n <= Take(slot, remaining)
  {
    var q := JavaText.JavaDiv(remaining, slot.face);
    if n > q {
      MulMono(q + 1, n, slot.face);
      assert false;
    }
  }

  /** The greedy pass is not complete: with one 50 and three 20s in stock it
      cannot make 60, which three 20s pay exactly. */
  lemma GreedyMissesSixty()
    ensures Compute([Slot(50, 1), Slot(20, 3)], 60).None?
    ensures Within([Slot(50, 1), Slot(20, 3)], [0, 3]) && Value([Slot(50, 1), Slot(20, 3)], [0, 3]) == 60
  {
    var slots := [Slot(50, 1), Slot(20, 3)];
    assert Take(slots[0], 60) == 1;
    assert slots[1..] == [Slot(20, 3)];
    assert Take(slots[1], 10) == 0;
  }
}

=== FILE: LruBasic.dfy ===
/** The int-keyed, int-valued LRU cache: the generic recency model with the
    miss reported as -1. */
module LruBasic {
  import opened Wrappers
  import LruCache

  type BasicCache = LruCache.Cache<int, int>

  /** `get`: the stored value on a hit, -1 on a miss (which leaves the cache
      unchanged); a hit makes the key the most recently used. */
  function Get(c: BasicCache, key: int): (r: (int, BasicCache))
    ensures key !in c.values ==> r.0 == -1 && r.1 == c
    ensures key in c.values ==> r.0 == c.values[key] && r.1.values == c.values && |r.1.order| >= 1 && r.1.order[0] == key
    ensures key in c.values ==> r.1.capacity == c.capacity
    ensures key in c.values && LruCache.Distinct(c.order) ==> forall i :: 0 <= i < |c.order| && c.order[i] == key ==>
              r.1.order == [key] + c.order[..i] + c.order[i + 1..]
  {
    var g := LruCache.Get(c, key);
    (if g.0.Some? then g.0.value else -1, g.1)
  }

  /** A stored -1 cannot be told apart from a miss by the return value,
      although the key is present and has become the most recently used. */
  lemma StoredMinusOneLooksLikeMiss(c: BasicCache, key: int)
    requires LruCache.Valid(c)
    ensures var c' := LruCache.Put(c, key, -1);
      c'.Ok? && key in c'.value.values &&
      Get(c'.value, key).0 == -1 && Get(c'.value, key).1.order[0] == key
  {
    LruCache.PutPreservesValid(c, key, -1);
  }

  /** The demonstration run with capacity 3: three puts fill the cache. */
  lemma DemoFill()
    ensures var c0 := LruCache.New<int, int>(3);
      var c1 := LruCache.Put(c0, 1, 10).value;
      var c2 := LruCache.Put(c1, 2, 20).value;
      LruCache.Put(c2, 3, 30).value == LruCache.Cache(3, [3, 2, 1], map[1 := 10, 2 := 20, 3 := 30])
  {
    var c0 := LruCache.New<int, int>(3);
    var c1 := LruCache.Put(c0, 1, 10).value;
    assert c1 == LruCache.Cache(3, [1], map[1 := 10]);
    var c2 := LruCache.Put(c1, 2, 20).value;
    assert c2 == LruCache.Cache(3, [2, 1], map[1 := 10, 2 := 20]);
  }

  /** Then `get(2)` answers its value and moves 2 to the front. */
  lemma DemoTouch()
    ensures var c3: LruCache.Cache<int, int> := LruCache.Cache(3, [3, 2, 1], map[1 := 10, 2 := 20, 3 := 30]);
      Get(c3, 2) == (20, LruCache.Cache(3, [2, 3, 1], c3.values))
  {
    var c3: LruCache.Cache<int, int> := LruCache.Cache(3, [3, 2, 1], map[1 := 10, 2 := 20, 3 := 30]);
    assert c3.order[1] == 2;
    assert Get(c3, 2).1.order == [2] + c3.order[..1] + c3.order[2..];
    assert [2] + c3.order[..1] + c3.order[2..] == [2, 3, 1];
  }

  /** Then `put(4, ..)` finds the cache full and evicts the tail key 1. */
  lemma DemoEvict()
    ensures var c: LruCache.Cache<int, int> := LruCache.Cache(3, [2, 3, 1], map[1 := 10, 2 := 20, 3 := 30]);
      LruCache.Put(c, 4, 40) == Ok(LruCache.Cache(3, [4, 2, 3], map[2 := 20, 3 := 30, 4 := 40]))
  {
    var c: LruCache.Cache<int, int> := LruCache.Cache(3, [2, 3, 1], map[1 := 10, 2 := 20, 3 := 30]);
    assert |c.values| == 3;
    assert c.order[..2] == [2, 3];
    assert [4] + c.order[..2] == [4, 2, 3];
    assert (c.values - {1})[4 := 40] == map[2 := 20, 3 := 30, 4 := 40];
  }

  /** Then `get(1)` misses and `get(3)` hits, moving 3 to the front. */
  lemma DemoMissThenHit()
    ensures var c: LruCache.Cache<int, int> := LruCache.Cache(3, [4, 2, 3], map[2 := 20, 3 := 30, 4 := 40]);
      Get(c, 1) == (-1, c) &&
      Get(c, 3) == (30, LruCache.Cache(3, [3, 4, 2], c.values))
  {
    var c: LruCache.Cache<int, int> := LruCache.Cache(3, [4, 2, 3], map[2 := 20, 3 := 30, 4 := 40]);
    assert c.order[2] == 3;
    assert Get(c, 3).1.order == [3] + c.order[..2] + c.order[3..];
    assert [3] + c.order[..2] + c.order[3..] == [3, 4, 2];
  }
}

=== FILE: LruCache.dfy ===
/** The least-recently-used cache of the two from-scratch versions, with the
    doubly linked recency list abstracted to the sequence of its keys.

    `order` lists the keys from the node just after the head sentinel (most
    recently used) to the node just before the tail sentinel (least recently
    used); `values` is the key-to-node map, each node reduced to its value. */
module LruCache {
  import opened Wrappers

  datatype Cache<K, V> = Cache(capacity: int, order: seq<K>, values: map<K, V>)

  /** Evicting from an empty list dereferences the head sentinel's missing
      predecessor: this is what a capacity-0 cache does on its first put. */
  datatype LruError = NullDereference

  predicate Distinct<K(==, !new)>(s: seq<K>) {
    forall i, j :: 0 <= i < j < |s| ==> s[i] != s[j]
  }

  /** The map/list invariant: the map's keys are exactly the list's keys, the
      list holds each key once, and there are at most `capacity` of them. */
  ghost predicate Valid<K(!new), V>(c: Cache<K, V>) {
    && c.capacity >= 1
    && Distinct(c.order)
    && (forall k :: k in c.values <==> k in c.order)
    && |c.order| <= c.capacity
  }

  /** `s` with every occurrence of `k` dropped; the others keep their order. */
  function Without<K(==, !new)>(s: seq<K>, k: K): (r: seq<K>)
    ensures forall x :: x in r <==> x in s && x != k
    ensures |r| <= |s|
  {
    if |s| == 0 then []
    else if s[0] == k then Without(s[1..], k)
    else [s[0]] + Without(s[1..], k)
  }

  /** In a list without duplicates, dropping `k` is unlinking its one node. */
  lemma {:induction false} WithoutIsSplice<K(!new)>(s: seq<K>, i: int)
    requires Distinct(s) && 0 <= i < |s|
    ensures Without(s, s[i]) == s[..i] + s[i + 1..]
  {
    if i == 0 {
      WithoutAbsent(s[1..], s[0]);
      assert s[1..] == s[..0] + s[1..];
    } else {
      WithoutIsSplice(s[1..], i - 1);
      assert s[1..][..i - 1] + s[1..][i..] == s[1..i] + s[i + 1..];
      assert [s[0]] + s[1..i] + s[i + 1..] == s[..i] + s[i + 1..];
    }
  }

  lemma {:induction false} WithoutAbsent<K(!new)>(s: seq<K>, k: K)
    requires k !in s
    ensures Without(s, k) == s
  {
    if |s| > 0 {
      assert s[1..] == s[1..];
      WithoutAbsent(s[1..], k);
      assert s == [s[0]] + s[1..];
    }
  }

  /** Unlinking one node of a list without duplicates leaves a list without
      duplicates that holds every other key. */
  lemma SpliceFacts<K(!new)>(s: seq<K>, i: int)
    requires Distinct(s) && 0 <= i < |s|
    ensures Distinct(s[..i] + s[i + 1..])
    ensures forall x :: x in s[..i] + s[i + 1..] <==> x in s && x != s[i]
  {
    var t := s[..i] + s[i + 1..];
    assert forall a :: 0 <= a < |t| ==> t[a] == s[if a < i then a else a + 1];
    forall x | x in s && x != s[i]
      ensures x in t
    {
      var j :| 0 <= j < |s| && s[j] == x;
      assert t[if j < i then j else j - 1] == x;
    }
  }

  lemma ConsDistinct<K(!new)>(k: K, s: seq<K>)
    requires Distinct(s) && k !in s
    ensures Distinct([k] + s)
  {
    var t := [k] + s;
    assert forall a :: 1 <= a < |t| ==> t[a] == s[a - 1];
  }

  /** Dropping the last node leaves a list without duplicates holding every
      other key. */
  lemma DropLastFacts<K(!new)>(s: seq<K>)
    requires Distinct(s) && |s| >= 1
    ensures Distinct(s[..|s| - 1])
    ensures forall x :: x in s[..|s| - 1] <==> x in s && x != s[|s| - 1]
  {
    SpliceFacts(s, |s| - 1);
    assert s[..|s| - 1] + s[|s|..] == s[..|s| - 1];
  }

  /** The constructor: an empty map and a list holding only the sentinels. */
  function New<K(==, !new), V>(capacity: int): (c: Cache<K, V>)
    ensures capacity >= 1 ==> Valid(c)
    ensures c.capacity == capacity && |c.values| == 0 && |c.order| == 0
  {
    Cache(capacity, [], map[])
  }

  /** `get`: a miss reports `None` and leaves the cache as it was; a hit
      reports the stored value and unlinks the key's node and relinks it
      just after the head, so the other keys keep their relative order. */
  function Get<K(==, !new), V>(c: Cache<K, V>, k: K): (r: (Option<V>, Cache<K, V>))
    ensures k !in c.values ==> r.0 == None && r.1 == c
    ensures k in c.values ==> r.0 == Some(c.values[k]) && r.1.values == c.values && r.1.capacity == c.capacity
    ensures k in c.values ==> |r.1.order| >= 1 && r.1.order[0] == k
    ensures k in c.values && Distinct(c.order) ==> forall i :: 0 <= i < |c.order| && c.order[i] == k ==>
              r.1.order == [k] + c.order[..i] + c.order[i + 1..]
  {
    if k !in c.values then (None, c)
    else
      var order' := [k] + Without(c.order, k);
      assert Distinct(c.order) ==> forall i :: 0 <= i < |c.order| && c.order[i] == k ==>
        order' == [k] + c.order[..i] + c.order[i + 1..] by {
        forall i | Distinct(c.order) && 0 <= i < |c.order| && c.order[i] == k {
          WithoutIsSplice(c.order, i);
        }
      }
      (Some(c.values[k]), c.(order := order'))
  }

  /** `put`: an existing key gets the new value and moves to the head, and
      nothing is evicted; a new key goes in at the head, after the tail key
      has been evicted if the map already holds `capacity` entries. */
  function Put<K(==, !new), V>(c: Cache<K, V>, k: K, v: V): (r: Result<Cache<K, V>, LruError>)
    ensures r.Err? <==> k !in c.values && |c.values| == c.capacity && |c.order| == 0
    ensures r.Ok? ==> r.value.capacity == c.capacity && |r.value.order| >= 1 && r.value.order[0] == k
    ensures r.Ok? ==> k in r.value.values && r.value.values[k] == v
    ensures r.Ok? ==> forall x :: x in r.value.values && x != k ==> x in c.values && r.value.values[x] == c.values[x]
    ensures r.Ok? && k in c.values ==> r.value.values.Keys == c.values.Keys
    ensures r.Ok? && k in c.values && Distinct(c.order) ==> forall i :: 0 <= i < |c.order| && c.order[i] == k ==>
              r.value.order == [k] + c.order[..i] + c.order[i + 1..]
    ensures r.Ok? && k !in c.values && |c.values| == c.capacity ==>
              r.value.values.Keys == c.values.Keys - {c.order[|c.order| - 1]} + {k} &&
              r.value.order == [k] + c.order[..|c.order| - 1]
    ensures r.Ok? && k !in c.values && |c.values| != c.capacity ==>
              r.value.values.Keys == c.values.Keys + {k} && r.value.order == [k] + c.order
  {
    if k in c.values then
      var moved := Get(c, k).1;
      Ok(moved.(values := c.values[k := v]))
    else if |c.values| == c.capacity then
      if |c.order| == 0 then Err(NullDereference)
      else
        var lru := c.order[|c.order| - 1];
        Ok(Cache(c.capacity, [k] + c.order[..|c.order| - 1], (c.values - {lru})[k := v]))
    else
      Ok(Cache(c.capacity, [k] + c.order, c.values[k := v]))
  }

  lemma {:induction false} DistinctCard<K(!new)>(s: seq<K>)
    requires Distinct(s)
    ensures |set x | x in s| == |s|
  {
    if |s| > 0 {
      var t := s[1..];
      assert Distinct(t);
      DistinctCard(t);
      assert (set x | x in s) == (set x | x in t) + {s[0]};
      assert s[0] !in (set x | x in t);
    }
  }

  /** The map holds as many entries as the list holds nodes, so a valid
      cache never holds more than `capacity` entries. */
  lemma ValidSize<K(!new), V>(c: Cache<K, V>)
    requires Valid(c)
    ensures |c.values| == |c.order| <= c.capacity
  {
    DistinctCard(c.order);
    assert c.values.Keys == set x | x in c.order;
  }

  lemma GetPreservesValid<K(!new), V>(c: Cache<K, V>, k: K)
    requires Valid(c)
    ensures Valid(Get(c, k).1)
  {
    if k in c.values {
      var i :| 0 <= i < |c.order| && c.order[i] == k;
      var rest := c.order[..i] + c.order[i + 1..];
      SpliceFacts(c.order, i);
      ConsDistinct(k, rest);
      WithoutIsSplice(c.order, i);
      assert Get(c, k).1 == c.(order := [k] + rest);
    }
  }

  /** Every put on a valid cache returns normally and keeps the map/list
      invariant, so the entry count stays within `capacity`. */
  lemma PutPreservesValid<K(!new), V>(c: Cache<K, V>, k: K, v: V)
    requires Valid(c)
    ensures Put(c, k, v).Ok? && Valid(Put(c, k, v).value)
  {
    ValidSize(c);
    var r := Put(c, k, v).value;
    if k in c.values {
      GetPreservesValid(c, k);
      assert r.order == Get(c, k).1.order;
    } else if |c.values| == c.capacity {
      DropLastFacts(c.order);
      ConsDistinct(k, c.order[..|c.order| - 1]);
    } else {
      ConsDistinct(k, c.order);
    }
  }

  /** A put into a full cache of a key it does not hold evicts exactly the
      least recently used key, the last one in the list, and nothing else. */
  lemma PutEvictsLeastRecent<K(!new), V>(c: Cache<K, V>, k: K, v: V)
    requires Valid(c) && k !in c.values && |c.values| == c.capacity
    ensures var r := Put(c, k, v).value;
      var lru := c.order[|c.order| - 1];
      lru !in r.values &&
      (forall x :: x in c.values && x != lru ==> x in r.values && r.values[x] == c.values[x]) &&
      |r.values| == |c.values|
  {
    ValidSize(c);
    PutPreservesValid(c, k, v);
    var r := Put(c, k, v).value;
    ValidSize(r);
    var lru := c.order[|c.order| - 1];
    assert lru != k;
  }

  /** `put(k, v)` followed by `get(k)` returns `v`. */
  lemma PutThenGet<K(!new), V>(c: Cache<K, V>, k: K, v: V)
    requires Valid(c)
    ensures Put(c, k, v).Ok? && Get(Put(c, k, v).value, k).0 == Some(v)
  {
    PutPreservesValid(c, k, v);
  }

  // ---------------------------------------------------------------------
  // An independent reference: the unbounded recency list.

  /** One call on the cache: `get(key)` or `put(key, value)`. */
  datatype Op<K, V> = Read(key: K) | Write(key: K, value: V)

  /** The first `n` keys of `d`, or all of them if there are fewer. */
  function Top<K(==, !new)>(d: seq<K>, n: nat): (t: seq<K>)
    ensures |t| == if n < |d| then n else |d|
  {
    if n < |d| then d[..n] else d
  }

  /** The reference history: every key ever touched (by a hit or a put),
      most recent first; a `get` touches a key only when the cache holds it,
      which is when the key is among the `capacity` most recent ones. */
  function RefStep<K(==, !new), V>(d: seq<K>, capacity: nat, op: Op<K, V>): seq<K> {
    match op
    case Read(k) => if k in Top(d, capacity) then [k] + Without(d, k) else d
    case Write(k, _) => [k] + Without(d, k)
  }

  function RefRun<K(==, !new), V>(d: seq<K>, capacity: nat, ops: seq<Op<K, V>>): seq<K>
    decreases |ops|
  {
    if |ops| == 0 then d else RefRun(RefStep(d, capacity, ops[0]), capacity, ops[1..])
  }

  /** The latest value written for each key, evicted or not. */
  function RefValues<K(==, !new), V>(m: map<K, V>, ops: seq<Op<K, V>>): map<K, V>
    decreases |ops|
  {
    if |ops| == 0 then m
    else match ops[0]
      case Read(_) => RefValues(m, ops[1..])
      case Write(k, v) => RefValues(m[k := v], ops[1..])
  }

  function Step<K(==, !new), V>(c: Cache<K, V>, op: Op<K, V>): Cache<K, V> {
    match op
    case Read(k) => Get(c, k).1
    case Write(k, v) => var r := Put(c, k, v); if r.Ok? then r.value else c
  }

  function Run<K(==, !new), V>(c: Cache<K, V>, ops: seq<Op<K, V>>): Cache<K, V>
    decreases |ops|
  {
    if |ops| == 0 then c else Run(Step(c, ops[0]), ops[1..])
  }

  lemma {:induction false} WithoutKeepsPrefix<K(!new)>(d: seq<K>, k: K, n: nat)
    requires n <= |d| && k !in d[..n]
    ensures |Without(d, k)| >= n && Without(d, k)[..n] == d[..n]
  {
    if n > 0 {
      assert d[0] != k by { assert d[..n][0] == d[0]; }
      assert d[1..][..n - 1] == d[1..n];
      assert d[1..][..n - 1] == d[..n][1..];
      WithoutKeepsPrefix(d[1..], k, n - 1);
      assert Without(d, k) == [d[0]] + Without(d[1..], k);
      assert d[..n] == [d[0]] + d[1..n];
    }
  }

  lemma DistinctWithout<K(!new)>(d: seq<K>, k: K)
    requires Distinct(d)
    ensures Distinct([k] + Without(d, k))
  {
    if k in d {
      var i :| 0 <= i < |d| && d[i] == k;
      WithoutIsSplice(d, i);
      SpliceFacts(d, i);
      ConsDistinct(k, Without(d, k));
    } else {
      WithoutAbsent(d, k);
      ConsDistinct(k, d);
    }
  }

  /** The refinement relation between a cache and the reference history. */
  ghost predicate Abstracts<K(!new), V>(c: Cache<K, V>, d: seq<K>, m: map<K, V>) {
    && Valid(c)
    && Distinct(d)
    && c.order == Top(d, c.capacity)
    && forall k :: k in c.values ==> k in m && c.values[k] == m[k]
  }

  /** Touching a key the cache holds moves it to the front of both the
      cache's list and the reference history. */
  lemma TouchHeldKey<K(!new), V>(c: Cache<K, V>, d: seq<K>, m: map<K, V>, i: int)
    requires Abstracts(c, d, m) && 0 <= i < |c.order|
    ensures var k := c.order[i];
      |[k] + Without(d, k)| == |d| &&
      Top([k] + Without(d, k), c.capacity) == [k] + c.order[..i] + c.order[i + 1..]
  {
    var k := c.order[i];
    var n := |c.order|;
    assert d[i] == k;
    WithoutIsSplice(d, i);
    var d' := [k] + Without(d, k);
    assert d' == [k] + d[..i] + d[i + 1..];
    assert d'[..n] == [k] + d[..i] + d[i + 1..n];
    assert c.order[..i] == d[..i] && c.order[i + 1..] == d[i + 1..n];
  }

  lemma ReadAbstracts<K(!new), V>(c: Cache<K, V>, d: seq<K>, m: map<K, V>, k: K)
    requires Abstracts(c, d, m)
    ensures Abstracts(Get(c, k).1, RefStep<K, V>(d, c.capacity, Read(k)), m)
  {
    GetPreservesValid(c, k);
    DistinctWithout(d, k);
    if k in c.values {
      var i :| 0 <= i < |c.order| && c.order[i] == k;
      TouchHeldKey(c, d, m, i);
    }
  }

  lemma WriteAbstracts<K(!new), V>(c: Cache<K, V>, d: seq<K>, m: map<K, V>, k: K, v: V)
    requires Abstracts(c, d, m)
    ensures Abstracts(Put(c, k, v).value, RefStep(d, c.capacity, Write(k, v)), m[k := v])
  {
    PutPreservesValid(c, k, v);
    DistinctWithout(d, k);
    var r := Put(c, k, v).value;
    var d' := RefStep(d, c.capacity, Write(k, v));
    assert d' == [k] + Without(d, k);
    if k in c.values {
      var i :| 0 <= i < |c.order| && c.order[i] == k;
      TouchHeldKey(c, d, m, i);
      assert r.order == [k] + c.order[..i] + c.order[i + 1..];
    } else {
      WriteNewKey(c, d, m, k, v);
    }
    assert r.order == Top(d', r.capacity);
    assert forall x :: x in r.values ==> x in m[k := v] && r.values[x] == m[k := v][x];
  }

  lemma WriteNewKey<K(!new), V>(c: Cache<K, V>, d: seq<K>, m: map<K, V>, k: K, v: V)
    requires Abstracts(c, d, m) && k !in c.values
    ensures Top([k] + Without(d, k), c.capacity) == Put(c, k, v).value.order
  {
    ValidSize(c);
    var n := |c.order|;
    assert k !in d[..n];
    WithoutKeepsPrefix(d, k, n);
    if |c.values| == c.capacity {
      WriteEvicting(c, d, k, v);
    } else {
      assert n == |d|;
      WithoutAbsent(d, k);
    }
  }

  lemma WriteEvicting<K(!new), V>(c: Cache<K, V>, d: seq<K>, k: K, v: V)
    requires |c.order| == c.capacity == |c.values| >= 1 && k !in c.values
    requires c.order == Top(d, c.capacity)
    requires |Without(d, k)| >= |c.order| && Without(d, k)[..|c.order|] == d[..|c.order|]
    ensures Top([k] + Without(d, k), c.capacity) == Put(c, k, v).value.order
  {
    var n := |c.order|;
    var d' := [k] + Without(d, k);
    assert Put(c, k, v).value.order == [k] + c.order[..n - 1];
    assert d'[..n] == [k] + Without(d, k)[..n - 1];
    assert Without(d, k)[..n - 1] == d[..n][..n - 1];
  }

  lemma StepAbstracts<K(!new), V>(c: Cache<K, V>, d: seq<K>, m: map<K, V>, op: Op<K, V>)
    requires Abstracts(c, d, m)
    ensures Abstracts(Step(c, op), RefStep(d, c.capacity, op), RefValues(m, [op]))
    ensures Step(c, op).capacity == c.capacity
  {
    assert [op][1..] == [];
    match op {
      case Read(k) => ReadAbstracts(c, d, m, k);
      case Write(k, v) => WriteAbstracts(c, d, m, k, v);
    }
  }

  /** The LRU rule, stated over any sequence of calls: a cache run from a
      state that agrees with the reference history holds exactly the
      `capacity` most recently touched keys, in recency order, each with the
      value last written for it. */
  lemma {:induction false} RunAbstracts<K(!new), V>(c: Cache<K, V>, d: seq<K>, m: map<K, V>, ops: seq<Op<K, V>>)
    requires Abstracts(c, d, m)
    ensures Abstracts(Run(c, ops), RefRun(d, c.capacity, ops), RefValues(m, ops))
    ensures Run(c, ops).capacity == c.capacity
    decreases |ops|
  {
    if |ops| > 0 {
      StepAbstracts(c, d, m, ops[0]);
      var c' := Step(c, ops[0]);
      assert RefValues(m, ops) == RefValues(RefValues(m, [ops[0]]), ops[1..]) by {
        assert [ops[0]][1..] == [];
      }
      RunAbstracts(c', RefStep(d, c.capacity, ops[0]), RefValues(m, [ops[0]]), ops[1..]);
    }
  }

  /** From a fresh cache of capacity at least 1, after any calls, the list
      is the first `capacity` keys of the recency history, the map holds
      exactly those keys, and each maps to the value last put for it. */
  lemma LruFromNew<K(!new), V>(capacity: int, ops: seq<Op<K, V>>)
    requires capacity >= 1
    ensures var c := Run(New<K, V>(capacity), ops);
      var d := RefRun([], capacity, ops);
      var m := RefValues(map[], ops);
      c.order == Top(d, capacity) &&
      |c.values| <= capacity &&
      (forall k :: k in c.values <==> k in c.order) &&
      (forall k :: k in c.values ==> k in m && c.values[k] == m[k])
  {
    RunAbstracts(New<K, V>(capacity), [], map[], ops);
    ValidSize(Run(New<K, V>(capacity), ops));
  }
}

=== FILE: LruGeneric.dfy ===
/** The generic LRU cache. Java's `null` value is modelled by storing
    `Option<V>`: `None` is a stored `null`, and a miss also answers `None`. */
module LruGeneric {
  import opened Wrappers
  import LruCache

  type GenericCache<K, V> = LruCache.Cache<K, Option<V>>

  /** `get`: the stored (possibly null) value on a hit, null on a miss (which
      leaves the cache unchanged); a hit makes the key the most recently used. */
  function Get<K(==, !new), V>(c: GenericCache<K, V>, key: K): (r: (Option<V>, GenericCache<K, V>))
    ensures key !in c.values ==> r.0 == None && r.1 == c
    ensures key in c.values ==> r.0 == c.values[key] && r.1.values == c.values && |r.1.order| >= 1 && r.1.order[0] == key
    ensures key in c.values ==> r.1.capacity == c.capacity
    ensures key in c.values && LruCache.Distinct(c.order) ==> forall i :: 0 <= i < |c.order| && c.order[i] == key ==>
              r.1.order == [key] + c.order[..i] + c.order[i + 1..]
  {
    var g := LruCache.Get(c, key);
    (if g.0.Some? then g.0.value else None, g.1)
  }

  /** A stored `null` cannot be told apart from a miss by the return value,
      although the key is present and has become the most recently used. */
  lemma StoredNullLooksLikeMiss<K(!new), V>(c: GenericCache<K, V>, key: K)
    requires LruCache.Valid(c)
    ensures var c' := LruCache.Put(c, key, None);
      c'.Ok? && key in c'.value.values &&
      Get(c'.value, key).0 == None && Get(c'.value, key).1.order[0] == key
  {
    LruCache.PutPreservesValid(c, key, None);
  }

  /** The demonstration run with capacity 3: three puts fill the cache. */
  lemma DemoFill()
    ensures var c0 := LruCache.New<int, Option<string>>(3);
      var c1 := LruCache.Put(c0, 1, Some("One")).value;
      var c2 := LruCache.Put(c1, 2, Some("Two")).value;
      LruCache.Put(c2, 3, Some("Three")).value == LruCache.Cache(3, [3, 2, 1], map[1 := Some("One"), 2 := Some("Two"), 3 := Some("Three")])
  {
    var c0 := LruCache.New<int, Option<string>>(3);
    var c1 := LruCache.Put(c0, 1, Some("One")).value;
    assert c1 == LruCache.Cache(3, [1], map[1 := Some("One")]);
    var c2 := LruCache.Put(c1, 2, Some("Two")).value;
    assert c2 == LruCache.Cache(3, [2, 1], map[1 := Some("One"), 2 := Some("Two")]);
  }

  /** Then `get(2)` answers its value and moves 2 to the front. */
  lemma DemoTouch()
    ensures var c3: LruCache.Cache<int, Option<string>> := LruCache.Cache(3, [3, 2, 1], map[1 := Some("One"), 2 := Some("Two"), 3 := Some("Three")]);
      Get(c3, 2) == (Some("Two"), LruCache.Cache(3, [2, 3, 1], c3.values))
  {
    var c3: LruCache.Cache<int, Option<string>> := LruCache.Cache(3, [3, 2, 1], map[1 := Some("One"), 2 := Some("Two"), 3 := Some("Three")]);
    assert c3.order[1] == 2;
    assert Get(c3, 2).1.order == [2] + c3.order[..1] + c3.order[2..];
    assert [2] + c3.order[..1] + c3.order[2..] == [2, 3, 1];
  }

  /** Then `put(4, ..)` finds the cache full and evicts the tail key 1. */
  lemma DemoEvict()
    ensures var c: LruCache.Cache<int, Option<string>> := LruCache.Cache(3, [2, 3, 1], map[1 := Some("One"), 2 := Some("Two"), 3 := Some("Three")]);
      LruCache.Put(c, 4, Some("Four")) == Ok(LruCache.Cache(3, [4, 2, 3], map[2 := Some("Two"), 3 := Some("Three"), 4 := Some("Four")]))
  {
    var c: LruCache.Cache<int, Option<string>> := LruCache.Cache(3, [2, 3, 1], map[1 := Some("One"), 2 := Some("Two"), 3 := Some("Three")]);
    assert |c.values| == 3;
    assert c.order[..2] == [2, 3];
    assert [4] + c.order[..2] == [4, 2, 3];
    assert (c.values - {1})[4 := Some("Four")] == map[2 := Some("Two"), 3 := Some("Three"), 4 := Some("Four")];
  }

  /** Then `get(1)` misses and `get(3)` hits, moving 3 to the front. */
  lemma DemoMissThenHit()
    ensures var c: LruCache.Cache<int, Option<string>> := LruCache.Cache(3, [4, 2, 3], map[2 := Some("Two"), 3 := Some("Three"), 4 := Some("Four")]);
      Get(c, 1) == (None, c) &&
      Get(c, 3) == (Some("Three"), LruCache.Cache(3, [3, 4, 2], c.values))
  {
    var c: LruCache.Cache<int, Option<string>> := LruCache.Cache(3, [4, 2, 3], map[2 := Some("Two"), 3 := Some("Three"), 4 := Some("Four")]);
    assert c.order[2] == 3;
    assert Get(c, 3).1.order == [3] + c.order[..2] + c.order[3..];
    assert [3] + c.order[..2] + c.order[3..] == [3, 4, 2];
  }
}

=== FILE: NearestSpot.dfy ===
/** The "nearest" allocation strategy: among the candidate spots, the one
    whose id is least in `String.compareTo` order, the earliest such
    candidate when several compare equal. */
module NearestSpot {
  import opened Wrappers
  import opened JavaText
  import opened ParkingSpot

  /** `stream().min(comparing(Spot::getId))` as the left fold it is: the
      running minimum is kept unless the next candidate is strictly smaller. */
  function MinIndex(c: seq<Spot>): (m: nat)
    requires |c| > 0
    ensures m < |c|
    ensures forall j :: 0 <= j < |c| ==> CompareTo(c[m].id, c[j].id) <= 0
    ensures forall j :: 0 <= j < m ==> CompareTo(c[j].id, c[m].id) > 0
  {
    if |c| == 1 then
      CompareToZero(c[0].id, c[0].id);
      0
    else
      var front := c[..|c| - 1];
      var m := MinIndex(front);
      assert c[m] == front[m];
      assert forall j :: 0 <= j < |c| - 1 ==> c[j] == front[j];
      if CompareTo(c[m].id, c[|c| - 1].id) <= 0 then m
      else
        MinIndexLast(c, m);
        |c| - 1
  }

  /** The step of the fold that moves the running minimum to the last candidate. */
  lemma MinIndexLast(c: seq<Spot>, m: nat)
    requires m < |c| - 1
    requires forall j :: 0 <= j < |c| - 1 ==> CompareTo(c[m].id, c[j].id) <= 0
    requires CompareTo(c[m].id, c[|c| - 1].id) > 0
    ensures forall j :: 0 <= j < |c| ==> CompareTo(c[|c| - 1].id, c[j].id) <= 0
    ensures forall j :: 0 <= j < |c| - 1 ==> CompareTo(c[j].id, c[|c| - 1].id) > 0
  {
    var last := c[|c| - 1].id;
    CompareToFlip(c[m].id, last);
    CompareToZero(last, last);
    forall j | 0 <= j < |c|
      ensures CompareTo(last, c[j].id) <= 0
    {
      if j < |c| - 1 {
        CompareToTransitive(last, c[m].id, c[j].id);
      }
    }
    forall j | 0 <= j < |c| - 1
      ensures CompareTo(c[j].id, last) > 0
    {
      assert CompareTo(c[j].id, last) > 0 by {
        if CompareTo(c[j].id, last) <= 0 {
          CompareToTransitive(c[m].id, c[j].id, last);
        }
      }
    }
  }

  /** `selectSpot`: no spot for an empty candidate list, otherwise the
      position of the first candidate with the least id. The entry gate is
      accepted and not consulted. */
  function SelectSpot(candidates: seq<Spot>, entryGateId: string): (r: Option<nat>)
    ensures r.None? <==> |candidates| == 0
    ensures r.Some? ==> r.value < |candidates|
    ensures r.Some? ==> forall j :: 0 <= j < |candidates| ==> CompareTo(candidates[r.value].id, candidates[j].id) <= 0
    ensures r.Some? ==> forall j :: 0 <= j < r.value ==> CompareTo(candidates[j].id, candidates[r.value].id) > 0
  {
    if |candidates| == 0 then None else Some(MinIndex(candidates))
  }

  /** The choice is the same from every gate. */
  lemma SelectIgnoresGate(candidates: seq<Spot>, gate1: string, gate2: string)
    ensures SelectSpot(candidates, gate1) == SelectSpot(candidates, gate2)
  {
  }

  /** The least-id candidate is unique: any candidate that no other candidate
      beats, and that beats every earlier one, is the one chosen. */
  lemma {:induction false} SelectSpotUnique(candidates: seq<Spot>, gate: string, k: nat)
    requires k < |candidates|
    requires forall j :: 0 <= j < |candidates| ==> CompareTo(candidates[k].id, candidates[j].id) <= 0
    requires forall j :: 0 <= j < k ==> CompareTo(candidates[j].id, candidates[k].id) > 0
    ensures SelectSpot(candidates, gate) == Some(k)
  {
    var m := SelectSpot(candidates, gate).value;
    var a, b := candidates[m].id, candidates[k].id;
    CompareToFlip(a, b);
  }

  /** Ids compare as strings, not as locations: spot 10 of a row is "nearer" than spot 3. */
  lemma TenBeforeThree()
    ensures CompareTo(GenerateId(1, 1, 10), GenerateId(1, 1, 3)) < 0
  {
    assert IntToString(1) == "1";
    assert IntToString(3) == "3";
    assert NatToString(10) == NatToString(1) + [DigitChar(0)];
    assert IntToString(10) == "10";
    assert GenerateId(1, 1, 10) == "F1-R1-S10";
    assert GenerateId(1, 1, 3) == "F1-R1-S3";
  }
}

=== FILE: ParkingLot.dfy ===
/** The parking lot: its spots, the active tickets by licence plate, and the
    history of closed tickets, with allocation on entry and billing on exit.
    A ticket names its spot by position in `spots`, which stands for the
    object reference the ticket holds. The clock is a parameter (`now`), and
    so is the whole ticket id: `TICKET-` followed by the id generator's value. */
module ParkingLot {
  import opened Wrappers
  import opened JavaText
  import opened ParkingSpot
  import opened ParkingTicket
  import opened NearestSpot
  import opened PerHourPricing

  datatype Lot = Lot(spots: seq<Spot>, tickets: map<string, Ticket>, history: seq<Ticket>)

  /** `TicketNotFoundException`, the "already closed" `IllegalStateException`,
      and a failure of `occupy` or `free` passed through. */
  datatype LotError = TicketNotFound(plate: string) | TicketClosed(plate: string) | SpotFault(cause: SpotError)

  /** Position in SMALL < MEDIUM < LARGE. */
  function Rank(s: SpotSize): nat {
    match s
    case Small => 0
    case Medium => 1
    case Large => 2
  }

  /** `mapVehicleToSpotSize`. */
  function MinimumSize(vt: VehicleType): (s: SpotSize)
    ensures s.Small? <==> vt.Motorcycle?
    ensures s.Medium? <==> vt.Car?
    ensures s.Large? <==> vt.Bus? || vt.Truck?
  {
    match vt
    case Motorcycle => Small
    case Car => Medium
    case Bus => Large
    case Truck => Large
  }

  /** `isSizeFits`: a spot fits when it is at least the minimum size. */
  function SizeFits(spotSize: SpotSize, minSize: SpotSize): (b: bool)
    ensures b <==> Rank(spotSize) >= Rank(minSize)
  {
    if minSize == Small then true
    else if minSize == Medium then spotSize == Medium || spotSize == Large
    else if minSize == Large then spotSize == Large
    else false
  }

  /** `nextLargerSize`: one step up, LARGE staying LARGE. */
  function NextLargerSize(s: SpotSize): (n: SpotSize)
    ensures Rank(n) == if Rank(s) < 2 then Rank(s) + 1 else 2
  {
    if s == Small then Medium
    else if s == Medium then Large
    else s
  }

  /** The two filters of `findAvailableSpots` that do anything. */
  predicate Fits(s: Spot, minSize: SpotSize) {
    IsAvailable(s) && SizeFits(s.size, minSize)
  }

  /** The positions from `i` on whose spots fit, in list order. */
  function AvailableFrom(spots: seq<Spot>, minSize: SpotSize, i: nat): (r: seq<nat>)
    requires i <= |spots|
    decreases |spots| - i
    ensures forall k :: 0 <= k < |r| ==> i <= r[k] < |spots| && Fits(spots[r[k]], minSize)
    ensures forall k, l :: 0 <= k < l < |r| ==> r[k] < r[l]
    ensures forall j :: i <= j < |spots| && Fits(spots[j], minSize) ==> j in r
  {
    if i == |spots| then []
    else
      var rest := AvailableFrom(spots, minSize, i + 1);
      if Fits(spots[i], minSize) then [i] + rest else rest
  }

  /** `findAvailableSpots`: the positions of the AVAILABLE spots of at least
      `minSize`, in list order. The plug filter keeps every spot, so the
      request for a plug changes nothing. */
  function FindAvailableSpots(spots: seq<Spot>, minSize: SpotSize, wantsPowerPlug: bool): (r: seq<nat>)
    ensures forall j: nat :: j in r <==> j < |spots| && Fits(spots[j], minSize)
    ensures forall k, l :: 0 <= k < l < |r| ==> r[k] < r[l]
  {
    AvailableFrom(spots, minSize, 0)
  }

  lemma FindIgnoresPlug(spots: seq<Spot>, minSize: SpotSize)
    ensures FindAvailableSpots(spots, minSize, true) == FindAvailableSpots(spots, minSize, false)
  {
  }

  /** The fallback query asks for larger spots than the first one, so it finds
      a subset of what the first found, and nothing when the first found nothing. */
  lemma FallbackNeverHelps(spots: seq<Spot>, minSize: SpotSize, wantsPowerPlug: bool)
    ensures forall j: nat :: j in FindAvailableSpots(spots, NextLargerSize(minSize), wantsPowerPlug)
                             ==> j in FindAvailableSpots(spots, minSize, wantsPowerPlug)
    ensures |FindAvailableSpots(spots, minSize, wantsPowerPlug)| == 0
            ==> |FindAvailableSpots(spots, NextLargerSize(minSize), wantsPowerPlug)| == 0
  {
    var bigger := FindAvailableSpots(spots, NextLargerSize(minSize), wantsPowerPlug);
    if |bigger| > 0 {
      assert bigger[0] in bigger;
    }
  }

  /** Lines 56-64 of `allocateSpot`: the fitting spots, or failing that the
      spots fitting the next larger size. */
  function Candidates(spots: seq<Spot>, vt: VehicleType, wantsPowerPlug: bool): (r: seq<nat>)
    ensures r == FindAvailableSpots(spots, MinimumSize(vt), wantsPowerPlug)
  {
    var first := FindAvailableSpots(spots, MinimumSize(vt), wantsPowerPlug);
    if |first| == 0 then
      FallbackNeverHelps(spots, MinimumSize(vt), wantsPowerPlug);
      FindAvailableSpots(spots, NextLargerSize(MinimumSize(vt)), wantsPowerPlug)
    else first
  }

  /** The spots at the given positions, as the strategy sees them. */
  function SpotsAt(spots: seq<Spot>, idx: seq<nat>): (r: seq<Spot>)
    requires forall k :: 0 <= k < |idx| ==> idx[k] < |spots|
    ensures |r| == |idx| && forall k :: 0 <= k < |idx| ==> r[k] == spots[idx[k]]
  {
    seq(|idx|, k requires 0 <= k < |idx| => spots[idx[k]])
  }

  /** Whether some spot can take a vehicle of this type. */
  predicate HasRoom(spots: seq<Spot>, vt: VehicleType) {
    exists j :: 0 <= j < |spots| && Fits(spots[j], MinimumSize(vt))
  }

  /** `allocateSpot`: with no fitting spot nothing happens and no ticket is
      issued; otherwise the strategy's choice is occupied and a new ticket,
      stamped `now`, is filed under the plate, replacing any ticket already
      filed there. */
  function AllocateSpot(lot: Lot, plate: string, vt: VehicleType, wantsPowerPlug: bool,
                        entryGateId: string, now: int, ticketId: string): (r: (Result<Option<Ticket>, LotError>, Lot))
    ensures r.0.Ok?
    ensures SpotRefsValid(lot) ==> SpotRefsValid(r.1)
    ensures r.0.value.None? <==> !HasRoom(lot.spots, vt)
    ensures r.0.value.None? ==> r.1 == lot
    ensures r.0.value.Some? ==> r.0.value.value.spot < |lot.spots|
    ensures r.0.value.Some? ==> Fits(lot.spots[r.0.value.value.spot], MinimumSize(vt))
    ensures r.0.value.Some? ==>
              r.0.value.value == NewTicket(ticketId, vt, plate, now, r.0.value.value.spot, entryGateId, wantsPowerPlug)
    ensures r.0.value.Some? ==>
              var i := r.0.value.value.spot;
              r.1 == Lot(lot.spots[i := lot.spots[i].(status := Occupied)],
                         lot.tickets[plate := r.0.value.value], lot.history)
  {
    var cands := Candidates(lot.spots, vt, wantsPowerPlug);
    if |cands| == 0 then
      (Ok(None), lot)
    else
      match SelectSpot(SpotsAt(lot.spots, cands), entryGateId)
      case None => (Ok(None), lot)
      case Some(k) =>
        var i := cands[k];
        assert i in cands;
        match Occupy(lot.spots[i])
        case Err(e) => (Err(SpotFault(e)), lot)
        case Ok(taken) =>
          var t := NewTicket(ticketId, vt, plate, now, i, entryGateId, wantsPowerPlug);
          (Ok(Some(t)), Lot(lot.spots[i := taken], lot.tickets[plate := t], lot.history))
  }

  /** The allocated spot is the fitting spot with the least id. */
  lemma AllocateNearest(lot: Lot, plate: string, vt: VehicleType, wantsPowerPlug: bool,
                        entryGateId: string, now: int, ticketId: string, j: nat)
    requires AllocateSpot(lot, plate, vt, wantsPowerPlug, entryGateId, now, ticketId).0.value.Some?
    requires j < |lot.spots| && Fits(lot.spots[j], MinimumSize(vt))
    ensures var i := AllocateSpot(lot, plate, vt, wantsPowerPlug, entryGateId, now, ticketId).0.value.value.spot;
            CompareTo(lot.spots[i].id, lot.spots[j].id) <= 0
  {
    var cands := Candidates(lot.spots, vt, wantsPowerPlug);
    var c := SpotsAt(lot.spots, cands);
    var k := SelectSpot(c, entryGateId).value;
    assert j in cands;
    var p :| 0 <= p < |cands| && cands[p] == j;
    assert c[p] == lot.spots[j];
  }

  /** `processExit`. An unknown plate or a closed ticket throws before any
      change. Otherwise the ticket is closed at `now` through `exitGateId`,
      moved from the active map to the history, billed, and its spot freed;
      if freeing throws, the ticket has already moved, and that state is
      returned with the error. */
  function ProcessExit(lot: Lot, plate: string, exitGateId: string, now: int): (r: (Result<int, LotError>, Lot))
    requires SpotRefsValid(lot)
    ensures SpotRefsValid(r.1)
    ensures plate !in lot.tickets ==> r == (Err(TicketNotFound(plate)), lot)
    ensures plate in lot.tickets && !IsOpen(lot.tickets[plate]) ==> r == (Err(TicketClosed(plate)), lot)
    ensures plate in lot.tickets && IsOpen(lot.tickets[plate]) ==>
              var t := lot.tickets[plate];
              r.1.tickets == lot.tickets - {plate} &&
              r.1.history == lot.history + [t.(exitTime := Some(now), exitGateId := Some(exitGateId))]
    ensures plate in lot.tickets && IsOpen(lot.tickets[plate]) ==>
              var s := lot.spots[lot.tickets[plate].spot];
              (r.0.Ok? <==> !s.status.Available?)
    ensures plate in lot.tickets && IsOpen(lot.tickets[plate]) && r.0.Ok? ==>
              var t := lot.tickets[plate];
              var s := lot.spots[t.spot];
              r.0.value == BasePrice(s.size) + HourlyTotal(s) * BillableHours(Seconds(t.entryTime, now))
    ensures plate in lot.tickets && IsOpen(lot.tickets[plate]) ==>
              var i := lot.tickets[plate].spot;
              r.1.spots == if lot.spots[i].status.Occupied? then lot.spots[i := lot.spots[i].(status := Available)]
                           else lot.spots
  {
    if plate !in lot.tickets then (Err(TicketNotFound(plate)), lot)
    else
      var t := lot.tickets[plate];
      if t.exitTime.Some? then (Err(TicketClosed(plate)), lot)
      else
        match MarkExited(t, now, exitGateId)
        case Err(_) => (Err(TicketClosed(plate)), lot)
        case Ok(closed) =>
          var moved := Lot(lot.spots, lot.tickets - {plate}, lot.history + [closed]);
          var spot := lot.spots[t.spot];
          var bill := CalculatePrice(closed, spot, now, now);
          PriceOfClosedTicket(closed, spot, now, now);
          match Free(spot)
          case Err(e) => (Err(SpotFault(e)), moved)
          case Ok(freed) => (Ok(bill), moved.(spots := lot.spots[t.spot := freed]))
  }

  /** Every ticket points into the spot list; with object references this holds by construction. */
  predicate SpotRefsValid(lot: Lot) {
    forall p :: p in lot.tickets ==> lot.tickets[p].spot < |lot.spots|
  }

  /** What entry and exit keep true: each active ticket is filed under its
      own plate, is open, and holds an OCCUPIED spot that no other active
      ticket holds. */
  predicate Consistent(lot: Lot) {
    SpotRefsValid(lot) &&
    (forall p :: p in lot.tickets ==>
       lot.tickets[p].licensePlate == p && IsOpen(lot.tickets[p]) &&
       lot.spots[lot.tickets[p].spot].status.Occupied?) &&
    (forall p, q :: p in lot.tickets && q in lot.tickets && p != q ==>
       lot.tickets[p].spot != lot.tickets[q].spot)
  }

  lemma AllocatePreservesConsistent(lot: Lot, plate: string, vt: VehicleType, wantsPowerPlug: bool,
                                    entryGateId: string, now: int, ticketId: string)
    requires Consistent(lot)
    ensures Consistent(AllocateSpot(lot, plate, vt, wantsPowerPlug, entryGateId, now, ticketId).1)
  {
    var r := AllocateSpot(lot, plate, vt, wantsPowerPlug, entryGateId, now, ticketId);
    if r.0.value.Some? {
      FilingKeepsConsistent(lot, r.1, plate, r.0.value.value);
    }
  }

  /** Occupying an AVAILABLE spot and filing an open ticket for it under its
      plate keeps the lot consistent, whether or not the plate held a ticket. */
  lemma FilingKeepsConsistent(lot: Lot, lot1: Lot, plate: string, t: Ticket)
    requires Consistent(lot)
    requires t.spot < |lot.spots| && lot.spots[t.spot].status.Available?
    requires t.licensePlate == plate && IsOpen(t)
    requires lot1 == Lot(lot.spots[t.spot := lot.spots[t.spot].(status := Occupied)], lot.tickets[plate := t], lot.history)
    ensures Consistent(lot1)
  {
    var i := t.spot;
    assert forall p :: p in lot.tickets ==> lot.tickets[p].spot != i;
    forall p | p in lot1.tickets
      ensures lot1.tickets[p].spot < |lot1.spots| && lot1.spots[lot1.tickets[p].spot].status.Occupied?
    {
      if p != plate {
        assert lot1.tickets[p] == lot.tickets[p];
      }
    }
  }

  lemma ExitPreservesConsistent(lot: Lot, plate: string, exitGateId: string, now: int)
    requires Consistent(lot)
    ensures Consistent(ProcessExit(lot, plate, exitGateId, now).1)
  {
    if plate in lot.tickets {
      var i := lot.tickets[plate].spot;
      assert forall p :: p in lot.tickets && p != plate ==> lot.tickets[p].spot != i;
    }
  }

  /** In a consistent lot every active plate can leave: the "already closed"
      branch and a failing `free` cannot happen. */
  lemma ExitSucceeds(lot: Lot, plate: string, exitGateId: string, now: int)
    requires Consistent(lot) && plate in lot.tickets
    ensures ProcessExit(lot, plate, exitGateId, now).0.Ok?
  {
  }

  /** Entering and then leaving with a plate that held no ticket gives back
      the spots and the active tickets, and adds the closed ticket to the history. */
  lemma EnterThenExit(lot: Lot, plate: string, vt: VehicleType, wantsPowerPlug: bool,
                      entryGateId: string, entryTime: int, ticketId: string, exitGateId: string, exitTime: int)
    requires Consistent(lot) && plate !in lot.tickets
    requires AllocateSpot(lot, plate, vt, wantsPowerPlug, entryGateId, entryTime, ticketId).0.value.Some?
    ensures var entered := AllocateSpot(lot, plate, vt, wantsPowerPlug, entryGateId, entryTime, ticketId);
            var left := ProcessExit(entered.1, plate, exitGateId, exitTime);
            left.0.Ok? && left.1.spots == lot.spots && left.1.tickets == lot.tickets &&
            left.1.history == lot.history + [entered.0.value.value.(exitTime := Some(exitTime), exitGateId := Some(exitGateId))]
  {
    var entered := AllocateSpot(lot, plate, vt, wantsPowerPlug, entryGateId, entryTime, ticketId);
    var t := entered.0.value.value;
    ExitAfterEntry(lot, entered.1, plate, t, exitGateId, exitTime);
  }

  /** The exit half of `EnterThenExit`, for the lot an entry leaves behind. */
  lemma ExitAfterEntry(lot: Lot, lot1: Lot, plate: string, t: Ticket, exitGateId: string, exitTime: int)
    requires t.spot < |lot.spots| && lot.spots[t.spot].status.Available? && IsOpen(t)
    requires plate !in lot.tickets && SpotRefsValid(lot1)
    requires lot1 == Lot(lot.spots[t.spot := lot.spots[t.spot].(status := Occupied)], lot.tickets[plate := t], lot.history)
    ensures var left := ProcessExit(lot1, plate, exitGateId, exitTime);
            left.0.Ok? && left.1.spots == lot.spots && left.1.tickets == lot.tickets &&
            left.1.history == lot.history + [t.(exitTime := Some(exitTime), exitGateId := Some(exitGateId))]
  {
    var i := t.spot;
    assert lot1.tickets[plate] == t;
    assert lot1.spots[i].status.Occupied?;
    assert lot1.spots[i := lot1.spots[i].(status := Available)] == lot.spots;
    assert lot1.tickets - {plate} == lot.tickets;
  }

  /** Entering again with a plate that already holds a ticket replaces that
      ticket and leaves its spot OCCUPIED with no active ticket pointing at it,
      so no exit will ever free it. */
  lemma ReentryStrandsSpot(lot: Lot, plate: string, vt: VehicleType, wantsPowerPlug: bool,
                           entryGateId: string, now: int, ticketId: string)
    requires Consistent(lot) && plate in lot.tickets
    requires AllocateSpot(lot, plate, vt, wantsPowerPlug, entryGateId, now, ticketId).0.value.Some?
    ensures var lot1 := AllocateSpot(lot, plate, vt, wantsPowerPlug, entryGateId, now, ticketId).1;
            var prev := lot.tickets[plate].spot;
            lot1.spots[prev].status.Occupied? &&
            forall p :: p in lot1.tickets ==> lot1.tickets[p].spot != prev
  {
    var lot1 := AllocateSpot(lot, plate, vt, wantsPowerPlug, entryGateId, now, ticketId).1;
    var i := AllocateSpot(lot, plate, vt, wantsPowerPlug, entryGateId, now, ticketId).0.value.value.spot;
    assert i != lot.tickets[plate].spot;
  }
}

=== FILE: ParkingSample.dfy ===
/** The sample lot of `ParkingLotBuilder` (floor 1, rows 1-2, spots 1-5 per
    row) and the entry/exit sequence of the demo driver, with the clock
    readings left as parameters. */
module ParkingSample {
  import opened Wrappers
  import opened JavaText
  import opened ParkingSpot
  import opened ParkingTicket
  import opened PerHourPricing
  import opened ParkingLot

  /** Spots 1-2 of a row are SMALL, 3-4 MEDIUM, 5 LARGE. */
  function BuilderSize(num: int): SpotSize {
    if num <= 2 then Small else if num <= 4 then Medium else Large
  }

  /** Spots 1 and 3 of a row have a power plug. */
  predicate BuilderPlug(num: int) {
    num == 1 || num == 3
  }

  function RowOf(k: nat): int { k / 5 + 1 }
  function NumOf(k: nat): int { k % 5 + 1 }

  /** The builder's two nested loops, row-major: position `k` is row `k / 5 + 1`, spot `k % 5 + 1`. */
  function SampleSpots(): (s: seq<Spot>)
    ensures |s| == 10
  {
    seq(10, k requires 0 <= k < 10 =>
      NewSpot(1, RowOf(k), NumOf(k), BuilderSize(NumOf(k)), BuilderPlug(NumOf(k))))
  }

  /** Ids of single-digit locations on one floor order by row, then by spot number. */
  lemma SingleDigitIdOrder(f: nat, r1: nat, n1: nat, r2: nat, n2: nat)
    requires f < 10 && r1 < 10 && n1 < 10 && r2 < 10 && n2 < 10
    ensures CompareTo(GenerateId(f, r1, n1), GenerateId(f, r2, n2)) == if r1 != r2 then r1 - r2 else n1 - n2
  {
    var p := ['F', DigitChar(f), '-', 'R'];
    var a := [DigitChar(r1), '-', 'S', DigitChar(n1)];
    var b := [DigitChar(r2), '-', 'S', DigitChar(n2)];
    assert GenerateId(f, r1, n1) == p + a;
    assert GenerateId(f, r2, n2) == p + b;
    CompareToCommonPrefix(p, a, b);
    if r1 == r2 {
      CompareToCommonPrefix(a[..3], a[3..], b[3..]);
      assert a == a[..3] + a[3..] && b == a[..3] + b[3..];
    }
  }

  /** Every location of the sample lot has its own id. */
  lemma SampleIdsDistinct(k1: nat, k2: nat)
    requires k1 < 10 && k2 < 10 && k1 != k2
    ensures SampleSpots()[k1].id != SampleSpots()[k2].id
  {
    if SampleSpots()[k1].id == SampleSpots()[k2].id {
      GenerateIdInjective(1, RowOf(k1), NumOf(k1), 1, RowOf(k2), NumOf(k2));
    }
  }

  /** In a lot whose spot ids are the sample's, the least-id fitting spot is `best`
      when `best` fits and every spot that fits sits no earlier in its row. */
  lemma NearestInSample(spots: seq<Spot>, i: nat, best: nat)
    requires |spots| == 10 && i < 10 && best < 10
    requires forall k :: 0 <= k < 10 ==> spots[k].id == SampleSpots()[k].id
    requires RowOf(best) == 1
    requires RowOf(i) == 1 ==> NumOf(best) <= NumOf(i)
    requires CompareTo(spots[i].id, spots[best].id) <= 0
    ensures i == best
  {
    SingleDigitIdOrder(1, RowOf(i), NumOf(i), RowOf(best), NumOf(best));
  }

  /** The sample spots with the given positions OCCUPIED. */
  function SampleWith(taken: set<nat>): (s: seq<Spot>)
    ensures |s| == 10
  {
    seq(10, k requires 0 <= k < 10 =>
      if k in taken then SampleSpots()[k].(status := Occupied) else SampleSpots()[k])
  }

  lemma SampleWithNone(none: set<nat>)
    requires none == {}
    ensures SampleWith(none) == SampleSpots()
  {
  }

  lemma SampleWithOccupy(taken: set<nat>, i: nat)
    requires i < 10
    ensures SampleWith(taken)[i := SampleWith(taken)[i].(status := Occupied)] == SampleWith(taken + {i})
  {
  }

  lemma SampleWithFree(taken: set<nat>, i: nat)
    requires i < 10 && i in taken
    ensures SampleWith(taken)[i := SampleWith(taken)[i].(status := Available)] == SampleWith(taken - {i})
  {
  }

  /** In a lot with the sample's ids, allocation picks `best` when it fits and
      every fitting spot of row 1 is numbered no lower. */
  lemma AllocateInSample(lot: Lot, plate: string, vt: VehicleType, wantsPowerPlug: bool,
                         gate: string, now: int, ticketId: string, best: nat)
    requires |lot.spots| == 10 && best < 10
    requires forall k :: 0 <= k < 10 ==> lot.spots[k].id == SampleSpots()[k].id
    requires Fits(lot.spots[best], MinimumSize(vt)) && RowOf(best) == 1
    requires forall j :: 0 <= j < 10 && RowOf(j) == 1 && Fits(lot.spots[j], MinimumSize(vt)) ==> NumOf(best) <= NumOf(j)
    ensures var entered := AllocateSpot(lot, plate, vt, wantsPowerPlug, gate, now, ticketId);
            entered.0.value.Some? && entered.0.value.value.spot == best &&
            entered.1.spots == lot.spots[best := lot.spots[best].(status := Occupied)]
  {
    var r := AllocateSpot(lot, plate, vt, wantsPowerPlug, gate, now, ticketId).0;
    var i := r.value.value.spot;
    AllocateNearest(lot, plate, vt, wantsPowerPlug, gate, now, ticketId, best);
    NearestInSample(lot.spots, i, best);
  }

  /** With `taken` occupied, position `best` (in row 1) is free for `minSize`
      and no fitting spot of row 1 comes before it. */
  predicate RoomAt(taken: set<nat>, minSize: SpotSize, best: nat) {
    best < 10 && RowOf(best) == 1 && Fits(SampleWith(taken)[best], minSize) &&
    forall j :: 0 <= j < 10 && RowOf(j) == 1 && Fits(SampleWith(taken)[j], minSize) ==> NumOf(best) <= NumOf(j)
  }

  lemma SampleWithIds(taken: set<nat>)
    ensures forall k :: 0 <= k < 10 ==> SampleWith(taken)[k].id == SampleSpots()[k].id
  {
  }

  /** An entry into the sample lot with `taken` occupied lands on `best`. */
  lemma EnterSample(lot: Lot, taken: set<nat>, after: set<nat>, plate: string, vt: VehicleType, wantsPowerPlug: bool,
                    gate: string, now: int, ticketId: string, best: nat)
    requires lot.spots == SampleWith(taken) && RoomAt(taken, MinimumSize(vt), best) && after == taken + {best}
    ensures var entered := AllocateSpot(lot, plate, vt, wantsPowerPlug, gate, now, ticketId);
            entered.0.value.Some? && entered.0.value.value.spot == best &&
            entered.0.value.value.entryTime == now && IsOpen(entered.0.value.value) &&
            entered.1 == Lot(SampleWith(after), lot.tickets[plate := entered.0.value.value], lot.history)
  {
    SampleWithIds(taken);
    AllocateInSample(lot, plate, vt, wantsPowerPlug, gate, now, ticketId, best);
    SampleWithOccupy(taken, best);
  }

  lemma RoomForCar(none: set<nat>)
    requires none == {}
    ensures RoomAt(none, Medium, 2)
  {
    assert forall j :: 0 <= j < 10 ==> SampleWith(none)[j] == SampleSpots()[j];
  }

  lemma RoomForMotorcycle(taken: set<nat>)
    requires taken == {2}
    ensures RoomAt(taken, Small, 0)
  {
    assert forall j :: 0 <= j < 10 && j != 2 ==> SampleWith(taken)[j] == SampleSpots()[j];
  }

  /** A car entering the empty sample lot gets position 2, spot F1-R1-S3. */
  lemma CarEnters(lot0: Lot, none: set<nat>, one: set<nat>, plate: string, gate: string, now: int, ticketId: string)
    requires none == {} && one == {2} && lot0.spots == SampleWith(none)
    ensures var entered := AllocateSpot(lot0, plate, Car, true, gate, now, ticketId);
            entered.0.value.Some? && entered.0.value.value.spot == 2 &&
            entered.0.value.value.entryTime == now && IsOpen(entered.0.value.value) &&
            entered.1 == Lot(SampleWith(one), lot0.tickets[plate := entered.0.value.value], lot0.history)
  {
    RoomForCar(none);
    EnterSample(lot0, none, one, plate, Car, true, gate, now, ticketId, 2);
  }

  /** A motorcycle entering next gets position 0, spot F1-R1-S1. */
  lemma MotorcycleEnters(lot1: Lot, one: set<nat>, both: set<nat>, plate: string, gate: string, now: int, ticketId: string)
    requires one == {2} && both == {0, 2} && lot1.spots == SampleWith(one)
    ensures var entered := AllocateSpot(lot1, plate, Motorcycle, false, gate, now, ticketId);
            entered.0.value.Some? && entered.0.value.value.spot == 0 &&
            entered.0.value.value.entryTime == now && IsOpen(entered.0.value.value) &&
            entered.1 == Lot(SampleWith(both), lot1.tickets[plate := entered.0.value.value], lot1.history)
  {
    RoomForMotorcycle(one);
    EnterSample(lot1, one, both, plate, Motorcycle, false, gate, now, ticketId, 0);
  }

  /** Leaving from an OCCUPIED position of the sample frees it and bills the stay. */
  lemma LeaveSample(lot: Lot, plate: string, gate: string, now: int, taken: set<nat>, after: set<nat>, i: nat,
                    entry: int, base: int, hourly: int)
    requires i < 10 && i in taken && after == taken - {i}
    requires lot.spots == SampleWith(taken) && SpotRefsValid(lot)
    requires plate in lot.tickets && IsOpen(lot.tickets[plate]) && lot.tickets[plate].spot == i
    requires lot.tickets[plate].entryTime == entry
    requires base == BasePrice(SampleSpots()[i].size) && hourly == HourlyTotal(SampleSpots()[i])
    ensures var (b, lot1) := ProcessExit(lot, plate, gate, now);
            b == Ok(base + hourly * BillableHours(now - entry)) &&
            lot1.spots == SampleWith(after) &&
            lot1.tickets == lot.tickets - {plate} && |lot1.history| == |lot.history| + 1
  {
    assert lot.spots[i].status.Occupied?;
    SampleWithFree(taken, i);
  }

  /** What the demo driver observes: the two tickets, and the two bills
      (`None` when the vehicle got no ticket and so never leaves). */
  datatype MainRun = MainRun(
    carTicket: Option<Ticket>, motoTicket: Option<Ticket>,
    carBill: Option<Result<int, LotError>>, motoBill: Option<Result<int, LotError>>,
    lot: Lot)

  /** The demo driver: a car wanting a plug enters at EG1, a motorcycle not
      wanting one at EG2, then each vehicle that got a ticket leaves through
      XG1, the car first. The clock readings and ticket ids are parameters. */
  function RunMain(lot0: Lot, car: string, moto: string, carIn: int, motoIn: int,
                   carOut: int, motoOut: int, id1: string, id2: string): (run: MainRun)
    requires SpotRefsValid(lot0)
    ensures SpotRefsValid(run.lot)
  {
    var enter1 := AllocateSpot(lot0, car, Car, true, "EG1", carIn, id1);
    var enter2 := AllocateSpot(enter1.1, moto, Motorcycle, false, "EG2", motoIn, id2);
    var exit1 := if enter1.0.value.Some? then ProcessExit(enter2.1, car, "XG1", carOut) else (Ok(0), enter2.1);
    var exit2 := if enter2.0.value.Some? then ProcessExit(exit1.1, moto, "XG1", motoOut) else (Ok(0), exit1.1);
    MainRun(enter1.0.value, enter2.0.value,
            if enter1.0.value.Some? then Some(exit1.0) else None,
            if enter2.0.value.Some? then Some(exit2.0) else None,
            exit2.1)
  }

  /** The state after both demo vehicles entered: positions `both` taken,
      the car filed at position 2 and the motorcycle at position 0. */
  predicate AfterEntries(lot: Lot, both: set<nat>, car: string, moto: string, carIn: int, motoIn: int) {
    lot.spots == SampleWith(both) && SpotRefsValid(lot) &&
    lot.tickets.Keys == {car, moto} && |lot.history| == 0 &&
    lot.tickets[car].spot == 2 && lot.tickets[car].entryTime == carIn && IsOpen(lot.tickets[car]) &&
    lot.tickets[moto].spot == 0 && lot.tickets[moto].entryTime == motoIn && IsOpen(lot.tickets[moto])
  }

  lemma EntriesGive(lot2: Lot, both: set<nat>, car: string, moto: string, carIn: int, motoIn: int, t1: Ticket, t2: Ticket)
    requires car != moto
    requires lot2 == Lot(SampleWith(both), map[car := t1][moto := t2], [])
    requires t1.spot == 2 && t1.entryTime == carIn && IsOpen(t1)
    requires t2.spot == 0 && t2.entryTime == motoIn && IsOpen(t2)
    ensures AfterEntries(lot2, both, car, moto, carIn, motoIn)
  {
  }

  /** Both demo vehicles get a ticket, the car at position 2 and the
      motorcycle at position 0, and the lot is left as `AfterEntries` says. */
  lemma DemoEntries(lot0: Lot, none: set<nat>, one: set<nat>, both: set<nat>,
                    car: string, moto: string, carIn: int, motoIn: int, id1: string, id2: string)
    requires none == {} && one == {2} && both == {0, 2}
    requires lot0.spots == SampleWith(none) && lot0.tickets == map[] && lot0.history == [] && car != moto
    ensures var enter1 := AllocateSpot(lot0, car, Car, true, "EG1", carIn, id1);
            var enter2 := AllocateSpot(enter1.1, moto, Motorcycle, false, "EG2", motoIn, id2);
            enter1.0.value.Some? && enter1.0.value.value.spot == 2 &&
            enter2.0.value.Some? && enter2.0.value.value.spot == 0 &&
            AfterEntries(enter2.1, both, car, moto, carIn, motoIn)
  {
    var enter1 := AllocateSpot(lot0, car, Car, true, "EG1", carIn, id1);
    CarEnters(lot0, none, one, car, "EG1", carIn, id1);
    var enter2 := AllocateSpot(enter1.1, moto, Motorcycle, false, "EG2", motoIn, id2);
    MotorcycleEnters(enter1.1, one, both, moto, "EG2", motoIn, id2);
    EntriesGive(enter2.1, both, car, moto, carIn, motoIn, enter1.0.value.value, enter2.0.value.value);
  }

  /** Both vehicles leave the lot left by the entries: each bill is its
      spot's base price plus the combined hourly rate per started hour, and
      the lot is back to every spot AVAILABLE with no active ticket. */
  lemma DemoExits(lot2: Lot, both: set<nat>, one: set<nat>, none: set<nat>,
                  car: string, moto: string, carIn: int, motoIn: int, carOut: int, motoOut: int)
    requires both == {0, 2} && one == {0} && none == {}
    requires car != moto && AfterEntries(lot2, both, car, moto, carIn, motoIn)
    ensures var exit1 := ProcessExit(lot2, car, "XG1", carOut);
            var exit2 := ProcessExit(exit1.1, moto, "XG1", motoOut);
            exit1.0 == Ok(40 + 25 * BillableHours(carOut - carIn)) &&
            exit2.0 == Ok(20 + 15 * BillableHours(motoOut - motoIn)) &&
            exit2.1.spots == SampleSpots() && exit2.1.tickets == map[] && |exit2.1.history| == 2
  {
    DemoSpotPrices();
    var exit1 := ProcessExit(lot2, car, "XG1", carOut);
    LeaveSample(lot2, car, "XG1", carOut, both, one, 2, carIn, 40, 25);
    var exit2 := ProcessExit(exit1.1, moto, "XG1", motoOut);
    LeaveSample(exit1.1, moto, "XG1", motoOut, one, none, 0, motoIn, 20, 15);
    SampleWithNone(none);
    assert exit2.1.tickets.Keys == {};
  }

  /** From the freshly built lot, the car gets F1-R1-S3, the first MEDIUM
      spot, and the motorcycle F1-R1-S1, which has a plug, so its bill carries
      the plug charge it did not ask for. Afterwards no ticket is active and
      every spot is AVAILABLE again. */
  lemma DemoRun(lot0: Lot, car: string, moto: string, carIn: int, motoIn: int, carOut: int, motoOut: int,
                id1: string, id2: string)
    requires lot0.spots == SampleSpots() && lot0.tickets == map[] && lot0.history == []
    requires car == "KA-01-AB-1234" && moto == "KA-02-CD-5678"
    ensures var run := RunMain(lot0, car, moto, carIn, motoIn, carOut, motoOut, id1, id2);
            run.carTicket.Some? && run.carTicket.value.spot == 2 &&
            run.motoTicket.Some? && run.motoTicket.value.spot == 0 &&
            run.carBill == Some(Ok(40 + 25 * BillableHours(carOut - carIn))) &&
            run.motoBill == Some(Ok(20 + 15 * BillableHours(motoOut - motoIn))) &&
            run.lot.spots == SampleSpots() && run.lot.tickets == map[] && |run.lot.history| == 2
  {
    assert car != moto by {
      assert car[4] != moto[4];
    }
    var none: set<nat>, one: set<nat>, both: set<nat>, last: set<nat> := {}, {2}, {0, 2}, {0};
    SampleWithNone(none);
    DemoEntries(lot0, none, one, both, car, moto, carIn, motoIn, id1, id2);
    var enter1 := AllocateSpot(lot0, car, Car, true, "EG1", carIn, id1);
    var enter2 := AllocateSpot(enter1.1, moto, Motorcycle, false, "EG2", motoIn, id2);
    DemoExits(enter2.1, both, last, none, car, moto, carIn, motoIn, carOut, motoOut);
  }

  /** What the two demo spots charge. */
  lemma DemoSpotPrices()
    ensures BasePrice(SampleSpots()[2].size) == 40 && HourlyTotal(SampleSpots()[2]) == 25
    ensures BasePrice(SampleSpots()[0].size) == 20 && HourlyTotal(SampleSpots()[0]) == 15
  {
  }

  /** The ids the demo's spots carry. */
  lemma DemoSpotIds()
    ensures SampleSpots()[2].id == GenerateId(1, 1, 3) && SampleSpots()[0].id == GenerateId(1, 1, 1)
  {
  }
}

=== FILE: ParkingSpot.dfy ===
/** A parking spot: its location-derived id, its size, whether it has a
    power plug, and its status, with the two status-changing operations
    `occupy` and `free`. */
module ParkingSpot {
  import opened Wrappers
  import opened JavaText

  /** Ordered SMALL < MEDIUM < LARGE. */
  datatype SpotSize = Small | Medium | Large

  datatype SpotStatus = Available | Occupied | OutOfService

  datatype Spot = Spot(
    id: string,
    floor: int,
    row: int,
    number: int,
    size: SpotSize,
    status: SpotStatus,
    hasPowerPlug: bool)

  /** The `IllegalStateException`s of `occupy` and `free`, carrying the spot id. */
  datatype SpotError = NotAvailable(spotId: string) | NotOccupied(spotId: string)

  /** `"F" + floor + "-R" + row + "-S" + number`. */
  function GenerateId(floor: int, row: int, number: int): (id: string)
    ensures |id| >= 8 && id[0] == 'F'
  {
    "F" + IntToString(floor) + "-R" + IntToString(row) + "-S" + IntToString(number)
  }

  /** Cutting at the first `c` recovers both sides when the left side holds no `c`. */
  lemma SplitAtFirst(c: char, x1: string, t1: string, x2: string, t2: string)
    requires c !in x1 && c !in x2
    requires x1 + [c] + t1 == x2 + [c] + t2
    ensures x1 == x2 && t1 == t2
  {
    var w := x1 + [c] + t1;
    IndexOfAfter(c, x1, t1);
    IndexOfAfter(c, x2, t2);
    assert x1 == w[..|x1|] && x2 == w[..|x2|];
    assert t1 == w[|x1| + 1..] && t2 == w[|x2| + 1..];
  }

  /** Two locations share an id only if they are the same location: the
      letters `R` and `S` never occur in a rendered `int`, so the id splits
      back uniquely at its first `R` and at the first `S` after that. */
  lemma GenerateIdInjective(f1: int, r1: int, n1: int, f2: int, r2: int, n2: int)
    requires GenerateId(f1, r1, n1) == GenerateId(f2, r2, n2)
    ensures f1 == f2 && r1 == r2 && n1 == n2
  {
    var a1, a2 := IntToString(f1), IntToString(f2);
    var tail1 := IntToString(r1) + "-" + "S" + IntToString(n1);
    var tail2 := IntToString(r2) + "-" + "S" + IntToString(n2);
    IdShape(a1, IntToString(r1), IntToString(n1));
    IdShape(a2, IntToString(r2), IntToString(n2));
    IntToStringAvoids('R', f1);
    IntToStringAvoids('R', f2);
    SplitFloor(a1, tail1, a2, tail2);
    IntToStringInjective(f1, f2);
    IntToStringAvoids('S', r1);
    IntToStringAvoids('S', r2);
    SplitRow(IntToString(r1), IntToString(n1), IntToString(r2), IntToString(n2));
    IntToStringInjective(r1, r2);
    IntToStringInjective(n1, n2);
  }

  /** An id read as the floor part, the first `R`, and the rest. */
  lemma IdShape(a: string, b: string, c: string)
    ensures "F" + a + "-R" + b + "-S" + c == ("F" + a + "-") + ['R'] + (b + "-" + "S" + c)
  {
    assert "-R" == "-" + ['R'] && "-S" == "-" + "S";
  }

  /** The floor part of an id ends at its first `R`. */
  lemma SplitFloor(a1: string, tail1: string, a2: string, tail2: string)
    requires 'R' !in a1 && 'R' !in a2
    requires ("F" + a1 + "-") + ['R'] + tail1 == ("F" + a2 + "-") + ['R'] + tail2
    ensures a1 == a2 && tail1 == tail2
  {
    var head1, head2 := "F" + a1 + "-", "F" + a2 + "-";
    SplitAtFirst('R', head1, tail1, head2, tail2);
    assert a1 == head1[1..|head1| - 1] && a2 == head2[1..|head2| - 1];
  }

  /** The row part of what follows the `R` ends at the first `S`. */
  lemma SplitRow(b1: string, c1: string, b2: string, c2: string)
    requires 'S' !in b1 && 'S' !in b2
    requires b1 + "-" + "S" + c1 == b2 + "-" + "S" + c2
    ensures b1 == b2 && c1 == c2
  {
    var mid1, mid2 := b1 + "-", b2 + "-";
    assert b1 + "-" + "S" + c1 == mid1 + ['S'] + c1;
    assert b2 + "-" + "S" + c2 == mid2 + ['S'] + c2;
    SplitAtFirst('S', mid1, c1, mid2, c2);
    assert b1 == mid1[..|mid1| - 1] && b2 == mid2[..|mid2| - 1];
  }

  /** The constructor: the id comes from the location and the spot starts AVAILABLE. */
  function NewSpot(floor: int, row: int, number: int, size: SpotSize, hasPowerPlug: bool): (s: Spot)
    ensures IsAvailable(s)
    ensures s.id == GenerateId(floor, row, number)
    ensures s.floor == floor && s.row == row && s.number == number
    ensures s.size == size && s.hasPowerPlug == hasPowerPlug
  {
    Spot(GenerateId(floor, row, number), floor, row, number, size, Available, hasPowerPlug)
  }

  predicate IsAvailable(s: Spot) {
    s.status == Available
  }

  /** `occupy`: AVAILABLE becomes OCCUPIED; any other status throws and the spot is untouched. */
  function Occupy(s: Spot): (r: Result<Spot, SpotError>)
    ensures r.Ok? <==> IsAvailable(s)
    ensures r.Ok? ==> r.value.status == Occupied && r.value.(status := s.status) == s
    ensures r.Err? ==> r.error == NotAvailable(s.id)
  {
    if s.status != Available then Err(NotAvailable(s.id)) else Ok(s.(status := Occupied))
  }

  /** `free`: OUT_OF_SERVICE is left as it is, OCCUPIED becomes AVAILABLE,
      and AVAILABLE throws. */
  function Free(s: Spot): (r: Result<Spot, SpotError>)
    ensures r.Err? <==> s.status.Available?
    ensures s.status == OutOfService ==> r == Ok(s)
    ensures s.status == Occupied ==> r.Ok? && IsAvailable(r.value) && r.value.(status := s.status) == s
    ensures r.Err? ==> r.error == NotOccupied(s.id)
  {
    if s.status == OutOfService then Ok(s)
    else if s.status != Occupied then Err(NotOccupied(s.id))
    else Ok(s.(status := Available))
  }

  /** Freeing a spot one has just occupied gives back the spot as it was. */
  lemma OccupyThenFree(s: Spot)
    requires IsAvailable(s)
    ensures Occupy(s).Ok? && Free(Occupy(s).value) == Ok(s)
  {
  }

  /** Occupying a spot one has just freed from OCCUPIED gives back the spot as it was. */
  lemma FreeThenOccupy(s: Spot)
    requires s.status == Occupied
    ensures Free(s).Ok? && Occupy(Free(s).value) == Ok(s)
  {
  }

  /** An out-of-service spot can be neither occupied nor released into service. */
  lemma OutOfServiceStaysOut(s: Spot)
    requires s.status == OutOfService
    ensures Occupy(s).Err?
    ensures Free(s) == Ok(s) && !IsAvailable(Free(s).value)
  {
  }
}

=== FILE: ParkingTicket.dfy ===
/** The ticket a vehicle receives on entry and gives back on exit. Times are
    whole seconds on one clock; the spot is named by its position in the
    lot's spot list. */
module ParkingTicket {
  import opened Wrappers

  datatype VehicleType = Motorcycle | Car | Bus | Truck

  datatype Ticket = Ticket(
    ticketId: string,
    vehicleType: VehicleType,
    licensePlate: string,
    entryTime: int,
    exitTime: Option<int>,
    spot: nat,
    entryGateId: string,
    exitGateId: Option<string>,
    wantsPowerPlug: bool)

  /** The `IllegalStateException` of a second `markExited`. */
  datatype TicketError = AlreadyClosed(ticketId: string)

  /** A ticket is open until `markExited` has been called on it. */
  predicate IsOpen(t: Ticket) {
    t.exitTime.None?
  }

  /** The constructor; `ticketId` is the whole id, `TICKET-` followed by the id generator's value. */
  function NewTicket(ticketId: string, vehicleType: VehicleType, licensePlate: string,
                     entryTime: int, spot: nat, entryGateId: string, wantsPowerPlug: bool): (t: Ticket)
    ensures IsOpen(t) && t.exitGateId.None?
    ensures t.ticketId == ticketId && t.vehicleType == vehicleType && t.licensePlate == licensePlate
    ensures t.entryTime == entryTime && t.spot == spot && t.entryGateId == entryGateId
    ensures t.wantsPowerPlug == wantsPowerPlug
  {
    Ticket(ticketId, vehicleType, licensePlate, entryTime, None, spot, entryGateId, None, wantsPowerPlug)
  }

  /** `markExited`: the first call records the exit time and gate; a later
      call throws and keeps the first values. */
  function MarkExited(t: Ticket, exitTime: int, exitGateId: string): (r: Result<Ticket, TicketError>)
    ensures r.Ok? <==> IsOpen(t)
    ensures r.Ok? ==> r.value.exitTime == Some(exitTime) && r.value.exitGateId == Some(exitGateId)
    ensures r.Ok? ==> r.value.(exitTime := t.exitTime, exitGateId := t.exitGateId) == t
    ensures r.Err? ==> r.error == AlreadyClosed(t.ticketId)
  {
    if t.exitTime.Some? then Err(AlreadyClosed(t.ticketId))
    else Ok(t.(exitTime := Some(exitTime), exitGateId := Some(exitGateId)))
  }

  /** A ticket can be closed once only: the second close fails, whatever
      its time and gate, and the first values stay. */
  lemma MarkExitedOnce(t: Ticket, time1: int, gate1: string, time2: int, gate2: string)
    requires IsOpen(t)
    ensures MarkExited(t, time1, gate1).Ok?
    ensures MarkExited(MarkExited(t, time1, gate1).value, time2, gate2).Err?
    ensures !IsOpen(MarkExited(t, time1, gate1).value)
  {
  }

  /** A freshly issued ticket can always be closed. */
  lemma NewTicketCloses(ticketId: string, vehicleType: VehicleType, licensePlate: string,
                        entryTime: int, spot: nat, entryGateId: string, wantsPowerPlug: bool,
                        exitTime: int, exitGateId: string)
    ensures MarkExited(NewTicket(ticketId, vehicleType, licensePlate, entryTime, spot, entryGateId, wantsPowerPlug),
                       exitTime, exitGateId)
            == Ok(Ticket(ticketId, vehicleType, licensePlate, entryTime, Some(exitTime), spot,
                         entryGateId, Some(exitGateId), wantsPowerPlug))
  {
  }
}

=== FILE: PerHourPricing.dfy ===
/** Per-hour pricing: a base price and an hourly rate by spot size, plus a
    power-plug charge when the spot has a plug, with every started hour
    billed and at least one hour billed. Money is in whole currency units:
    every constant is a whole number, so the source's `double` arithmetic is
    exact here. */
module PerHourPricing {
  import opened Wrappers
  import opened JavaText
  import opened ParkingSpot
  import opened ParkingTicket

  const PlugRatePerHour := 5

  function BasePrice(size: SpotSize): int {
    match size
    case Small => 20
    case Medium => 40
    case Large => 60
  }

  function RatePerHour(size: SpotSize): int {
    match size
    case Small => 10
    case Medium => 20
    case Large => 30
  }

  /** `(seconds + 3600 - 1) / 3600` in `long` arithmetic, raised to 1 when not positive. */
  function BillableHours(seconds: int): (h: int)
    ensures h >= 1
    ensures seconds <= 0 ==> h == 1
    ensures seconds > 0 ==> (h - 1) * 3600 < seconds <= h * 3600
  {
    var q := JavaDiv(seconds + 3600 - 1, 3600);
    if q <= 0 then 1 else q
  }

  /** For a positive duration the bounds pin the hours down: they are the ceiling of seconds / 3600. */
  lemma BillableHoursIsCeiling(seconds: int, h: int)
    requires seconds > 0
    requires (h - 1) * 3600 < seconds <= h * 3600
    ensures BillableHours(seconds) == h
  {
    var b := BillableHours(seconds);
    assert (b - 1) * 3600 < h * 3600 && (h - 1) * 3600 < b * 3600;
  }

  lemma BillableHoursMonotone(s1: int, s2: int)
    requires s1 <= s2
    ensures BillableHours(s1) <= BillableHours(s2)
  {
    var h1, h2 := BillableHours(s1), BillableHours(s2);
    if s1 > 0 {
      assert (h1 - 1) * 3600 < h2 * 3600;
    }
  }

  /** `Duration.between(entry, exit).getSeconds()` on whole-second times. */
  function Seconds(entry: int, exit: int): int {
    exit - entry
  }

  /** `computePowerPlugCharge`: the plug is billed by the hour when the
      allocated spot has one, up to the exit time or, for an open ticket, up
      to `now`. */
  function PlugCharge(ticket: Ticket, spot: Spot, now: int): (c: int)
    ensures !spot.hasPowerPlug ==> c == 0
    ensures spot.hasPowerPlug && ticket.exitTime.Some? ==>
              c == PlugRatePerHour * BillableHours(Seconds(ticket.entryTime, ticket.exitTime.value))
    ensures spot.hasPowerPlug && ticket.exitTime.None? ==>
              c == PlugRatePerHour * BillableHours(Seconds(ticket.entryTime, now))
  {
    if spot.hasPowerPlug then
      var exit := if ticket.exitTime.Some? then ticket.exitTime.value else now;
      PlugRatePerHour * BillableHours(Seconds(ticket.entryTime, exit))
    else 0
  }

  /** `calculatePrice(ticket, exitTime)`; `spot` is the ticket's allocated
      spot and `now` the clock reading the plug charge falls back on. */
  function CalculatePrice(ticket: Ticket, spot: Spot, exitTime: int, now: int): (total: int)
    ensures total >= BasePrice(spot.size) + RatePerHour(spot.size)
  {
    var hours := BillableHours(Seconds(ticket.entryTime, exitTime));
    BasePrice(spot.size) + RatePerHour(spot.size) * hours + PlugCharge(ticket, spot, now)
  }

  /** The hourly rate billed for a spot: its size's rate, plus the plug rate when it has a plug. */
  function HourlyTotal(spot: Spot): int {
    RatePerHour(spot.size) + (if spot.hasPowerPlug then PlugRatePerHour else 0)
  }

  /** For a ticket closed at the billed exit time, as on exit, the bill is the
      base price plus one combined hourly rate per started hour. */
  lemma PriceOfClosedTicket(ticket: Ticket, spot: Spot, exitTime: int, now: int)
    requires ticket.exitTime == Some(exitTime)
    ensures CalculatePrice(ticket, spot, exitTime, now)
            == BasePrice(spot.size) + HourlyTotal(spot) * BillableHours(Seconds(ticket.entryTime, exitTime))
  {
  }

  /** On a closed ticket the clock plays no part. */
  lemma PriceIgnoresClockWhenClosed(ticket: Ticket, spot: Spot, exitTime: int, now1: int, now2: int)
    requires ticket.exitTime == Some(exitTime)
    ensures CalculatePrice(ticket, spot, exitTime, now1) == CalculatePrice(ticket, spot, exitTime, now2)
  {
  }

  /** The plug is billed from the spot's equipment; whether the driver asked for one does not matter. */
  lemma PlugChargeIgnoresRequest(ticket: Ticket, spot: Spot, exitTime: int, now: int)
    ensures CalculatePrice(ticket.(wantsPowerPlug := !ticket.wantsPowerPlug), spot, exitTime, now)
            == CalculatePrice(ticket, spot, exitTime, now)
  {
  }

  /** Staying longer never costs less. */
  lemma PriceMonotone(ticket: Ticket, spot: Spot, exit1: int, exit2: int)
    requires exit1 <= exit2
    ensures CalculatePrice(ticket.(exitTime := Some(exit1)), spot, exit1, exit1)
            <= CalculatePrice(ticket.(exitTime := Some(exit2)), spot, exit2, exit2)
  {
    var h1 := BillableHours(Seconds(ticket.entryTime, exit1));
    var h2 := BillableHours(Seconds(ticket.entryTime, exit2));
    BillableHoursMonotone(Seconds(ticket.entryTime, exit1), Seconds(ticket.entryTime, exit2));
    PriceOfClosedTicket(ticket.(exitTime := Some(exit1)), spot, exit1, exit1);
    PriceOfClosedTicket(ticket.(exitTime := Some(exit2)), spot, exit2, exit2);
    assert HourlyTotal(spot) * h1 <= HourlyTotal(spot) * h2;
  }

  /** A stay of up to one hour, including a zero or negative one, costs
      the base price plus one hour. */
  lemma FirstHourPrice(ticket: Ticket, spot: Spot, exitTime: int)
    requires ticket.exitTime == Some(exitTime)
    requires Seconds(ticket.entryTime, exitTime) <= 3600
    ensures CalculatePrice(ticket, spot, exitTime, exitTime) == BasePrice(spot.size) + HourlyTotal(spot)
  {
    var s := Seconds(ticket.entryTime, exitTime);
    if s > 0 {
      BillableHoursIsCeiling(s, 1);
    }
  }
}

=== FILE: WithdrawTransaction.dfy ===
/** A cash withdrawal: check the dispenser, the balance and the limit in
    that order, then debit the account, then dispense. The bank is an
    oracle whose answers for this card and amount are given. */
module WithdrawTransaction {
  import opened Wrappers
  import opened LeastNotes
  import opened CashDispenser

  datatype Status = Pending | Success | Failed

  /** Why a withdrawal failed, one reason per message the transaction logs. */
  datatype Reason = InsufficientCash | InsufficientBalance | LimitExceeded | DebitRefused | NotDispensed

  /** The bank's answers to `hasSufficientBalance`, `hasNotExceededLimit`
      and `debitAccount` for this card and amount. */
  datatype Bank = Bank(sufficientBalance: bool, withinLimit: bool, debitSucceeds: bool)

  /** The stub bank of the simulation: balance always sufficient, limit
      always exceeded, debit always accepted. */
  const StubBank: Bank := Bank(true, false, true)

  datatype Txn = Txn(amount: int, status: Status)

  /** A transaction as created: pending. */
  function NewTxn(amount: int): (t: Txn)
    ensures t.status == Pending && t.amount == amount
  {
    Txn(amount, Pending)
  }

  /** `validate`: the first failing check marks the transaction failed and
      names the reason; when all pass the transaction is untouched. */
  function Validate(t: Txn, d: Dispenser, bank: Bank): (r: (Option<Reason>, Txn))
    ensures r.0.None? <==> CanDispenseAmount(d, t.amount) && bank.sufficientBalance && bank.withinLimit
    ensures r.0.None? ==> r.1 == t
    ensures r.0.Some? ==> r.1 == t.(status := Failed)
    ensures r.0 == Some(InsufficientCash) <==> !CanDispenseAmount(d, t.amount)
    ensures r.0 == Some(InsufficientBalance) <==> CanDispenseAmount(d, t.amount) && !bank.sufficientBalance
    ensures r.0 == Some(LimitExceeded) <==>
      CanDispenseAmount(d, t.amount) && bank.sufficientBalance && !bank.withinLimit
  {
    if !CanDispenseAmount(d, t.amount) then (Some(InsufficientCash), t.(status := Failed))
    else if !bank.sufficientBalance then (Some(InsufficientBalance), t.(status := Failed))
    else if !bank.withinLimit then (Some(LimitExceeded), t.(status := Failed))
    else (None, t)
  }

  /** What `execute` leaves behind: its answer, the transaction, the failure
      reason if any, whether the account was asked to be debited, and the
      dispenser. */
  datatype Outcome = Outcome(ok: bool, txn: Txn, reason: Option<Reason>, debitRequested: bool, dispenser: Dispenser)

  /** `execute`: validate, then debit, then dispense. */
  function Execute(t: Txn, d: Dispenser, bank: Bank): (r: Result<Outcome, DispenseError>)
    ensures r.Ok?
    ensures r.value.ok <==> r.value.txn.status == Success
    ensures r.value.ok <==> r.value.reason.None?
    ensures r.value.txn.amount == t.amount
    ensures !r.value.ok ==> r.value.txn.status == Failed
    ensures r.value.debitRequested <==> Validate(t, d, bank).0.None?
    ensures r.value.ok <==> r.value.debitRequested && bank.debitSucceeds
    ensures !r.value.ok ==> r.value.dispenser == d
    ensures r.value.ok ==> Total(r.value.dispenser.slots) == Total(d.slots) - t.amount
    ensures r.value.reason != Some(NotDispensed)
  {
    var (failure, validated) := Validate(t, d, bank);
    if failure.Some? then
      Ok(Outcome(false, validated, failure, false, d))
    else if !bank.debitSucceeds then
      Ok(Outcome(false, t.(status := Failed), Some(DebitRefused), true, d))
    else
      CheckedDispenseSucceeds(d, t.amount);
      match Dispense(d, t.amount)
      case Err(e) => Err(e)
      case Ok((dispensed, after)) =>
        if !dispensed then Ok(Outcome(false, t.(status := Failed), Some(NotDispensed), true, after))
        else Ok(Outcome(true, t.(status := Success), None, true, after))
  }

  /** A validation that passes leaves a new transaction pending. */
  lemma ValidatedStaysPending(amount: int, d: Dispenser, bank: Bank)
    requires Validate(NewTxn(amount), d, bank).0.None?
    ensures Validate(NewTxn(amount), d, bank).1.status == Pending
  {
  }

  /** With the stub bank every withdrawal fails before the account is
      touched and leaves the dispenser as it was. */
  lemma StubBankRefusesAll(t: Txn, d: Dispenser)
    ensures var o := Execute(t, d, StubBank).value;
      !o.ok && !o.debitRequested && o.dispenser == d && o.txn.status == Failed
    ensures CanDispenseAmount(d, t.amount) ==> Execute(t, d, StubBank).value.reason == Some(LimitExceeded)
  {
  }

  /** A withdrawal that gets as far as the debit is always paid out when the
      debit succeeds: money never leaves the account without leaving the
      dispenser. */
  lemma DebitImpliesPayout(t: Txn, d: Dispenser, bank: Bank)
    requires Execute(t, d, bank).value.debitRequested && bank.debitSucceeds
    ensures Execute(t, d, bank).value.ok
    ensures 0 < t.amount <= Total(d.slots)
  {
  }
}

=== FILE: Wrappers.dfy ===
/** Small failure-carrying datatypes shared by every module of the model.
    `Option` stands in for a Java reference that may be `null`; `Result`
    stands in for a call that either returns or throws. */
module Wrappers {

  datatype Option<+T> = None | Some(value: T)

  datatype Result<+T, +E> = Ok(value: T) | Err(error: E)
}
